=== FILE: README.md ===
# Image suggestion API: a Dafny model of its core

This project models the core of Wikimedia's image suggestion service in Dafny
and proves properties of the model. The service answers `/{lang}/{wiki}/pages`
requests with pages that lack images, and it suggests images for each page.
Suggestions come from two places:

- the image-matching algorithm's results, read from TSV files into SQLite;
- Commons' MediaSearch, queried through the MediaWiki Action API.

The repository holds two generations of the code side by side, and both are
modelled:

- **The current store.** `lib/AlgoResults.js`, `lib/database/Database.js` and
  `lib/MediaSearchResults.js` are modelled by modules `AlgoResults`, `Ingest`,
  `IngestTheorems`, `IngestOutcome`, `Database` and `MediaSearch`.
- **The earlier store, which the request handler uses.** `lib/algoResults.js`,
  `lib/database/database.js` and `lib/mediaSearchResults.js` are modelled by
  modules `LegacyAlgoResults`, `LegacyIngest`, `LegacyIngestTheorems`,
  `LegacyDatabase` and `LegacyMediaSearch`.
- **Shared by both.** `lib/tsvToJson.js` is module `TsvToJson`, and
  `lib/wikiId.js` is `WikiId`.
- **The request handler.** `lib/imageSuggestions.js` is modelled by
  `ImageSuggestions` and `MergeTheorems`.

Helper modules:

- `JsBase` holds `Option`, `Result`, dynamic values and HTTP errors.
- `JsStrings` holds `split`/`join`, `trim` and number rendering.
- `HeaderCheck` is the header comparison the three TSV readers share.
- `Gathering` flattens batches.
- `MwApi` holds the Action API query and the response shape.

How the model stands in for JavaScript:

- **Ingestion.** Line-by-line ingestion is a fold over the lines of a file.
  The database appears only as the sequence of insert calls it receives.
  Building an insert's placeholders can throw synchronously, and that is
  modelled. An image insert whose column count is 0 throws a RangeError.
  The fold stops there, with the link insert not made.
- **Numbers.** `parseInt` is a function parameter; its `None` result is `NaN`.
- **Outside results.** Network, database and promise results are inputs: a
  resolved value or the error a promise rejects with.
- **Errors.** Thrown errors become `Failure` values.
- **Partners.** Some operations are checked against an independent reference
  definition or an inverse through an all-inputs lemma:
  - both ingestion folds, against the page, image and link rows a file should produce;
  - the TSV conversion, against the records a TSV text should produce;
  - the MediaSearch sort, against any sorted permutation of the pages;
  - the placeholder strings, against the number of values they must bind;
  - the merge of MediaSearch results, against the requests the pages made;
  - the three defects, against their corrected versions (see Findings).

  The small decision functions have case-by-case contracts that follow the
  source's branches and have no separate reference definition. These include
  the row-count and column choice, the page query, the request checks, the
  page mapping, the empty-value tests and `insertOrIgnore`.

## Model

| member | source | states |
|---|---|---|
| HeaderCheck.Validate | lib/AlgoResults.js:34-43 | A header row is accepted exactly when it equals the expected list. A length mismatch is reported first. Otherwise the error names the first differing position, with the header and the expected name. |
| HeaderCheck.FirstMismatch | lib/AlgoResults.js:38-42 | For two equally long header lists, the result is nothing exactly when the lists are equal. Otherwise it is an index where they differ, and all earlier positions agree. |
| AlgoResults.ValidateHeaders | lib/AlgoResults.js:34-43 | The current reader accepts a header row exactly when it equals the nine expected columns. It gives the length message when the lengths differ, and otherwise the first mismatching pair. |
| AlgoResults.GetPageTableRowCount | lib/AlgoResults.js:53-61 | The `ima` source reads the image-matching row count of `<wiki>_page`; every other source reads the all-pages count. The result is absent exactly when that cache lacks the table. |
| AlgoResults.ColumnFor | lib/AlgoResults.js:73 | The numbering column is `row_num_ima` exactly when the source is `ima`. |
| AlgoResults.QueryDBForRowNums | lib/AlgoResults.js:71-78 | The lookup reads the source's numbering column from the partition's page table. Its IN list splits back into exactly the requested ids when no id contains a comma. |
| AlgoResults.RowNumsOutcome | lib/AlgoResults.js:79-92 | A failed database call becomes a 500 error naming the partition, and only a failed call does. Otherwise there is one value per returned row, in order, read from `row_num_ima` for `ima` and from `row_num` otherwise. |
| AlgoResults.QueryDBForPages | lib/AlgoResults.js:106-112 | The `ima` source selects the inner-join statement and every other source the all-pages statement. The limit is passed through. Explicit row numbers restrict the WHERE test to the source's column and force the offset to 0. Otherwise the test is `1` and the offset is kept. |
| AlgoResults.PagesOutcome | lib/AlgoResults.js:187-199 | A failed pages query becomes a 500 error naming the partition, and only a failed query does. Otherwise the rows are returned unchanged. |
| AlgoResults.NumberListRoundTrip | lib/AlgoResults.js:110 | `rowNums.join()` splits back at commas into exactly the rendered row numbers, in order. |
| Ingest.DataRows | lib/AlgoResults.js:236-240 | Every counted data row has a non-empty first field. Lines whose first field is empty are skipped. |
| Ingest.FlushContents | lib/AlgoResults.js:278-288 | A chunk flush always makes one page insert with the buffered page rows. Its image insert throws when image values are buffered and their placeholders cannot be built; the error is the RangeError. When it throws, no image or link row is added, the buffers are not reset and the fold stops. Otherwise the flush adds exactly the buffered image values, adds the link rows only when there are image values, and empties the buffers. |
| Ingest.ThrowsWhenWidthZero | lib/database/Database.js:24-29 | An image insert of buffered values throws exactly when the width of the latest image row is 0, and what it throws is the RangeError. |
| Ingest.FinishContents | lib/AlgoResults.js:294-302 | The end handler adds exactly the buffered page rows. If the image insert throws, it adds no image or link row and stops with the RangeError before resolving. Otherwise it adds exactly the buffered image values, and link rows only together with them. |
| IngestTheorems.RunInvariant | lib/AlgoResults.js:218-292 | After a good header, for every prefix of the file, the state is in one of two conditions. Running: inserted rows plus buffered rows equal the reference page rows, image values and link rows; the counters equal one plus the pages, and one plus the pages with an image; the page-insert count and the line counter track the counted lines modulo 40. Stopped: an image insert threw the RangeError after `reject`, some counted row has at most two fields, and the inserted page rows and image values are prefixes of the reference. |
| IngestOutcome.ShortRowThrows | lib/AlgoResults.js:252-264 | A data row with at most two fields, met while image values are buffered, adds no image value and leaves the image-row width at 0. The next image insert then throws the RangeError, whether at a chunk flush or at the end handler, and adds no image or link row. The row has already caused `reject`. |
| IngestOutcome.InsertFileEmits | lib/AlgoResults.js:228-304 | For a file with a good header, the inserted page rows and image values are prefixes of the reference. Unless an image insert threw, they are exactly the reference. An insert can throw only when some counted row has at most two fields; when none does, the link rows are also exactly the reference. No image or link insert is empty. The promise resolves exactly when every counted row has nine fields. Otherwise it is rejected with `Invalid row to insert`, possibly followed by the thrown RangeError. |
| IngestOutcome.ChunkFlushes | lib/AlgoResults.js:278-290 | Before the end flush, if no insert threw, there has been one page insert per 40 counted lines, and the counter holds the remainder plus one. A chunk flush can throw only when some counted row has at most two fields and is malformed, and then the fold holds the RangeError. |
| IngestOutcome.PageNumbering | lib/AlgoResults.js:245-276 | The i-th inserted page has `row_num` i + 1 and the id and title of its first row. Its `row_num_ima` is nonzero exactly when that first row has an image, and is then one more than the earlier such pages. The nonzero `row_num_ima` values run 1..M over the inserted pages. Every page is inserted unless an image insert threw; then the first ones are. |
| IngestOutcome.ImaNumbersDense | lib/AlgoResults.js:266-272 | The nonzero `row_num_ima` values of the numbered pages are exactly 1, 2, ..., M, where M is the number of pages whose first row has an image. |
| IngestOutcome.NumberPagesAt | lib/AlgoResults.js:266-276 | Page i of the numbered list is the page row of its first line, given the pages before it. |
| IngestOutcome.InsertFileBadHeader | lib/AlgoResults.js:232-235 | A file whose first line is not the expected header makes no insert. The header check's exception carries its message, and the promise never settles. |
| IngestOutcome.RunAfterBadHeader | lib/AlgoResults.js:232-235 | Once the header check has failed, no later line changes the state. |
| LegacyAlgoResults.ValidateHeaders | lib/algoResults.js:29-38 | The earlier reader accepts exactly the eight expected columns. Otherwise it reports the first mismatching pair. On rows of the right length it gives the current reader's verdict; on rows of the wrong length its message differs. |
| LegacyAlgoResults.QueryDBForPages | lib/algoResults.js:48-51 | A missing limit is 10 and a missing offset is 0. A present one is whatever `parseInt` gives, `NaN` included. |
| LegacyIngestTheorems.RunInvariant | lib/algoResults.js:120-160 | For every prefix of a file with a good header, inserted plus buffered rows equal one page row per data line and one image row per line with a non-null image. The counter tracks the non-null lines modulo 20. |
| LegacyIngestTheorems.InsertFileEmits | lib/algoResults.js:125-174 | The page inserts carry one page row per data line, in order, with no de-duplication. The image inserts carry one image row per line whose image id is not null. No insert is empty. One page insert happens per 20 counted lines before close. The promise is rejected exactly when some line is malformed. |
| LegacyIngestTheorems.InsertFileBadHeader | lib/algoResults.js:126-128 | A file with a bad header inserts nothing. The header check's exception carries its message, and the promise never settles. |
| LegacyIngestTheorems.FlushContents | lib/algoResults.js:151-157 | A chunk flush hands over exactly the buffered page and image rows, in two inserts. |
| LegacyIngestTheorems.FinishContents | lib/algoResults.js:163-169 | The close handler hands over exactly the buffered rows, and only the non-empty buffers. |
| TsvToJson.ValidateTSVHeaders | lib/tsvToJson.js:21-31 | Headers are accepted exactly when they equal the expected list. Otherwise the error is the count message or `Expected h to be e` for the first mismatch. |
| TsvToJson.ToRecord | lib/tsvToJson.js:103-107 | The record built from a data line has exactly the header names as its keys. |
| TsvToJson.RecordField | lib/tsvToJson.js:103-107 | A header that does not recur later in the header row maps to the field at its own position, or to `undefined` past the end of the line. |
| TsvToJson.RecordFields | lib/tsvToJson.js:103-107 | With distinct headers, every header maps to the field at its position. |
| TsvToJson.TsvToJson | lib/tsvToJson.js:92-118 | Without expected headers the conversion succeeds. With them, it fails exactly when the first line's headers differ. A count mismatch gives the count message; otherwise the first mismatching position is reported. |
| TsvToJson.ConvertWithoutCallback | lib/tsvToJson.js:99-117 | Without a callback, the output is one record per non-blank line, in order. Blank lines are those that `trim` empties. |
| TsvToJson.ConvertWithCallback | lib/tsvToJson.js:108-114 | With a callback, the output is the callback folded over exactly those records, in order. |
| TsvToJson.PushingCallback | lib/tsvToJson.js:110-114 | A callback that only appends its record changes nothing: folding it gives the records themselves. |
| TsvToJson.PushingCallbackSameOutput | lib/tsvToJson.js:108-114 | Converting with an appending callback gives the same output as converting without a callback. |
| TsvToJson.TsvToJsonRecords | lib/tsvToJson.js:92-118 | Without a callback, and with headers that pass any validation, the conversion succeeds with one record per non-blank body line. Each has the header names as keys and, for distinct headers, the line's field i under header i. |
| TsvToJson.NewTsvPairs | lib/tsvToJson.js:71-78 | Every pair is a `.tsv` name from the listing that is new, paired with its first dot-segment plus `.json`. Every such name is paired, and there are never more pairs than names. |
| TsvToJson.GetNewTsvFiles | lib/tsvToJson.js:66-80 | A missing data path fails with `static data path P does not exist`, and only a missing path fails. Otherwise every pair names a `.tsv` file. |
| TsvToJson.JsonNameShape | lib/tsvToJson.js:74 | The JSON name keeps the TSV name's first segment and ends in `json`, so it is never itself taken for a TSV file. |
| JsStrings.SplitJoin | lib/tsvToJson.js:93 | Splitting the join of separator-free parts gives back the parts. |
| JsStrings.Split | lib/tsvToJson.js:103 | The parts never contain the separator, they join back to the input, and there is one more part than separators. |
| JsStrings.TrimEmptyIffBlank | lib/tsvToJson.js:101 | `trim` leaves nothing exactly when the line is all JavaScript whitespace. |
| Database.GeneratePlaceholders | lib/database/Database.js:24-30 | For a positive column count, the placeholders are floor(n / numCol) groups of numCol question marks. No values give the empty string. A zero column count with values fails with JavaScript's RangeError. |
| Database.PlaceholderMarks | lib/database/Database.js:24-30 | The placeholder string has one group per whole row. It holds exactly as many `?` as values exactly when the value count is a multiple of the column count. |
| Database.InsertOrIgnore | lib/database/Database.js:62-68 | One run of `INSERT OR IGNORE INTO <table> VALUES ` followed by the generated placeholders, with all values bound. It fails with the RangeError exactly when the column count is 0 and there are values. |
| Database.Insert | lib/database/Database.js:41-50 | One run of `INSERT INTO <table> VALUES ` followed by the generated placeholders. A second run, the `INSERT OR IGNORE` statement with the same placeholders, happens only after a constraint violation. Every run binds the same values. |
| Database.RetryIsOrIgnore | lib/database/Database.js:41-50 | The retry after a constraint violation is exactly the `insertOrIgnore` call. It differs from the first statement only by the `OR IGNORE` keyword. |
| LegacyDatabase.Insert | lib/database/database.js:14-18 | One run of `INSERT OR IGNORE INTO <table> VALUES ` followed by the placeholders as written, binding the given values. |
| LegacyDatabase.PlaceholdersPerValue | lib/database/database.js:15-17 | As written, the statement has one group per value, so it has numCol times as many `?` as values. |
| LegacyDatabase.OnePageRowMismatch | lib/database/database.js:14-18 | A single two-column page row binds 2 values against 4 placeholders. |
| LegacyDatabase.CorrectedInsert | lib/database/database.js:14-18 | The corrected insert uses one group per row of numCol values. |
| LegacyDatabase.CorrectedBindsEveryValue | lib/database/database.js:14-18 | With whole rows, the corrected statement has exactly one `?` per bound value. |
| MwApi.SearchQuery | lib/MediaSearchResults.js:66-78 | The search term is `filetype:bitmap\|drawing ` followed by the title. The query also sets the requested limit, offset 0, the File namespace (6) and the Commons domain. |
| MwApi.Hits | lib/MediaSearchResults.js:37-38 | A response offers pages exactly when it is an object with a `query` and a positive hit count. |
| MediaSearch.StripFilePrefix | lib/MediaSearchResults.js:45 | One leading `File:` is removed when present, and otherwise the title is unchanged. |
| MediaSearch.StripAddedPrefix | lib/MediaSearchResults.js:45 | Stripping undoes adding the prefix. |
| MediaSearch.InsertByIndex | lib/MediaSearchResults.js:41 | Inserting into a list sorted by index keeps it sorted, and adds exactly the one page. |
| MediaSearch.SortByIndex | lib/MediaSearchResults.js:41 | The sort is a permutation of the pages in ascending index order. |
| MediaSearch.SortedUnique | lib/MediaSearchResults.js:41 | With distinct indexes, two sorted permutations of the same pages are equal. |
| MediaSearch.AnySortAgrees | lib/MediaSearchResults.js:41 | With distinct indexes, any sorted permutation a comparator sort may return is the model's order. |
| MediaSearch.DoGetFromMediaSearch | lib/MediaSearchResults.js:20-56 | A failed call is the 500 error, and only a failed call is. A response without hits gives no suggestions. Otherwise there is one `low`/`ms` suggestion per page, each page's title appearing without its `File:` prefix. |
| MediaSearch.SuggestionsInIndexOrder | lib/MediaSearchResults.js:37-53 | With distinct indexes, the suggestions are those of the pages in ascending index order. |
| MediaSearch.GetResultsQuery | lib/MediaSearchResults.js:66-83 | The query searches bitmaps and drawings for the title, with the given limit, offset 0 and the File namespace. |
| LegacyMediaSearch.DoGetFromMediaSearch | lib/mediaSearchResults.js:12-34 | The call's error passes through unchanged. Otherwise there is one `ms`/`low` suggestion per returned page, in API order, keeping the full title. |
| LegacyMediaSearch.GetResultsQuery | lib/mediaSearchResults.js:44-58 | The earlier client sends the same query as the current one. |
| LegacyMediaSearch.LaterClientStripsPrefix | lib/mediaSearchResults.js:19-27 | On a response already in index order, the current client returns the same suggestions one for one, with the same `low` rating. Two things change: each file name loses its `File:` prefix, and `source` becomes `{name: 'ms', details: {}}` instead of the string `ms`. |
| WikiId.GetWikiId | lib/wikiId.js:39-55 | An id exists exactly when the project is `wikipedia` and the language is one of the 22 recognized codes, and the id is the language followed by `wiki`. |
| WikiId.UnitTestCallOrder | test/features/unit/wikiId.js:8-11 | The unit test's call `getWikiId('ar', 'wikipedia')` gives `false` against the declared `(wiki, lang)` order; only `getWikiId('wikipedia', 'ar')` gives `arwiki`. |
| WikiId.WikiIdDeterminesLanguage | lib/wikiId.js:50 | Distinct languages give distinct wiki ids. |
| ImageSuggestions.CheckQuery | lib/imageSuggestions.js:26-55 | The checks fail in this order. A limit that is `NaN` or above 100 fails first, then an offset that is `NaN` or negative, then a given source other than `ima`/`ms`; each is a 400. The source error carries the detail `Unrecognized source: <source>`. A query passing all three is returned with the id. |
| ImageSuggestions.ValidateParams | lib/imageSuggestions.js:13-56 | As written, validation succeeds exactly when the `lang` segment is `wikipedia`, the `wiki` segment is a recognized language and the query passes. An unknown pair is a 404. Once the pair resolves, the result is exactly the query checks' verdict, so a failing query gives their 400. |
| ImageSuggestions.WikipediaRequestsRefused | lib/imageSuggestions.js:14-25 | As written, every request for a Wikipedia in a recognized language gets the 404. |
| ImageSuggestions.CorrectedValidateParams | lib/imageSuggestions.js:13-56 | With the lookup arguments in their declared order, validation succeeds exactly for `wikipedia`, a recognized language and a passing query, with id `<lang>wiki`. Once the pair resolves, the result is exactly the query checks' verdict, so a failing query gives their 400. |
| ImageSuggestions.CorrectedResolvesArabic | test/features/unit/imageSuggestions.js:28-40 | With the correction, `/ar/wikipedia` with default query parameters resolves to `arwiki`. |
| ImageSuggestions.PageOf | lib/imageSuggestions.js:76-95 | A page keeps the result's project and title. When image-matching suggestions are included, it lists them in order as `ima` suggestions; otherwise it lists none. |
| ImageSuggestions.PagesOf | lib/imageSuggestions.js:76-95 | There is one page per image-matching result, in order. |
| ImageSuggestions.Requests | lib/imageSuggestions.js:102-108 | There are at most as many MediaSearch requests as pages, each with a positive limit. |
| ImageSuggestions.Respond | lib/imageSuggestions.js:97-141 | Validation errors pass through. A failed algorithm lookup is the 500 algorithm error. A source other than `ms`, or no requests, returns the pages. Otherwise a failed MediaSearch is the algorithm error wrapping the MediaSearch error, and success is the merge. |
| ImageSuggestions.GetPages | lib/imageSuggestions.js:66-142 | An unknown pair, in the order the code passes it to the lookup, is the 404, whatever the lookups return. A successful response needs the `lang` segment to be `wikipedia`, a recognized `wiki` segment and a successful image-matching lookup. |
| ImageSuggestions.CorrectedGetPages | lib/imageSuggestions.js:66-142 | With the lookup arguments in their declared order, an unknown project and language pair is the 404, whatever the lookups return. A successful response needs the project `wikipedia`, a recognized language and a successful image-matching lookup. |
| ImageSuggestions.MergeAsWritten | lib/imageSuggestions.js:115-123 | Every page keeps its project, title and existing suggestions, which stay in front. A page at a position with no result receives a single `undefined` entry. |
| ImageSuggestions.MergeCorrected | lib/imageSuggestions.js:115-123 | Every page keeps its project, title and existing suggestions, which stay in front. A page that made no request is unchanged. |
| MergeTheorems.OwnRequest | lib/imageSuggestions.js:102-108 | A page with a positive quota is the subject of the request at its position among the requests, with the page's title and quota. |
| MergeTheorems.RequestIndexMonotone | lib/imageSuggestions.js:102-108 | Later requested pages have later requests, so no two pages share one. |
| MergeTheorems.EveryRequestHasPage | lib/imageSuggestions.js:102-108 | Every request belongs to some page with a positive quota. |
| MergeTheorems.CorrectedMergePairs | lib/imageSuggestions.js:102-123 | The corrected merge appends to each requested page the result of its own request. Other pages are unchanged, and project and title are kept. |
| MergeTheorems.NoRequestsNoChange | lib/imageSuggestions.js:110-113 | When no page has a positive quota, the corrected merge returns the pages unchanged, as the early return does. |
| MergeTheorems.CorrectedGetPagesPairs | lib/imageSuggestions.js:66-123 | For a valid request with source unset or `ms`, a successful image-matching lookup and one MediaSearch result per request, the corrected endpoint succeeds with one page per result, in order, keeping project and title. A page with a positive quota ends with its image-matching suggestions followed by the result of its own request. Every other page is unchanged. |
| MergeTheorems.CorrectedMergeQuota | lib/imageSuggestions.js:104-106 | When each result keeps to its request's limit, no requested page ends with more than ten suggestions. |
| MergeTheorems.AllRequestedAgree | lib/imageSuggestions.js:115-123 | When every page was requested, the merge as written equals the corrected merge. |
| MergeTheorems.MediaSearchOnlyAgrees | lib/imageSuggestions.js:84-123 | With `source=ms`, the response as written equals the corrected response. |
| MergeTheorems.MisalignedMerge | lib/imageSuggestions.js:115-123 | The first page already has ten suggestions; the second has none. As written, the second page's result goes to the first page and the second gets `undefined`. The correction gives the result to the second page. |

## Left out

- **File, stream and directory I/O** (`fs`, `event-stream`, `readline`) are left out. A file is modelled as its lines, and a directory listing and existence tests are inputs. Not modelled:
  - the `error` handler of the read stream (`Cannot find algorithm results for ...`);
  - the JSON file writing in `tsvFileToJsonFileSync`;
  - the modification-time comparison of `isFileNewer`/`checkForNewTsv`, which is a predicate parameter.
- **SQL execution** is left out. SQLite is not modelled. Insert calls are recorded as values, and the rows a query returns are an input. The SELECT bodies, `createTables`, `init`, `start`, `exists` and `exec` are not modelled.
- **`initFromExistingDb` and `populateDatabase`** in `lib/AlgoResults.js` are left out. They read table maxima into the row-count caches and loop over files with a `wikiId.isRecognizedLanguage` filter, and that function is not defined in `lib/wikiId.js`. The caches are inputs to `GetPageTableRowCount`.
- **The filename regular expressions** that extract a wiki id from a `.tsv` name are left out. Regular-expression matching is not modelled, and the id is taken as given.
- **The multi-file loop of the earlier `populateDatabase`** is left out, along with its `completedFiles` counting. One file's share is modelled.
- **`parseInt`** is a function parameter rather than a model of its digit scanning.
- **The MediaWiki API call and `Promise.all`** are left out. Their settled values are inputs, and the order in which promises settle is not modelled.
- **Logging** (`logger.log`, `console.log`) is left out; it does not affect results.
- **The routes, the sampler, and the handler's call to `algoResults.getResults`** are left out. The earlier store does not define `getResults`, and the results it would give are an input to `ImageSuggestions.Respond`.
- MediaSearch.SortByIndex: the comparator `(a.index > b.index) ? 1 : -1` is not consistent for equal indexes, so the engine's order of such pages is unspecified. The model fixes one stable order, and the order results are stated only for distinct indexes.
- MediaSearch.DoGetFromMediaSearch: the model requires nothing of `apiRes.body`. When the response is an object without a body, the source throws a TypeError, and that case is not modelled. The response shape also always has a hit count and a page list. So a `query` without `searchinfo`, or a positive `totalhits` without `pages`, cannot be expressed; the source throws a TypeError there too (lib/MediaSearchResults.js:38 and 41, lib/mediaSearchResults.js:18-19).
- TsvToJson.NewTsvPairs: the order of the pairs is not stated, only membership both ways.
- TsvToJson.ConvertWithCallback: the callback is a pure function from the output so far and one record to the new output. A JavaScript callback that mutates `json` and also keeps state of its own between calls cannot be expressed.
- TsvToJson.ToRecord: JavaScript object keys such as `__proto__` behave specially. A Dafny map treats every header as an ordinary key.
- Database.GeneratePlaceholders: only non-negative column counts are modelled; the source is never called with a negative one.
- ImageSuggestions.GetPages: its own contract states only the 404 path. The remaining behaviour is stated on `ImageSuggestions.Respond` and `ImageSuggestions.ValidateParams`, which it composes. Its `Failure` does not tell a thrown error from a rejected promise. `validateParams` runs synchronously at the top of `getPages` (lib/imageSuggestions.js:68), so a 404 or 400 is thrown by the call itself. The call does not return a promise that rejects. Only failures after validation reach the caller through the promise.
- ImageSuggestions.CorrectedGetPages: its own contract states the 404 path and what success needs. Which MediaSearch result each page receives is stated by `MergeTheorems.CorrectedGetPagesPairs`.
- ImageSuggestions.MergeAsWritten: its own contract does not say which result a page receives. That is stated by `MergeTheorems.AllRequestedAgree` and `MergeTheorems.MisalignedMerge`.
- ImageSuggestions.MergeCorrected: its own contract does not say which result a page receives. That is stated by `MergeTheorems.CorrectedMergePairs`.
- **A header error during ingestion** is an uncaught exception in the code. `validateHeaders` throws inside the stream callback (lib/AlgoResults.js:232-234) or the `line` handler (lib/algoResults.js:126-128), and nothing calls `reject`. The exception escapes the stream, and the promise returned by `insertFile`/`populateDatabase` stays pending. The model records this as the outcome value `Aborted` carrying the thrown message. How the process reacts to the uncaught exception is not modelled.
- **A RangeError during ingestion** is an uncaught exception in the code too. It happens when an image insert is built with column count 0 (lib/database/Database.js:25-27). The count is the length of the latest row's image part, and a row with at most two fields has an empty one. Before this, `reject` has already been called for that row, so the promise is settled. The model records the outcome as `RejectedThenThrew` and processes no later line. It does not model how the stream or the process reacts to the exception.
- IngestOutcome.InsertFileEmits: the link rows are promised exactly only when every counted row has a field past the title. A row with at most two fields counts as carrying an image and pushes a link row without adding any image value. When no image values are buffered at that flush, those links are dropped, so the inserted link rows are then not a simple function of the reference. After a RangeError, only prefixes of the page rows and image values are promised, because the insert that threw and every later line are never processed.
- **The test fixtures** are not part of this model, so the record counts the unit tests expect are not restated.

Notes where the code and its documentation differ. The model follows the code in each case.

- The limit message says "less than 100", but a limit of exactly 100 is accepted. So is a negative limit.
- A page's `row_num_ima` is set only when the page's first row carries an image, not when any later row does.
- The current ingestion can hand the database an empty page batch at a chunk boundary: if the last forty lines continue pages that were already started, no page row is buffered.

## Findings

| source | as written | input that shows it | evidently intended | confidence | as-written member | corrected member |
|---|---|---|---|---|---|---|
| lib/imageSuggestions.js:15 | `getWikiId(lang, wiki)` passes the arguments in the opposite order to the declaration `getWikiId(wiki, lang)` (lib/wikiId.js:39). Every request for a recognized Wikipedia is refused with 404. The wikiId unit test (test/features/unit/wikiId.js:9-10) also calls `getWikiId('ar', 'wikipedia')` and expects `arwiki`, which fails against the declaration (`WikiId.UnitTestCallOrder`). So the defect may lie in the declaration and its doc comment rather than in the caller. | `/ar/wikipedia/pages` gives 404 `Unable to find a wikiId for language ar and property wikipedia` | The caller and the declaration agree on one order. Either fix, caller or declaration, gives `arwiki` for `/ar/wikipedia`, as the handler's unit test expects (test/features/unit/imageSuggestions.js:28-40). | high (not executed) | ImageSuggestions.WikipediaRequestsRefused | ImageSuggestions.CorrectedResolvesArabic |
| lib/imageSuggestions.js:115-123 | The MediaSearch results are paired with pages by page position. A request is made only for pages with fewer than ten suggestions, so results shift onto the wrong pages, and pages past the end receive `undefined`. | Two pages: the first has ten image-matching suggestions, the second none. The second page's result is appended to the first, and the second gets `undefined`. | Pair each result with the page that requested it | high (not executed) | MergeTheorems.MisalignedMerge | MergeTheorems.CorrectedMergePairs |
| lib/database/database.js:17 | One placeholder group per value instead of one per row, so a batch of n values of numCol columns has n·numCol placeholders but binds n values. | One two-column page row `[1, "A"]`: 4 placeholders, 2 values | One group per row of numCol values, as `generatePlaceholders` in lib/database/Database.js does | medium (not executed): SQLite binds missing parameters as NULL, so whether a row is lost depends on the table's constraints | LegacyDatabase.OnePageRowMismatch | LegacyDatabase.CorrectedBindsEveryValue |

=== FILE: algo_results.dfy ===
/**
 * The pure parts of lib/AlgoResults.js, the current store of image-matching
 * algorithm results: the header check of the results file, the emptiness test
 * for image ids, the row-count lookup and the choice of column, statement and
 * offset in the two read queries. The per-line ingestion fold of `insertFile`
 * is in module Ingest.
 */
module AlgoResults {
  import opened JsBase
  import opened JsStrings
  import HeaderCheck

  /** The columns of a results file, in order. */
  const ExpectedHeaders: seq<string> := [
    "page_id", "page_title", "image_id", "confidence_rating", "source",
    "dataset_id", "insertion_ts", "wiki", "found_on"
  ]

  const LengthMessage: string := "TSV headers do not match expected headers"

  function PositionMessage(header: string, expected: string): string {
    "Expected " + header + " to equal " + expected
  }

  /** `validateHeaders`: succeeds iff `headers` equals `expected` element-wise. */
  function ValidateHeaders(headers: seq<string>, expected: seq<string>): (r: Result<(), string>)
    ensures r.Success? <==> headers == expected
    ensures |headers| != |expected| ==> r == Failure(LengthMessage)
    ensures |headers| == |expected| && headers != expected ==>
      exists i :: 0 <= i < |headers| && headers[..i] == expected[..i] && headers[i] != expected[i]
        && r == Failure(PositionMessage(headers[i], expected[i]))
  {
    HeaderCheck.Validate(headers, expected, LengthMessage, PositionMessage)
  }

  /** `isEmptyValue`: the empty string, the literal `NULL` and `null` mark a missing image. */
  predicate IsEmptyValue(v: Value) {
    v == Str("") || v == Str("NULL") || v == Null
  }

  /** The key under which both row-count caches store a partition's page table. */
  function PageTableName(wikiId: string): string {
    wikiId + "_page"
  }

  /** `source === 'ima'`. */
  predicate IsImaSource(source: Option<string>) {
    source == Some("ima")
  }

  /**
   * `getPageTableRowCount`: the count of pages with algorithm suggestions when the
   * source is `ima`, the count of all pages for any other source or none.
   * A partition missing from a cache yields `None` (JavaScript's `undefined`).
   */
  function GetPageTableRowCount(allCounts: map<string, int>, imaCounts: map<string, int>,
                                wikiId: string, source: Option<string>): (r: Option<int>)
    ensures r.Some? <==> PageTableName(wikiId) in (if IsImaSource(source) then imaCounts else allCounts)
    ensures IsImaSource(source) && r.Some? ==> r.value == imaCounts[PageTableName(wikiId)]
    ensures !IsImaSource(source) && r.Some? ==> r.value == allCounts[PageTableName(wikiId)]
  {
    var counts := if IsImaSource(source) then imaCounts else allCounts;
    var key := PageTableName(wikiId);
    if key in counts then Some(counts[key]) else None
  }

  /** The page-table column that numbers the pages a query ranges over. */
  datatype Column = RowNum | RowNumIma {
    function Name(): string {
      match this
      case RowNum => "row_num"
      case RowNumIma => "row_num_ima"
    }
  }

  /** The numbering column for a source: `row_num_ima` for `ima`, `row_num` otherwise. */
  function ColumnFor(source: Option<string>): (c: Column)
    ensures c == RowNumIma <==> IsImaSource(source)
  {
    if IsImaSource(source) then RowNumIma else RowNum
  }

  /** `SELECT page.<column> FROM <wikiId>_page page WHERE page.id IN (<ids>)`, as its parts. */
  datatype RowNumsSelect = RowNumsSelect(column: Column, table: string, idList: string)

  /** The statement `queryDBForRowNums` sends to look up the row numbers of given page ids. */
  function QueryDBForRowNums(wikiId: string, source: Option<string>, ids: seq<string>): (q: RowNumsSelect)
    ensures q.column == RowNumIma <==> IsImaSource(source)
    ensures q.table == PageTableName(wikiId)
    ensures |ids| >= 1 && (forall i :: 0 <= i < |ids| ==> ',' !in ids[i]) ==> Split(q.idList, ',') == ids
  {
    var q := RowNumsSelect(ColumnFor(source), PageTableName(wikiId), Join(ids, ","));
    if |ids| >= 1 && (forall i :: 0 <= i < |ids| ==> ',' !in ids[i]) then
      SplitJoin(ids, ',');
      q
    else
      q
  }

  /** The two statement shapes of `queryDBForPages`. */
  datatype PagesStatement =
    | ImaOnly      // inner join: pages without algorithm suggestions are left out
    | AllSources   // every page, with its (possibly empty) list of algorithm suggestions

  /** What `queryDBForPages` sends: the statement shape, its WHERE test and the bound LIMIT/OFFSET. */
  datatype PagesQuery = PagesQuery(statement: PagesStatement, whereTest: string, limit: int, offset: int)

  /** `rowNums.join()` on numbers. */
  function NumberList(rowNums: seq<int>): string {
    Join(seq(|rowNums|, i requires 0 <= i < |rowNums| => IntToString(rowNums[i])), ",")
  }

  /**
   * `queryDBForPages`: the `ima` source selects the inner-join statement, every other
   * source the all-pages statement; explicit row numbers restrict the WHERE test to
   * that source's numbering column and force the offset to 0.
   */
  function QueryDBForPages(source: Option<string>, limit: int, offset: int, rowNums: seq<int>): (q: PagesQuery)
    ensures q.statement == ImaOnly <==> IsImaSource(source)
    ensures q.limit == limit
    ensures |rowNums| == 0 ==> q.whereTest == "1" && q.offset == offset
    ensures |rowNums| > 0 ==> q.offset == 0
    ensures |rowNums| > 0 ==>
      q.whereTest == "outerPage." + ColumnFor(source).Name() + " IN (" + NumberList(rowNums) + ")"
  {
    var statement := if IsImaSource(source) then ImaOnly else AllSources;
    if |rowNums| > 0 then
      PagesQuery(statement, "outerPage." + ColumnFor(source).Name() + " IN (" + NumberList(rowNums) + ")", limit, 0)
    else
      PagesQuery(statement, "1", limit, offset)
  }

  /** A row the database returns: column name to value. */
  type Row = map<string, Value>

  /** `row[column]`: the value, or `undefined` for a column the row lacks. */
  function ColumnValue(row: Row, name: string): (v: Value)
    ensures name in row ==> v == row[name]
    ensures name !in row ==> v == Undefined
  {
    if name in row then row[name] else Undefined
  }

  /** A failed database call, as `queryDBForRowNums` and `queryDBForPages` report it. */
  function QueryError(message: string): HttpError {
    HttpError(500, "error", "Error", Message(message))
  }

  /**
   * `queryDBForRowNums` after the statement has run (`exec` is the outcome of the
   * call): the source's numbering column of every returned row, in order, or a
   * 500 error naming the partition.
   */
  function RowNumsOutcome(wikiId: string, source: Option<string>, exec: Result<seq<Row>, Detail>): (r: Result<seq<Value>, HttpError>)
    ensures r.Failure? <==> exec.Failure?
    ensures r.Failure? ==> r.error == QueryError("Unable to retrieve page ids for " + wikiId)
    ensures exec.Success? ==> |r.value| == |exec.value|
    ensures exec.Success? && IsImaSource(source) ==>
      forall k :: 0 <= k < |exec.value| ==> r.value[k] == ColumnValue(exec.value[k], "row_num_ima")
    ensures exec.Success? && !IsImaSource(source) ==>
      forall k :: 0 <= k < |exec.value| ==> r.value[k] == ColumnValue(exec.value[k], "row_num")
  {
    match exec
    case Failure(_) => Failure(QueryError("Unable to retrieve page ids for " + wikiId))
    case Success(rows) =>
      var name := ColumnFor(source).Name();
      Success(seq(|rows|, k requires 0 <= k < |rows| => ColumnValue(rows[k], name)))
  }

  /**
   * `queryDBForPages` after the statement has run: the rows themselves, or a
   * 500 error naming the partition.
   */
  function PagesOutcome(wikiId: string, exec: Result<seq<Row>, Detail>): (r: Result<seq<Row>, HttpError>)
    ensures r.Failure? <==> exec.Failure?
    ensures r.Failure? ==> r.error == QueryError("Unable to retrieve image matching algorithm results for " + wikiId)
    ensures exec.Success? ==> r.value == exec.value
  {
    match exec
    case Failure(_) => Failure(QueryError("Unable to retrieve image matching algorithm results for " + wikiId))
    case Success(rows) => Success(rows)
  }

  /** The decimal rendering of a number never contains a comma. */
  lemma {:induction false} NoCommaInNumber(n: int)
    ensures ',' !in IntToString(n)
  {
    if n < 0 {
      NoCommaInNat(-n);
    } else {
      NoCommaInNat(n);
    }
  }

  lemma {:induction false} NoCommaInNat(n: nat)
    ensures ',' !in NatToString(n)
    decreases n
  {
    if n >= 10 {
      NoCommaInNat(n / 10);
    }
  }

  /** The IN list of a row-number query names exactly the requested row numbers, in order. */
  lemma NumberListRoundTrip(rowNums: seq<int>)
    requires |rowNums| > 0
    ensures Split(NumberList(rowNums), ',') == seq(|rowNums|, i requires 0 <= i < |rowNums| => IntToString(rowNums[i]))
  {
    var parts := seq(|rowNums|, i requires 0 <= i < |rowNums| => IntToString(rowNums[i]));
    forall i | 0 <= i < |parts| ensures ',' !in parts[i] {
      NoCommaInNumber(rowNums[i]);
    }
    SplitJoin(parts, ',');
  }
}

=== FILE: database.dfy ===
/**
 * The SQL text of lib/database/Database.js: the placeholder string for a
 * multi-row insert, the `INSERT` and `INSERT OR IGNORE` statements, and the
 * fallback from the first to the second when the database reports a
 * constraint violation. The database itself is not modelled: a call to
 * `db.run` is recorded as the statement and the values it is given, and the
 * error the first statement meets (if any) is a parameter.
 */
module Database {
  import opened JsBase
  import opened JsStrings

  /** The placeholder of one row: `numCol` question marks, comma-separated, in parentheses. */
  function Group(numCol: nat): string {
    "(" + Join(Replicate(numCol, "?"), ",") + ")"
  }

  /**
   * `values.length / numCol` as `String.prototype.repeat` sees it: the quotient
   * is truncated, and 0 / 0 (NaN) counts as 0.
   */
  function RowCount(numCol: nat, valueCount: nat): nat {
    if numCol == 0 then 0 else valueCount / numCol
  }

  /** The `RangeError` that `repeat` throws for an infinite count. */
  const RangeErrorMessage: string := "RangeError: Invalid count value: Infinity"

  /**
   * `generatePlaceholders`: `(?,...,?),` repeated once per row, minus the last
   * character. With no columns and some values the row count is infinite and
   * `repeat` throws.
   */
  function GeneratePlaceholders<T>(numCol: nat, values: seq<T>): (r: Result<string, string>)
    ensures r.Failure? <==> numCol == 0 && |values| > 0
    ensures r.Failure? ==> r.error == RangeErrorMessage
    ensures r.Success? ==> r.value == Join(Replicate(RowCount(numCol, |values|), Group(numCol)), ",")
    ensures |values| == 0 ==> r == Success("")
  {
    if numCol == 0 && |values| > 0 then Failure(RangeErrorMessage)
    else
      var n := RowCount(numCol, |values|);
      var all := Repeat(Group(numCol) + ",", n);
      RepeatIsJoin(Group(numCol), n);
      Success(DropLast(all))
  }

  /** Repeating `g,` n times is the comma-join of n copies of `g`, plus a trailing comma. */
  lemma {:induction false} RepeatJoin(g: string, n: nat)
    requires n >= 1
    ensures Repeat(g + ",", n) == Join(Replicate(n, g), ",") + ","
    decreases n
  {
    if n > 1 {
      RepeatJoin(g, n - 1);
      assert Replicate(n, g) == [g] + Replicate(n - 1, g);
      JoinCons(g, Replicate(n - 1, g), ",");
    } else {
      assert Replicate(1, g) == [g];
    }
  }

  lemma RepeatIsJoin(g: string, n: nat)
    ensures DropLast(Repeat(g + ",", n)) == Join(Replicate(n, g), ",")
  {
    if n >= 1 {
      RepeatJoin(g, n);
      var j := Join(Replicate(n, g), ",");
      assert (j + ",")[..|j|] == j;
    }
  }

  /** Occurrences of a character in the join of n copies of a piece. */
  lemma {:induction false} CountJoinReplicate(x: string, sep: string, c: char, n: nat)
    requires n >= 1
    ensures Count(Join(Replicate(n, x), sep), c) == n * Count(x, c) + (n - 1) * Count(sep, c)
    decreases n
  {
    if n > 1 {
      var rest := Join(Replicate(n - 1, x), sep);
      CountJoinReplicate(x, sep, c, n - 1);
      assert Replicate(n, x) == [x] + Replicate(n - 1, x);
      JoinCons(x, Replicate(n - 1, x), sep);
      CountAppend(x + sep, rest, c);
      CountAppend(x, sep, c);
      assert Count(Join(Replicate(n, x), sep), c) == Count(x, c) + Count(sep, c) + Count(rest, c);
      OneMoreCopy(n, Count(x, c), Count(sep, c));
    } else {
      assert Replicate(1, x) == [x];
    }
  }

  /** The arithmetic of adding one more piece and one more separator. */
  lemma OneMoreCopy(n: nat, a: nat, b: nat)
    requires n >= 2
    ensures a + b + ((n - 1) * a + (n - 2) * b) == n * a + (n - 1) * b
  {
    assert (n - 1) * a + a == n * a;
    assert (n - 2) * b + b == (n - 1) * b;
  }

  /** A row placeholder holds exactly `numCol` question marks and one pair of parentheses. */
  lemma GroupMarks(numCol: nat)
    ensures Count(Group(numCol), '?') == numCol
    ensures Count(Group(numCol), '(') == 1 && Count(Group(numCol), ')') == 1
  {
    var inner := Join(Replicate(numCol, "?"), ",");
    assert Count("(", '?') == 0 && Count(")", '?') == 0 && Count(",", '?') == 0;
    assert Count("?", '?') == 1 && Count("?", '(') == 0 && Count("?", ')') == 0;
    assert Count("(", '(') == 1 && Count(")", ')') == 1 && Count("(", ')') == 0 && Count(")", '(') == 0;
    assert Count(",", '(') == 0 && Count(",", ')') == 0;
    if numCol >= 1 {
      CountJoinReplicate("?", ",", '?', numCol);
      CountJoinReplicate("?", ",", '(', numCol);
      CountJoinReplicate("?", ",", ')', numCol);
    } else {
      assert inner == "";
    }
    CountAppend("(" + inner, ")", '?');
    CountAppend("(", inner, '?');
    CountAppend("(" + inner, ")", '(');
    CountAppend("(", inner, '(');
    CountAppend("(" + inner, ")", ')');
    CountAppend("(", inner, ')');
  }

  /**
   * The placeholders bind `numCol` times the row count of values: every value
   * exactly when `numCol` divides their number, otherwise the trailing partial
   * row is left without a placeholder.
   */
  lemma PlaceholderMarks<T>(numCol: nat, values: seq<T>)
    requires numCol > 0
    ensures var r := GeneratePlaceholders(numCol, values);
      && r.Success?
      && Count(r.value, '?') == (|values| / numCol) * numCol
      && Count(r.value, '(') == |values| / numCol
      && (Count(r.value, '?') == |values| <==> |values| % numCol == 0)
  {
    var n := |values| / numCol;
    var p := Join(Replicate(n, Group(numCol)), ",");
    assert GeneratePlaceholders(numCol, values) == Success(p);
    JoinMarks(numCol, n);
    WholeRows(|values|, numCol);
  }

  lemma JoinMarks(numCol: nat, n: nat)
    ensures Count(Join(Replicate(n, Group(numCol)), ","), '?') == n * numCol
    ensures Count(Join(Replicate(n, Group(numCol)), ","), '(') == n
  {
    GroupMarks(numCol);
    if n >= 1 {
      CountJoinReplicate(Group(numCol), ",", '?', n);
      CountJoinReplicate(Group(numCol), ",", '(', n);
      assert Count(",", '?') == 0 && Count(",", '(') == 0;
    } else {
      assert Replicate(0, Group(numCol)) == [];
    }
  }

  lemma WholeRows(count: nat, numCol: nat)
    requires numCol > 0
    ensures (count / numCol) * numCol == count <==> count % numCol == 0
  {
    assert count == (count / numCol) * numCol + count % numCol;
  }

  // ---------------------------------------------------------------------------
  // Statements
  // ---------------------------------------------------------------------------

  function InsertSQL(table: string, placeholders: string): string {
    "INSERT INTO " + table + " VALUES " + placeholders
  }

  function InsertOrIgnoreSQL(table: string, placeholders: string): string {
    "INSERT OR IGNORE INTO " + table + " VALUES " + placeholders
  }

  /** One `db.run(sql, values)` call. */
  datatype Run = Run(sql: string, values: seq<Value>)

  /** How the database answers a statement, as far as the retry logic distinguishes. */
  datatype RunError = ConstraintViolation | OtherError

  /**
   * `insertOrIgnore`: one `INSERT OR IGNORE` statement; its own failure is only
   * logged.
   */
  function InsertOrIgnore(table: string, numCol: nat, values: seq<Value>): (r: Result<seq<Run>, string>)
    ensures r.Failure? <==> numCol == 0 && |values| > 0
    ensures r.Success? ==> |r.value| == 1 && r.value[0].values == values
    ensures r.Success? ==>
      r.value[0].sql == "INSERT OR IGNORE INTO " + table + " VALUES " + GeneratePlaceholders(numCol, values).value
  {
    var placeholders :- GeneratePlaceholders(numCol, values);
    Success([Run(InsertOrIgnoreSQL(table, placeholders), values)])
  }

  /**
   * `insert`: an `INSERT` statement and, when that statement meets a
   * constraint violation, `insertOrIgnore` with the same arguments. Any other
   * error is not retried.
   */
  function Insert(table: string, numCol: nat, values: seq<Value>, firstError: Option<RunError>): (r: Result<seq<Run>, string>)
    ensures r.Failure? <==> numCol == 0 && |values| > 0
    ensures r.Success? ==> 1 <= |r.value| <= 2
    ensures r.Success? ==> (|r.value| == 2 <==> firstError == Some(ConstraintViolation))
    ensures r.Success? ==> forall k :: 0 <= k < |r.value| ==> r.value[k].values == values
    ensures r.Success? ==>
      r.value[0].sql == "INSERT INTO " + table + " VALUES " + GeneratePlaceholders(numCol, values).value
    ensures r.Success? && |r.value| == 2 ==>
      r.value[1].sql == "INSERT OR IGNORE INTO " + table + " VALUES " + GeneratePlaceholders(numCol, values).value
  {
    var placeholders :- GeneratePlaceholders(numCol, values);
    var first := Run(InsertSQL(table, placeholders), values);
    if firstError == Some(ConstraintViolation) then
      Success([first, Run(InsertOrIgnoreSQL(table, placeholders), values)])
    else Success([first])
  }

  /**
   * The fallback statement is the first one with `OR IGNORE` after the leading
   * `INSERT`, and both start with `INSERT` and end with the same placeholders.
   */
  lemma RetryIsOrIgnore(table: string, numCol: nat, values: seq<Value>)
    requires numCol > 0 || |values| == 0
    ensures var r := Insert(table, numCol, values, Some(ConstraintViolation));
      var p := GeneratePlaceholders(numCol, values).value;
      && r.Success? && |r.value| == 2
      && r.value[1..] == InsertOrIgnore(table, numCol, values).value
      && r.value[0].sql[..6] == "INSERT"
      && r.value[1].sql == "INSERT OR IGNORE" + r.value[0].sql[6..]
      && r.value[1].sql[|r.value[1].sql| - |p|..] == p
      && r.value[0].sql[|r.value[0].sql| - |p|..] == p
  {
    var p := GeneratePlaceholders(numCol, values).value;
    var r := Insert(table, numCol, values, Some(ConstraintViolation));
    assert r.value == [Run(InsertSQL(table, p), values), Run(InsertOrIgnoreSQL(table, p), values)];
    StatementShapes(table, p);
  }

  /** Both statements start with `INSERT`, differ only by `OR IGNORE` after it, and end with the placeholders. */
  lemma StatementShapes(table: string, p: string)
    ensures InsertSQL(table, p)[..6] == "INSERT"
    ensures InsertOrIgnoreSQL(table, p) == "INSERT OR IGNORE" + InsertSQL(table, p)[6..]
    ensures InsertSQL(table, p)[|InsertSQL(table, p)| - |p|..] == p
    ensures InsertOrIgnoreSQL(table, p)[|InsertOrIgnoreSQL(table, p)| - |p|..] == p
  {
    var a := InsertSQL(table, p);
    var b := InsertOrIgnoreSQL(table, p);
    var mid := " INTO " + table + " VALUES ";
    assert a == "INSERT" + (mid + p);
    assert b == "INSERT OR IGNORE" + (mid + p);
    assert a == ("INSERT" + mid) + p;
    assert b == ("INSERT OR IGNORE" + mid) + p;
  }
}

=== FILE: gather.dfy ===
/**
 * Collecting one part of every element of a sequence, in order. Both ingestion
 * folds hand the database a sequence of insert batches; what a file puts into
 * one table is the concatenation of that table's part of every batch.
 */
module Gathering {

  /** The concatenation of `part(b)` over the batches `bs`, in order. */
  function Gather<B, T>(bs: seq<B>, part: B -> seq<T>): seq<T>
    decreases |bs|
  {
    if |bs| == 0 then [] else Gather(bs[..|bs| - 1], part) + part(bs[|bs| - 1])
  }

  lemma {:induction false} GatherAppend<B, T>(a: seq<B>, b: seq<B>, part: B -> seq<T>)
    ensures Gather(a + b, part) == Gather(a, part) + Gather(b, part)
    decreases |b|
  {
    if |b| == 0 {
      assert a + b == a;
    } else {
      var b' := b[..|b| - 1];
      assert (a + b)[..|a + b| - 1] == a + b';
      assert (a + b)[|a + b| - 1] == b[|b| - 1];
      GatherAppend(a, b', part);
    }
  }

  lemma GatherOne<B, T>(x: B, part: B -> seq<T>)
    ensures Gather([x], part) == part(x)
  {
    assert [x][..0] == [];
  }

  lemma GatherTwo<B, T>(x: B, y: B, part: B -> seq<T>)
    ensures Gather([x, y], part) == part(x) + part(y)
  {
    assert [x, y][..1] == [x];
    GatherOne(x, part);
  }
}

=== FILE: header_check.dfy ===
/**
 * The header check shared by the three TSV readers of the service: the header
 * row must equal an exact, ordered list of column names. A length mismatch is
 * reported before any position is compared; otherwise the first position that
 * differs is reported. Each reader phrases the two messages its own way.
 */
module HeaderCheck {
  import opened JsBase

  /** The first index at or after `from` where `headers` and `expected` differ. */
  function FirstMismatchFrom(headers: seq<string>, expected: seq<string>, from: nat): (r: Option<nat>)
    requires |headers| == |expected| && from <= |headers|
    ensures r.None? <==> headers[from..] == expected[from..]
    ensures r.Some? ==> from <= r.value < |headers| && headers[r.value] != expected[r.value]
    ensures r.Some? ==> forall k :: from <= k < r.value ==> headers[k] == expected[k]
    decreases |headers| - from
  {
    if from == |headers| then None
    else if headers[from] != expected[from] then Some(from)
    else
      var r := FirstMismatchFrom(headers, expected, from + 1);
      assert headers[from..] == [headers[from]] + headers[from + 1..];
      assert expected[from..] == [expected[from]] + expected[from + 1..];
      r
  }

  /** The first index where two equally long header lists differ, if any. */
  function FirstMismatch(headers: seq<string>, expected: seq<string>): (r: Option<nat>)
    requires |headers| == |expected|
    ensures r.None? <==> headers == expected
    ensures r.Some? ==> r.value < |headers| && headers[r.value] != expected[r.value]
    ensures r.Some? ==> headers[..r.value] == expected[..r.value]
  {
    var r := FirstMismatchFrom(headers, expected, 0);
    assert headers[0..] == headers && expected[0..] == expected;
    r
  }

  /**
   * The header validation: `lengthMessage` when the lengths differ, otherwise
   * `positionMessage(header, expectedHeader)` for the first differing position.
   */
  function Validate(headers: seq<string>, expected: seq<string>,
                    lengthMessage: string, positionMessage: (string, string) -> string): (r: Result<(), string>)
    ensures r.Success? <==> headers == expected
    ensures |headers| != |expected| ==> r == Failure(lengthMessage)
    ensures |headers| == |expected| && headers != expected ==>
      exists i :: 0 <= i < |headers| && headers[..i] == expected[..i] && headers[i] != expected[i]
        && r == Failure(positionMessage(headers[i], expected[i]))
  {
    if |headers| != |expected| then Failure(lengthMessage)
    else match FirstMismatch(headers, expected)
      case None => Success(())
      case Some(i) => Failure(positionMessage(headers[i], expected[i]))
  }

  /** Some row does not have exactly `width` fields (the readers reject such a file). */
  predicate SomeRowMalformed(rows: seq<seq<string>>, width: nat) {
    exists k :: 0 <= k < |rows| && |rows[k]| != width
  }

  /** Appending a row makes the file malformed exactly when it already was or the row is. */
  lemma SomeRowMalformedSnoc(rows: seq<seq<string>>, row: seq<string>, width: nat)
    ensures SomeRowMalformed(rows + [row], width) <==> SomeRowMalformed(rows, width) || |row| != width
  {
    var rows' := rows + [row];
    if SomeRowMalformed(rows, width) {
      var k :| 0 <= k < |rows| && |rows[k]| != width;
      assert rows'[k] == rows[k];
    }
    if |row| != width {
      assert rows'[|rows|] == row;
    }
    if SomeRowMalformed(rows', width) {
      var k :| 0 <= k < |rows'| && |rows'[k]| != width;
      if k < |rows| { assert rows'[k] == rows[k]; }
    }
  }
}

=== FILE: image_suggestions.dfy ===
/**
 * lib/imageSuggestions.js: validating a `/{lang}/{wiki}/pages` request and
 * assembling its response from the image-matching results and MediaSearch.
 *
 * The image-matching results and the MediaSearch results are inputs: each is
 * either the value its promise resolves with or the error it rejects with.
 * `parseInt` is a function parameter (`None` is `NaN`). A query parameter is
 * `None` when absent; `source` counts as given only when it is a non-empty
 * string, as JavaScript's truthiness test has it.
 */
module ImageSuggestions {
  import opened JsBase
  import WikiId
  import opened LegacyMediaSearch

  const MaxLimit: int := 100
  const DefaultLimit: int := 10
  const MaxSuggestionsPerPage: int := 10
  const Sources: seq<string> := ["ima", "ms"]

  /** The query parameters the service reads. */
  datatype Query = Query(limit: Option<string>, offset: Option<string>, source: Option<string>)

  /** `query.source` is truthy. */
  predicate SourceGiven(q: Query) {
    q.source.Some? && q.source.value != ""
  }

  /** What `validateParams` returns: the query untouched and the wiki id. */
  datatype Validated = Validated(query: Query, id: string)

  function BadRequest(detail: string): HttpError {
    HttpError(400, "bad_request", "Bad Request", Message(detail))
  }

  function NotFound(lang: string, wiki: string): HttpError {
    HttpError(404, "not_found", "Not Found",
      Message("Unable to find a wikiId for language " + lang + " and property " + wiki))
  }

  const LimitError: HttpError := BadRequest("Limit must be a number less than 100")
  const OffsetError: HttpError := BadRequest("Offset must be a positive number")

  /** A parameter after its destructuring default and `parseInt`. */
  function ParsedOr(parseInt: string -> Option<int>, s: Option<string>, default: int): Option<int> {
    match s
    case None => Some(default)
    case Some(v) => parseInt(v)
  }

  /** The checks after the wiki id is known, in the order the code makes them. */
  function CheckQuery(parseInt: string -> Option<int>, query: Query, id: string): (r: Result<Validated, HttpError>)
    ensures var limit := ParsedOr(parseInt, query.limit, DefaultLimit);
      var offset := ParsedOr(parseInt, query.offset, 0);
      && (limit.None? || limit.value > MaxLimit ==> r == Failure(LimitError))
      && (limit.Some? && limit.value <= MaxLimit && (offset.None? || offset.value < 0) ==> r == Failure(OffsetError))
      && (r.Success? <==> limit.Some? && limit.value <= MaxLimit && offset.Some? && offset.value >= 0
                          && (SourceGiven(query) ==> query.source.value in Sources))
      && (r.Success? ==> r.value == Validated(query, id))
      && ((limit.Some? && limit.value <= MaxLimit && offset.Some? && offset.value >= 0
           && SourceGiven(query) && query.source.value !in Sources)
          ==> r == Failure(BadRequest("Unrecognized source: " + query.source.value)))
      && (r.Failure? ==> r.error.status == 400)
  {
    var limit := ParsedOr(parseInt, query.limit, DefaultLimit);
    var offset := ParsedOr(parseInt, query.offset, 0);
    if limit.None? || limit.value > MaxLimit then Failure(LimitError)
    else if offset.None? || offset.value < 0 then Failure(OffsetError)
    else if SourceGiven(query) && query.source.value !in Sources then
      Failure(BadRequest("Unrecognized source: " + query.source.value))
    else Success(Validated(query, id))
  }

  /**
   * `validateParams` as written: it asks for `getWikiId(lang, wiki)`, the
   * arguments in the opposite order to the function's `(wiki, lang)`.
   */
  function ValidateParams(parseInt: string -> Option<int>, lang: string, wiki: string, query: Query): (r: Result<Validated, HttpError>)
    ensures WikiId.GetWikiId(lang, wiki).None? ==> r == Failure(NotFound(lang, wiki))
    ensures r.Success? <==> lang == "wikipedia" && wiki in WikiId.RecognizedLanguages
                            && CheckQuery(parseInt, query, wiki + "wiki").Success?
    ensures r.Success? ==> r.value == Validated(query, wiki + "wiki")
    ensures WikiId.GetWikiId(lang, wiki).Some? ==> r == CheckQuery(parseInt, query, wiki + "wiki")
  {
    match WikiId.GetWikiId(lang, wiki)
    case None => Failure(NotFound(lang, wiki))
    case Some(id) => CheckQuery(parseInt, query, id)
  }

  /** `validateParams` with the arguments of `getWikiId` in their declared order. */
  function CorrectedValidateParams(parseInt: string -> Option<int>, lang: string, wiki: string, query: Query): (r: Result<Validated, HttpError>)
    ensures WikiId.GetWikiId(wiki, lang).None? ==> r == Failure(NotFound(lang, wiki))
    ensures r.Success? <==> wiki == "wikipedia" && lang in WikiId.RecognizedLanguages
                            && CheckQuery(parseInt, query, lang + "wiki").Success?
    ensures r.Success? ==> r.value == Validated(query, lang + "wiki")
    ensures WikiId.GetWikiId(wiki, lang).Some? ==> r == CheckQuery(parseInt, query, lang + "wiki")
  {
    match WikiId.GetWikiId(wiki, lang)
    case None => Failure(NotFound(lang, wiki))
    case Some(id) => CheckQuery(parseInt, query, id)
  }

  /**
   * As written, a request for a Wikipedia in any recognized language, such as
   * `/ar/wikipedia/pages`, is refused with 404, whatever its query.
   */
  lemma WikipediaRequestsRefused(parseInt: string -> Option<int>, lang: string, query: Query)
    requires lang in WikiId.RecognizedLanguages
    ensures ValidateParams(parseInt, lang, "wikipedia", query) == Failure(NotFound(lang, "wikipedia"))
  {
    var langs := WikiId.RecognizedLanguages;
    assert forall k :: 0 <= k < |langs| ==> |langs[k]| <= 3;
    var k :| 0 <= k < |langs| && langs[k] == lang;
    assert |lang| <= 3;
    assert WikiId.GetWikiId(lang, "wikipedia").None?;
  }

  /** With the correction, `/ar/wikipedia/pages` and its defaults resolve to `arwiki`. */
  lemma CorrectedResolvesArabic(parseInt: string -> Option<int>)
    ensures CorrectedValidateParams(parseInt, "ar", "wikipedia", Query(None, None, None))
            == Success(Validated(Query(None, None, None), "arwiki"))
  {
    assert WikiId.RecognizedLanguages[0] == "ar";
    assert "ar" + "wiki" == "arwiki";
    assert WikiId.GetWikiId("wikipedia", "ar") == Some("arwiki");
    assert CheckQuery(parseInt, Query(None, None, None), "arwiki") == Success(Validated(Query(None, None, None), "arwiki"));
  }

  // ---------------------------------------------------------------------------
  // Building the response
  // ---------------------------------------------------------------------------

  /** An image-matching suggestion as the result file gives it. */
  datatype ImaImage = ImaImage(filename: string, confidenceRating: string)

  /** One page of image-matching results. */
  datatype AlgoResult = AlgoResult(project: string, page: string, suggestions: seq<ImaImage>)

  /** An element of a page's `suggestions`: a suggestion, or the `undefined` that `concat(undefined)` appends. */
  datatype Entry = Listed(suggestion: Suggestion) | UndefinedEntry

  datatype Page = Page(project: string, page: string, suggestions: seq<Entry>)

  function Entries(s: seq<Suggestion>): (r: seq<Entry>)
    ensures |r| == |s|
    ensures forall k :: 0 <= k < |s| ==> r[k] == Listed(s[k])
  {
    seq(|s|, k requires 0 <= k < |s| => Listed(s[k]))
  }

  /** Image-matching suggestions are shown when no source is given or the source is `ima`. */
  predicate IncludeIma(q: Query) {
    !SourceGiven(q) || q.source.value == "ima"
  }

  function ImaSuggestion(image: ImaImage): Suggestion {
    Suggestion(image.filename, "ima", image.confidenceRating)
  }

  /** The page built field by field from one image-matching result. */
  function PageOf(result: AlgoResult, includeIma: bool): (p: Page)
    ensures p.project == result.project && p.page == result.page
    ensures |p.suggestions| == (if includeIma then |result.suggestions| else 0)
    ensures forall k :: 0 <= k < |p.suggestions| ==> p.suggestions[k] == Listed(ImaSuggestion(result.suggestions[k]))
  {
    var s := result.suggestions;
    Page(result.project, result.page,
      if includeIma then seq(|s|, k requires 0 <= k < |s| => Listed(ImaSuggestion(s[k]))) else [])
  }

  function PagesOf(results: seq<AlgoResult>, includeIma: bool): (pages: seq<Page>)
    ensures |pages| == |results|
    ensures forall i :: 0 <= i < |results| ==> pages[i] == PageOf(results[i], includeIma)
  {
    seq(|results|, i requires 0 <= i < |results| => PageOf(results[i], includeIma))
  }

  /** How many MediaSearch suggestions a page may still take. */
  function Quota(p: Page): int {
    MaxSuggestionsPerPage - |p.suggestions|
  }

  /** A MediaSearch request: the page title and the result limit. */
  datatype MsRequest = MsRequest(page: string, limit: int)

  /** The requests of the `forEach`: one per page with a positive quota, in page order. */
  function Requests(pages: seq<Page>): (r: seq<MsRequest>)
    ensures |r| <= |pages|
    ensures forall c :: 0 <= c < |r| ==> r[c].limit > 0
    decreases |pages|
  {
    if |pages| == 0 then []
    else
      var p := pages[|pages| - 1];
      Requests(pages[..|pages| - 1]) + (if Quota(p) > 0 then [MsRequest(p.page, Quota(p))] else [])
  }

  /** The position of page i's request among all requests: the number of requests for earlier pages. */
  function RequestIndex(pages: seq<Page>, i: nat): nat
    requires i <= |pages|
  {
    |Requests(pages[..i])|
  }

  /**
   * The merge as written: page i receives MediaSearch result i, by position
   * among the pages rather than among the requests; past the last result it
   * receives `undefined`.
   */
  function MergeAsWritten(pages: seq<Page>, results: seq<seq<Suggestion>>): (merged: seq<Page>)
    ensures |merged| == |pages|
    ensures forall i :: 0 <= i < |pages| ==>
      && merged[i].project == pages[i].project && merged[i].page == pages[i].page
      && |merged[i].suggestions| >= |pages[i].suggestions|
      && merged[i].suggestions[..|pages[i].suggestions|] == pages[i].suggestions
    ensures forall i :: |results| <= i < |pages| ==> merged[i].suggestions == pages[i].suggestions + [UndefinedEntry]
  {
    seq(|pages|, i requires 0 <= i < |pages| =>
      pages[i].(suggestions := pages[i].suggestions + (if i < |results| then Entries(results[i]) else [UndefinedEntry])))
  }

  function ResultAt(results: seq<seq<Suggestion>>, c: nat): seq<Suggestion> {
    if c < |results| then results[c] else []
  }

  /** The merge that pairs each requested page with its own request's result. */
  function MergeCorrected(pages: seq<Page>, results: seq<seq<Suggestion>>): (merged: seq<Page>)
    ensures |merged| == |pages|
    ensures forall i :: 0 <= i < |pages| ==>
      && merged[i].project == pages[i].project && merged[i].page == pages[i].page
      && |merged[i].suggestions| >= |pages[i].suggestions|
      && merged[i].suggestions[..|pages[i].suggestions|] == pages[i].suggestions
    ensures forall i :: 0 <= i < |pages| && Quota(pages[i]) <= 0 ==> merged[i] == pages[i]
  {
    seq(|pages|, i requires 0 <= i < |pages| =>
      if Quota(pages[i]) > 0
      then pages[i].(suggestions := pages[i].suggestions + Entries(ResultAt(results, RequestIndex(pages, i))))
      else pages[i])
  }

  function AlgoError(detail: Detail): HttpError {
    HttpError(500, "error", "Cannot retrieve image matching algorithm results", detail)
  }

  function MediaSearchError(detail: Detail): HttpError {
    HttpError(500, "error", "Cannot retrieve mediasearch results", detail)
  }

  /**
   * `getPages` given how its two lookups settle, with the merge passed in:
   * validation errors are thrown as they are; a failed image-matching lookup
   * and a failed MediaSearch lookup both end as the image-matching 500 error,
   * the second wrapping the MediaSearch 500 error.
   */
  function Respond(validated: Result<Validated, HttpError>,
                   algo: Result<seq<AlgoResult>, Detail>,
                   ms: Result<seq<seq<Suggestion>>, Detail>,
                   merge: (seq<Page>, seq<seq<Suggestion>>) -> seq<Page>): (r: Result<seq<Page>, HttpError>)
    ensures validated.Failure? ==> r == Failure(validated.error)
    ensures validated.Success? && algo.Failure? ==> r == Failure(AlgoError(algo.error))
    ensures validated.Success? && algo.Success? ==>
      var q := validated.value.query;
      var pages := PagesOf(algo.value, IncludeIma(q));
      && (SourceGiven(q) && q.source.value != "ms" ==> r == Success(pages))
      && (|Requests(pages)| == 0 ==> r == Success(pages))
      && (!(SourceGiven(q) && q.source.value != "ms") && |Requests(pages)| > 0 ==>
            r == (if ms.Failure? then Failure(AlgoError(Wrapped(MediaSearchError(ms.error))))
                  else Success(merge(pages, ms.value))))
  {
    match validated
    case Failure(e) => Failure(e)
    case Success(v) =>
      match algo
      case Failure(e) => Failure(AlgoError(e))
      case Success(results) =>
        var q := v.query;
        var pages := PagesOf(results, IncludeIma(q));
        if SourceGiven(q) && q.source.value != "ms" then Success(pages)
        else if |Requests(pages)| == 0 then Success(pages)
        else match ms
          case Failure(e) => Failure(AlgoError(Wrapped(MediaSearchError(e))))
          case Success(all) => Success(merge(pages, all))
  }

  /** `getPages` as written. */
  function GetPages(parseInt: string -> Option<int>, lang: string, wiki: string, query: Query,
                    algo: Result<seq<AlgoResult>, Detail>, ms: Result<seq<seq<Suggestion>>, Detail>): (r: Result<seq<Page>, HttpError>)
    ensures WikiId.GetWikiId(lang, wiki).None? ==> r == Failure(NotFound(lang, wiki))
    ensures r.Success? ==> lang == "wikipedia" && wiki in WikiId.RecognizedLanguages && algo.Success?
  {
    Respond(ValidateParams(parseInt, lang, wiki, query), algo, ms, MergeAsWritten)
  }

  /** `getPages` with both corrections: the wiki id lookup and the pairing of MediaSearch results. */
  function CorrectedGetPages(parseInt: string -> Option<int>, lang: string, wiki: string, query: Query,
                             algo: Result<seq<AlgoResult>, Detail>, ms: Result<seq<seq<Suggestion>>, Detail>): (r: Result<seq<Page>, HttpError>)
    ensures WikiId.GetWikiId(wiki, lang).None? ==> r == Failure(NotFound(lang, wiki))
    ensures r.Success? ==> wiki == "wikipedia" && lang in WikiId.RecognizedLanguages && algo.Success?
  {
    Respond(CorrectedValidateParams(parseInt, lang, wiki, query), algo, ms, MergeCorrected)
  }
}

=== FILE: ingest.dfy ===
/**
 * The per-line ingestion fold of `insertFile` in lib/AlgoResults.js.
 *
 * A results file is a header line followed by data lines, one per candidate
 * image (or one sentinel line with an empty image id for a page without
 * candidates), grouped by page. The fold numbers pages as it meets them,
 * buffers page, image and page-image rows, and hands the buffers to the
 * database every 40 counted lines and once more at the end of the input. The
 * database is modelled only as the sequence of insert batches it receives,
 * and by the one way handing it a batch can fail synchronously: building the
 * placeholders of an image insert whose column count is 0 throws a RangeError.
 *
 * `parseId` stands for JavaScript's `parseInt` on the page-id field: `None`
 * is `NaN`, which compares unequal to everything, itself included.
 */
module Ingest {
  import opened JsBase
  import opened JsStrings
  import AlgoResults
  import Database
  import opened Gathering

  /** Number of counted lines between two flushes (`insertChunks`). */
  const InsertChunks: nat := 40

  /** A page-table row `[row_num, row_num_ima, id, title]`; a one-field line has no title. */
  datatype PageRow = PageRow(rowNum: int, rowNumIma: int, pageId: Option<int>, title: Option<string>) {
    function Width(): nat {
      if title.Some? then 4 else 3
    }
  }

  /** A page-image link row `[page_id, image_id, image_source]`. */
  datatype JoinRow = JoinRow(pageId: Option<int>, imageId: Value, imageSource: Value)

  /** One insert call: page rows, flattened image-table values, or link rows. */
  datatype Batch =
    | PageBatch(numCol: nat, rows: seq<PageRow>)
    | ImageBatch(numCol: nat, values: seq<string>)
    | JoinBatch(links: seq<JoinRow>)
  {
    function Pages(): seq<PageRow> {
      if PageBatch? then rows else []
    }

    function Images(): seq<string> {
      if ImageBatch? then values else []
    }

    function Joins(): seq<JoinRow> {
      if JoinBatch? then links else []
    }
  }

  /**
   * The closure variables of `insertFile`: the two row-number counters, the id of
   * the last page seen, the line counter, the three buffers, the widths of the
   * most recent page and image rows (used as the column count at flush time),
   * the batches handed to the database so far, whether `reject` has been called
   * for a malformed row, and the message of a header check that threw.
   */
  datatype State = State(
    pageRowNum: int,
    pageRowNumIma: int,
    lastPageId: Option<int>,
    lineCount: int,
    pageRows: seq<PageRow>,
    imageRows: seq<string>,
    joinRows: seq<JoinRow>,
    pageWidth: nat,
    imageWidth: nat,
    batches: seq<Batch>,
    invalidRow: bool,
    halted: Option<string>)

  /** Both counters are one-origin; the last page id starts as 0. */
  const Init: State := State(1, 1, Some(0), 0, [], [], [], 0, 0, [], false, None)

  /** `pageID !== lastPageID` is false only for two equal numbers. */
  predicate SameId(a: Option<int>, b: Option<int>) {
    a.Some? && b.Some? && a.value == b.value
  }

  /** The title field of a data row, absent on a one-field line. */
  function Title(row: seq<string>): Option<string> {
    if |row| >= 2 then Some(row[1]) else None
  }

  /** `row.slice(2)` with the `wiki` column (index 5 of the slice) spliced out. */
  function ImageRowOf(row: seq<string>): seq<string> {
    var tail := if |row| >= 2 then row[2..] else [];
    if |tail| > 5 then tail[..5] + tail[6..] else tail
  }

  /** The image id of the row is not an empty value. */
  predicate HasImage(row: seq<string>) {
    !AlgoResults.IsEmptyValue(Field(row, 2))
  }

  /** The page-id field of a data row (a split line always has one). */
  function IdField(row: seq<string>): string {
    if |row| >= 1 then row[0] else ""
  }

  function JoinRowOf(parseId: string -> Option<int>, row: seq<string>): JoinRow {
    JoinRow(parseId(IdField(row)), Field(row, 2), Field(row, 4))
  }

  /**
   * Handing the buffered image values to the database throws: there are some,
   * and the placeholders for rows of the latest image row's width cannot be
   * built (that row had no field past the title, so the width is 0).
   */
  predicate ImageInsertThrows(st: State) {
    |st.imageRows| > 0 && Database.GeneratePlaceholders(st.imageWidth, st.imageRows).Failure?
  }

  /** The error the image insert of `st` throws. */
  function ImageInsertError(st: State): string
    requires ImageInsertThrows(st)
  {
    Database.GeneratePlaceholders(st.imageWidth, st.imageRows).error
  }

  /**
   * Hands the three buffers to the database and empties them. The page insert
   * comes first; when the image insert then throws, the link insert is never
   * made, the buffers are not reset and the fold stops with the error.
   */
  function Flush(st: State): State {
    var paged := st.batches + [PageBatch(st.pageWidth, st.pageRows)];
    if ImageInsertThrows(st) then st.(batches := paged, halted := Some(ImageInsertError(st)))
    else
      var images := if |st.imageRows| > 0 then [ImageBatch(st.imageWidth, st.imageRows), JoinBatch(st.joinRows)] else [];
      st.(batches := paged + images, pageRows := [], imageRows := [], joinRows := [])
  }

  /**
   * The buffering part of one data line: marks the file invalid on a wrong field
   * count, buffers the image row and the link row when the row carries an image,
   * and records the widths of the latest page and image rows.
   */
  function Buffer(parseId: string -> Option<int>, st: State, row: seq<string>): State {
    var imageRow := ImageRowOf(row);
    st.(
      invalidRow := st.invalidRow || |row| != |AlgoResults.ExpectedHeaders|,
      imageRows := if HasImage(row) then st.imageRows + imageRow else st.imageRows,
      joinRows := if HasImage(row) then st.joinRows + [JoinRowOf(parseId, row)] else st.joinRows,
      pageWidth := PageRow(0, 0, None, Title(row)).Width(),
      imageWidth := |imageRow|)
  }

  /**
   * The numbering part of one data line: a page id different from the previous
   * line's starts a page, which is buffered with the current counters and bumps
   * them (`row_num_ima` only when the row carries an image).
   */
  function Number(parseId: string -> Option<int>, st: State, row: seq<string>): State {
    var pageId := parseId(IdField(row));
    if SameId(pageId, st.lastPageId) then st
    else st.(
      pageRows := st.pageRows + [PageRow(st.pageRowNum, if HasImage(row) then st.pageRowNumIma else 0, pageId, Title(row))],
      pageRowNumIma := if HasImage(row) then st.pageRowNumIma + 1 else st.pageRowNumIma,
      lastPageId := pageId,
      pageRowNum := st.pageRowNum + 1)
  }

  /**
   * The counting part of one data line: a flush when 40 lines have been
   * counted, then the count. A flush that throws leaves the counter alone.
   */
  function Tick(st: State): State {
    if st.lineCount == InsertChunks then
      if ImageInsertThrows(st) then Flush(st) else Flush(st).(lineCount := 1)
    else st.(lineCount := st.lineCount + 1)
  }

  /** The work done for one counted data line (`row[0]` is not empty). */
  function DataStep(parseId: string -> Option<int>, st: State, row: seq<string>): State {
    Tick(Number(parseId, Buffer(parseId, st, row), row))
  }

  /** The stream callback for one line. */
  function Step(parseId: string -> Option<int>, st: State, line: string): State {
    if st.halted.Some? then st
    else if st.lineCount == 0 then
      match AlgoResults.ValidateHeaders(Split(line, TAB), AlgoResults.ExpectedHeaders)
      case Failure(msg) => st.(halted := Some(msg))
      case Success(_) => st.(lineCount := 1)
    else
      var row := Split(line, TAB);
      if row[0] == "" then st else DataStep(parseId, st, row)
  }

  /** The state after the callback has run on every line, in order. */
  function Run(parseId: string -> Option<int>, lines: seq<string>): State
    decreases |lines|
  {
    if |lines| == 0 then Init
    else Step(parseId, Run(parseId, lines[..|lines| - 1]), lines[|lines| - 1])
  }

  /**
   * The `end` handler: flushes whichever of the page and image buffers is
   * non-empty. An image insert that throws stops the handler before the link
   * insert and before `resolve`.
   */
  function Finish(st: State): State {
    var paged := if |st.pageRows| > 0 then st.batches + [PageBatch(st.pageWidth, st.pageRows)] else st.batches;
    if ImageInsertThrows(st) then st.(batches := paged, halted := Some(ImageInsertError(st)))
    else if |st.imageRows| > 0 then st.(batches := paged + [ImageBatch(st.imageWidth, st.imageRows), JoinBatch(st.joinRows)])
    else st.(batches := paged)
  }

  /** The reason passed to `reject` for a row with the wrong number of fields. */
  const InvalidRow := "Invalid row to insert"

  /**
   * How `insertFile` ends. `Resolved` and `Rejected` are how its promise
   * settles. `Aborted` is not a settlement: the header check throws inside the
   * stream callback, nothing calls `reject`, the exception escapes the stream
   * uncaught and the promise stays pending; the value records the thrown message.
   * `RejectedThenThrew` is a promise already rejected for a malformed row whose
   * ingestion then stopped on an image insert that threw; that exception
   * escapes uncaught as well.
   */
  datatype Outcome =
    | Resolved
    | Rejected(reason: string)                            // `reject` was called for a malformed row; processing went on
    | RejectedThenThrew(reason: string, message: string)  // `reject` was called, then an insert threw and processing stopped
    | Aborted(message: string)                            // the header check threw; the promise never settles

  datatype Ingestion = Ingestion(batches: seq<Batch>, outcome: Outcome)

  /** How the fold's final state ends the call. */
  function OutcomeOf(st: State): Outcome {
    if st.halted.Some? then
      if st.invalidRow then RejectedThenThrew(InvalidRow, st.halted.value) else Aborted(st.halted.value)
    else if st.invalidRow then Rejected(InvalidRow)
    else Resolved
  }

  /** `insertFile` on the lines of one results file; the `end` handler runs only if no line threw. */
  function InsertFile(parseId: string -> Option<int>, lines: seq<string>): Ingestion {
    var st := Run(parseId, lines);
    var last := if st.halted.Some? then st else Finish(st);
    Ingestion(last.batches, OutcomeOf(last))
  }

  // ---------------------------------------------------------------------------
  // Reference definitions, independent of buffering and counters
  // ---------------------------------------------------------------------------

  predicate HeaderOk(lines: seq<string>) {
    |lines| >= 1 && Split(lines[0], TAB) == AlgoResults.ExpectedHeaders
  }

  /** The split data lines that are counted: every line after the first whose first field is not empty. */
  function DataRows(lines: seq<string>): (d: seq<seq<string>>)
    ensures forall k :: 0 <= k < |d| ==> |d[k]| >= 1 && d[k][0] != ""
    decreases |lines|
  {
    if |lines| <= 1 then []
    else CountLine(DataRows(lines[..|lines| - 1]), lines[|lines| - 1])
  }

  /** The counted rows after one more data line: its split fields are counted unless the first is empty. */
  function CountLine(d: seq<seq<string>>, line: string): seq<seq<string>> {
    var row := Split(line, TAB);
    d + (if row[0] != "" then [row] else [])
  }

  /** The page id the code compares row `k` against: the previous row's, or 0 for the first. */
  function PreviousId(parseId: string -> Option<int>, d: seq<seq<string>>, k: nat): Option<int>
    requires k <= |d|
  {
    if k == 0 then Some(0) else parseId(IdField(d[k - 1]))
  }

  /** Row `k` starts a page when its parsed id differs from the one before it. */
  predicate StartsPage(parseId: string -> Option<int>, d: seq<seq<string>>, k: nat)
    requires k < |d|
  {
    !SameId(parseId(IdField(d[k])), PreviousId(parseId, d, k))
  }

  /** The rows that start a page, in order. */
  function PageStarts(parseId: string -> Option<int>, d: seq<seq<string>>): (s: seq<seq<string>>)
    decreases |d|
  {
    if |d| == 0 then []
    else PageStarts(parseId, d[..|d| - 1]) + (if StartsPage(parseId, d, |d| - 1) then [d[|d| - 1]] else [])
  }

  /** The number of rows in `s` that carry an image. */
  function WithImage(s: seq<seq<string>>): nat
    decreases |s|
  {
    if |s| == 0 then 0 else WithImage(s[..|s| - 1]) + (if HasImage(s[|s| - 1]) then 1 else 0)
  }

  /** The page rows a file should produce: one per page, numbered in order of appearance. */
  function ExpectedPageRows(parseId: string -> Option<int>, d: seq<seq<string>>): seq<PageRow>
  {
    NumberPages(parseId, PageStarts(parseId, d))
  }

  /**
   * The page row for a page whose first row is `row`, after the pages whose first
   * rows are `earlier`: row_num counts the pages so far, this one included, and
   * row_num_ima does the same over pages whose first row carries an image, or is
   * 0 when this one's does not.
   */
  function NextPageRow(parseId: string -> Option<int>, earlier: seq<seq<string>>, row: seq<string>): PageRow {
    PageRow(|earlier| + 1, if HasImage(row) then WithImage(earlier) + 1 else 0, parseId(IdField(row)), Title(row))
  }

  /** The page rows for the pages whose first rows are `s`, in order. */
  function NumberPages(parseId: string -> Option<int>, s: seq<seq<string>>): (r: seq<PageRow>)
    ensures |r| == |s|
    decreases |s|
  {
    if |s| == 0 then []
    else NumberPages(parseId, s[..|s| - 1]) + [NextPageRow(parseId, s[..|s| - 1], s[|s| - 1])]
  }

  /** The image-table values a file should produce: the image row of every row that carries an image. */
  function ExpectedImageValues(d: seq<seq<string>>): seq<string>
    decreases |d|
  {
    if |d| == 0 then []
    else ExpectedImageValues(d[..|d| - 1]) + (if HasImage(d[|d| - 1]) then ImageRowOf(d[|d| - 1]) else [])
  }

  /** The link rows a file should produce: one per row that carries an image. */
  function ExpectedJoinRows(parseId: string -> Option<int>, d: seq<seq<string>>): seq<JoinRow>
    decreases |d|
  {
    if |d| == 0 then []
    else ExpectedJoinRows(parseId, d[..|d| - 1])
         + (if HasImage(d[|d| - 1]) then [JoinRowOf(parseId, d[|d| - 1])] else [])
  }

  /** Every row that carries an image has the image, confidence and source fields. */
  predicate ImageFieldsPresent(d: seq<seq<string>>) {
    forall k :: 0 <= k < |d| ==> HasImage(d[k]) ==> |d[k]| >= 3
  }

  // ---------------------------------------------------------------------------
  // What the batches contain
  // ---------------------------------------------------------------------------

  function PagePart(b: Batch): seq<PageRow> { b.Pages() }
  function ImagePart(b: Batch): seq<string> { b.Images() }
  function JoinPart(b: Batch): seq<JoinRow> { b.Joins() }
  function PageBatchPart(b: Batch): seq<Batch> { if b.PageBatch? then [b] else [] }

  /** Every page row handed to the database, in order. */
  function PagesOf(bs: seq<Batch>): seq<PageRow> { Gather(bs, PagePart) }

  /** Every image-table value handed to the database, in order. */
  function ImagesOf(bs: seq<Batch>): seq<string> { Gather(bs, ImagePart) }

  /** Every link row handed to the database, in order. */
  function JoinsOf(bs: seq<Batch>): seq<JoinRow> { Gather(bs, JoinPart) }

  /** The number of page inserts. */
  function PageBatchCount(bs: seq<Batch>): nat { |Gather(bs, PageBatchPart)| }

  lemma BatchesAppend(a: seq<Batch>, b: seq<Batch>)
    ensures PagesOf(a + b) == PagesOf(a) + PagesOf(b)
    ensures ImagesOf(a + b) == ImagesOf(a) + ImagesOf(b)
    ensures JoinsOf(a + b) == JoinsOf(a) + JoinsOf(b)
    ensures PageBatchCount(a + b) == PageBatchCount(a) + PageBatchCount(b)
  {
    GatherAppend(a, b, PagePart);
    GatherAppend(a, b, ImagePart);
    GatherAppend(a, b, JoinPart);
    GatherAppend(a, b, PageBatchPart);
  }

  /** Image and link batches are never empty. */
  predicate NoEmptyImageBatches(bs: seq<Batch>) {
    forall k :: 0 <= k < |bs| ==> (bs[k].ImageBatch? ==> |bs[k].values| > 0)
  }

  /** The image insert throws exactly when image values are buffered and the latest image row is empty. */
  lemma ThrowsWhenWidthZero(st: State)
    ensures ImageInsertThrows(st) <==> |st.imageRows| > 0 && st.imageWidth == 0
    ensures ImageInsertThrows(st) ==> ImageInsertError(st) == Database.RangeErrorMessage
  {
  }

  /** What one batch contributes, for each of the page, image and link parts. */
  lemma BatchParts(b: Batch)
    ensures PagesOf([b]) == b.Pages() && ImagesOf([b]) == b.Images() && JoinsOf([b]) == b.Joins()
    ensures PageBatchCount([b]) == if b.PageBatch? then 1 else 0
  {
    GatherOne(b, PagePart); GatherOne(b, ImagePart); GatherOne(b, JoinPart); GatherOne(b, PageBatchPart);
  }

  /** Appending an image batch and its link batch adds exactly their values and links. */
  lemma ImagePairParts(bs: seq<Batch>, values: seq<string>, w: nat, links: seq<JoinRow>)
    ensures var bs' := bs + [ImageBatch(w, values), JoinBatch(links)];
      && PagesOf(bs') == PagesOf(bs) && PageBatchCount(bs') == PageBatchCount(bs)
      && ImagesOf(bs') == ImagesOf(bs) + values && JoinsOf(bs') == JoinsOf(bs) + links
  {
    var img := ImageBatch(w, values);
    var join := JoinBatch(links);
    BatchesAppend(bs, [img, join]);
    GatherTwo(img, join, PagePart); GatherTwo(img, join, ImagePart);
    GatherTwo(img, join, JoinPart); GatherTwo(img, join, PageBatchPart);
  }

  /**
   * A chunk flush inserts the buffered page rows, then, unless the image insert
   * throws, the buffered image values and link rows (when there are image
   * values) and empties the buffers. When it throws, the page rows alone have
   * been inserted, nothing else has, and the fold stops with the RangeError.
   */
  lemma FlushContents(st: State)
    ensures PagesOf(Flush(st).batches) == PagesOf(st.batches) + st.pageRows
    ensures PageBatchCount(Flush(st).batches) == PageBatchCount(st.batches) + 1
    ensures ImageInsertThrows(st) ==>
      && ImagesOf(Flush(st).batches) == ImagesOf(st.batches)
      && JoinsOf(Flush(st).batches) == JoinsOf(st.batches)
      && Flush(st).halted == Some(Database.RangeErrorMessage)
    ensures !ImageInsertThrows(st) ==>
      && ImagesOf(Flush(st).batches) == ImagesOf(st.batches) + st.imageRows
      && JoinsOf(Flush(st).batches) == JoinsOf(st.batches) + (if |st.imageRows| > 0 then st.joinRows else [])
      && Flush(st).halted == st.halted
      && Flush(st).pageRows == [] && Flush(st).imageRows == [] && Flush(st).joinRows == []
  {
    ThrowsWhenWidthZero(st);
    var page := PageBatch(st.pageWidth, st.pageRows);
    BatchesAppend(st.batches, [page]);
    BatchParts(page);
    if !ImageInsertThrows(st) && |st.imageRows| > 0 {
      assert Flush(st).batches == st.batches + [page] + [ImageBatch(st.imageWidth, st.imageRows), JoinBatch(st.joinRows)];
      ImagePairParts(st.batches + [page], st.imageRows, st.imageWidth, st.joinRows);
    } else {
      assert Flush(st).batches == st.batches + [page];
    }
  }

  /**
   * The `end` handler inserts the buffered page rows if there are any, then the
   * buffered image values and link rows if there are image values, unless the
   * image insert throws: then only the page rows are inserted and the handler
   * stops with the RangeError before resolving.
   */
  lemma FinishContents(st: State)
    ensures PagesOf(Finish(st).batches) == PagesOf(st.batches) + st.pageRows
    ensures ImageInsertThrows(st) ==>
      && ImagesOf(Finish(st).batches) == ImagesOf(st.batches)
      && JoinsOf(Finish(st).batches) == JoinsOf(st.batches)
      && Finish(st).halted == Some(Database.RangeErrorMessage)
    ensures !ImageInsertThrows(st) ==>
      && ImagesOf(Finish(st).batches) == ImagesOf(st.batches) + st.imageRows
      && JoinsOf(Finish(st).batches) == JoinsOf(st.batches) + (if |st.imageRows| > 0 then st.joinRows else [])
      && Finish(st).halted == st.halted
    ensures Finish(st).invalidRow == st.invalidRow
  {
    ThrowsWhenWidthZero(st);
    var page := PageBatch(st.pageWidth, st.pageRows);
    var mid := if |st.pageRows| > 0 then st.batches + [page] else st.batches;
    assert PagesOf(mid) == PagesOf(st.batches) + st.pageRows
        && ImagesOf(mid) == ImagesOf(st.batches) && JoinsOf(mid) == JoinsOf(st.batches) by {
      if |st.pageRows| > 0 {
        BatchesAppend(st.batches, [page]);
        BatchParts(page);
      }
    }
    if !ImageInsertThrows(st) && |st.imageRows| > 0 {
      assert Finish(st).batches == mid + [ImageBatch(st.imageWidth, st.imageRows), JoinBatch(st.joinRows)];
      ImagePairParts(mid, st.imageRows, st.imageWidth, st.joinRows);
    } else {
      assert Finish(st).batches == mid;
    }
  }
}

=== FILE: ingest_outcome.dfy ===
/**
 * The end-to-end guarantees of `insertFile`: what the whole sequence of insert
 * calls contains, how the pages are numbered, when the promise is rejected,
 * when an image insert throws, and what a file with a bad header does.
 */
module IngestOutcome {
  import opened JsBase
  import opened JsStrings
  import AlgoResults
  import Database
  import opened Ingest
  import opened IngestTheorems

  // ---------------------------------------------------------------------------
  // A bad header
  // ---------------------------------------------------------------------------

  /** The message the header check throws for the first line. */
  function HeaderError(lines: seq<string>): string
    requires |lines| >= 1 && !HeaderOk(lines)
  {
    AlgoResults.ValidateHeaders(Split(lines[0], TAB), AlgoResults.ExpectedHeaders).error
  }

  /** Once the header check has thrown, no later line changes anything. */
  lemma {:induction false} RunAfterBadHeader(parseId: string -> Option<int>, lines: seq<string>)
    requires |lines| >= 1 && !HeaderOk(lines)
    ensures Run(parseId, lines) == Init.(halted := Some(HeaderError(lines)))
    decreases |lines|
  {
    if |lines| == 1 {
      RunOne(parseId, lines);
    } else {
      var prefix := lines[..|lines| - 1];
      assert prefix[0] == lines[0];
      RunAfterBadHeader(parseId, prefix);
    }
  }

  /**
   * A file whose first line is not exactly the expected header inserts nothing,
   * and `insertFile` ends with the header check's error.
   */
  lemma InsertFileBadHeader(parseId: string -> Option<int>, lines: seq<string>)
    requires |lines| >= 1 && !HeaderOk(lines)
    ensures InsertFile(parseId, lines) == Ingestion([], Aborted(HeaderError(lines)))
  {
    RunAfterBadHeader(parseId, lines);
  }

  // ---------------------------------------------------------------------------
  // A good header: what reaches the database
  // ---------------------------------------------------------------------------

  lemma FinishNonEmpty(st: State)
    requires NoEmptyImageBatches(st.batches) && NoEmptyLinkBatches(st.batches)
    requires |st.imageRows| > 0 ==> |st.joinRows| > 0
    ensures NoEmptyImageBatches(Finish(st).batches) && NoEmptyLinkBatches(Finish(st).batches)
  {
    var bs := Finish(st).batches;
    forall k | 0 <= k < |bs|
      ensures (bs[k].ImageBatch? ==> |bs[k].values| > 0) && (bs[k].JoinBatch? ==> |bs[k].links| > 0)
    {
      if k < |st.batches| {
        assert bs[k] == st.batches[k];
      }
    }
  }

  /**
   * The `end` handler run on a state satisfying the invariant: every reference
   * page row has been inserted; the image values too unless the image insert
   * throws, which needs a row without a field past the title and leaves a
   * prefix of them inserted.
   */
  lemma FinishLive(parseId: string -> Option<int>, d: seq<seq<string>>, st: State)
    requires Inv(parseId, d, st)
    ensures var f := Finish(st);
      && PagesOf(f.batches) == ExpectedPageRows(parseId, d)
      && ImagesOf(f.batches) <= ExpectedImageValues(d)
      && (f.halted.None? ==> ImagesOf(f.batches) == ExpectedImageValues(d))
      && (ImageFieldsPresent(d) ==> f.halted.None? && JoinsOf(f.batches) == ExpectedJoinRows(parseId, d))
      && (f.halted.Some? ==> f.halted == Some(Database.RangeErrorMessage) && SomeRowMalformed(d))
      && NoEmptyImageBatches(f.batches) && NoEmptyLinkBatches(f.batches)
      && (f.invalidRow <==> SomeRowMalformed(d))
  {
    ThrowsWhenWidthZero(st);
    FinishContents(st);
    FinishNonEmpty(st);
    var e := ImagesOf(st.batches);
    assert e <= e + st.imageRows;
  }

  /**
   * A data row with at most two fields, met while image values are buffered,
   * counts as carrying an image, adds no image value and leaves the image-row
   * width at 0, so the next image insert, at a chunk flush or at the end of the
   * input, throws the RangeError after the page insert and before the link
   * insert; `reject` has been called for the row already.
   */
  lemma ShortRowThrows(parseId: string -> Option<int>, st: State, row: seq<string>)
    requires 1 <= |row| <= 2 && |st.imageRows| > 0
    ensures var n := Number(parseId, Buffer(parseId, st, row), row);
      && n.invalidRow
      && n.imageRows == st.imageRows
      && ImageInsertThrows(n)
      && Flush(n).halted == Some(Database.RangeErrorMessage)
      && ImagesOf(Flush(n).batches) == ImagesOf(st.batches) && JoinsOf(Flush(n).batches) == JoinsOf(st.batches)
      && Finish(n).halted == Some(Database.RangeErrorMessage)
      && ImagesOf(Finish(n).batches) == ImagesOf(st.batches) && JoinsOf(Finish(n).batches) == JoinsOf(st.batches)
  {
    var n := Number(parseId, Buffer(parseId, st, row), row);
    assert HasImage(row) by { assert Field(row, 2) == Undefined; }
    assert ImageRowOf(row) == [];
    ThrowsWhenWidthZero(n);
    FlushContents(n);
    FinishContents(n);
  }

  /**
   * After a good header, the insert calls together carry a prefix of the
   * reference page rows and image values, and all of them unless an image
   * insert threw; that cannot happen while every counted row has a field past
   * the title, and then the link rows are exactly the reference's too. No
   * image or link insert is empty. The promise resolves exactly when every
   * counted row has nine fields; otherwise it is rejected, and an image insert
   * may have thrown afterwards.
   */
  lemma InsertFileEmits(parseId: string -> Option<int>, lines: seq<string>)
    requires HeaderOk(lines)
    ensures var r := InsertFile(parseId, lines); var d := DataRows(lines);
      && PagesOf(r.batches) <= ExpectedPageRows(parseId, d)
      && ImagesOf(r.batches) <= ExpectedImageValues(d)
      && (!r.outcome.RejectedThenThrew? ==>
            PagesOf(r.batches) == ExpectedPageRows(parseId, d) && ImagesOf(r.batches) == ExpectedImageValues(d))
      && (ImageFieldsPresent(d) ==>
            !r.outcome.RejectedThenThrew? && JoinsOf(r.batches) == ExpectedJoinRows(parseId, d))
      && NoEmptyImageBatches(r.batches) && NoEmptyLinkBatches(r.batches)
      && (r.outcome == Resolved <==> !SomeRowMalformed(d))
      && (SomeRowMalformed(d) ==>
            r.outcome == Rejected(InvalidRow) || r.outcome == RejectedThenThrew(InvalidRow, Database.RangeErrorMessage))
  {
    RunInvariant(parseId, lines);
    var st := Run(parseId, lines);
    if st.halted.None? {
      FinishLive(parseId, DataRows(lines), st);
    }
  }

  /**
   * Before the end flush, one page insert has happened per 40 counted lines,
   * unless a chunk flush threw, which needs a row without a field past the
   * title and leaves the fold stopped with the RangeError.
   */
  lemma ChunkFlushes(parseId: string -> Option<int>, lines: seq<string>)
    requires HeaderOk(lines)
    ensures var st := Run(parseId, lines); var d := DataRows(lines);
      && (ImageFieldsPresent(d) ==> st.halted.None?)
      && (st.halted.None? ==> PageBatchCount(st.batches) == |d| / InsertChunks && st.lineCount == |d| % InsertChunks + 1)
      && (st.halted.Some? ==> st.halted == Some(Database.RangeErrorMessage) && SomeRowMalformed(d))
  {
    RunInvariant(parseId, lines);
  }

  // ---------------------------------------------------------------------------
  // Page numbering
  // ---------------------------------------------------------------------------

  /** Page i of the numbered list is the page row for `s[i]` after the pages `s[..i]`. */
  lemma {:induction false} NumberPagesAt(parseId: string -> Option<int>, s: seq<seq<string>>)
    ensures |NumberPages(parseId, s)| == |s|
    ensures forall i :: 0 <= i < |s| ==> NumberPages(parseId, s)[i] == NextPageRow(parseId, s[..i], s[i])
    decreases |s|
  {
    if |s| > 0 {
      var p := s[..|s| - 1];
      NumberPagesAt(parseId, p);
      NumberPagesSnoc(parseId, p, s[|s| - 1]);
      assert s == p + [s[|s| - 1]];
      forall i | 0 <= i < |s| ensures NumberPages(parseId, s)[i] == NextPageRow(parseId, s[..i], s[i]) {
        if i < |p| {
          assert s[..i] == p[..i];
          assert s[i] == p[i];
        } else {
          assert s[..i] == p;
        }
      }
    }
  }

  /** The nonzero `row_num_ima` values of some page rows, in order. */
  function ImaNumbers(rows: seq<PageRow>): seq<int>
    decreases |rows|
  {
    if |rows| == 0 then []
    else
      var last := rows[|rows| - 1];
      ImaNumbers(rows[..|rows| - 1]) + (if last.rowNumIma != 0 then [last.rowNumIma] else [])
  }

  /** 1, 2, ..., n. */
  function Range(n: nat): (r: seq<int>)
    ensures |r| == n
    ensures forall k :: 0 <= k < n ==> r[k] == k + 1
  {
    seq(n, k => k + 1)
  }

  lemma RangeSnoc(n: nat)
    ensures Range(n) + [n + 1] == Range(n + 1)
  {
    var a := Range(n) + [n + 1];
    var b := Range(n + 1);
    assert |a| == |b|;
    forall k | 0 <= k < |a| ensures a[k] == b[k] {
      if k < n {
        assert a[k] == Range(n)[k];
      }
    }
  }

  lemma ImaNumbersSnoc(rows: seq<PageRow>, row: PageRow)
    ensures ImaNumbers(rows + [row]) == ImaNumbers(rows) + (if row.rowNumIma != 0 then [row.rowNumIma] else [])
  {
    assert (rows + [row])[..|rows|] == rows;
  }

  /** Over the pages whose first row carries an image, `row_num_ima` runs 1, 2, ..., M in page order. */
  lemma {:induction false} ImaNumbersDense(parseId: string -> Option<int>, s: seq<seq<string>>)
    ensures ImaNumbers(NumberPages(parseId, s)) == Range(WithImage(s))
    decreases |s|
  {
    if |s| > 0 {
      var p := s[..|s| - 1];
      var x := s[|s| - 1];
      ImaNumbersDense(parseId, p);
      NumberPagesSnoc(parseId, p, x);
      assert s == p + [x];
      WithImageSnoc(p, x);
      var next := NextPageRow(parseId, p, x);
      ImaNumbersSnoc(NumberPages(parseId, p), next);
      if HasImage(x) {
        RangeSnoc(WithImage(p));
      }
    }
  }

  /** Numbering the first `m` page starts gives the first `m` numbered pages. */
  lemma NumberPagesPrefix(parseId: string -> Option<int>, s: seq<seq<string>>, m: nat)
    requires m <= |s|
    ensures NumberPages(parseId, s[..m]) == NumberPages(parseId, s)[..m]
  {
    NumberPagesAt(parseId, s);
    NumberPagesAt(parseId, s[..m]);
    forall i | 0 <= i < m ensures NumberPages(parseId, s[..m])[i] == NumberPages(parseId, s)[i] {
      assert s[..m][..i] == s[..i];
    }
  }

  /** Any prefix of the numbered pages is numbered page by page from its own starts, densely over those with an image. */
  lemma NumberedPrefix(parseId: string -> Option<int>, s: seq<seq<string>>, pages: seq<PageRow>)
    requires pages <= NumberPages(parseId, s)
    ensures |pages| <= |s|
    ensures forall i :: 0 <= i < |pages| ==> pages[i] == NextPageRow(parseId, s[..i], s[i])
    ensures ImaNumbers(pages) == Range(WithImage(s[..|pages|]))
  {
    var m := |pages|;
    assert pages == NumberPages(parseId, s)[..m];
    NumberPagesAt(parseId, s);
    forall i | 0 <= i < m ensures pages[i] == NextPageRow(parseId, s[..i], s[i]) {
      assert pages[i] == NumberPages(parseId, s)[i];
    }
    NumberPagesPrefix(parseId, s, m);
    ImaNumbersDense(parseId, s[..m]);
  }

  /**
   * The pages inserted for a file with a good header are numbered as the page
   * table requires: the i-th page (0-based) has `row_num` i + 1, the id and title
   * of its first row, a nonzero `row_num_ima` exactly when that first row carries
   * an image, in which case it is one more than the number of earlier such pages;
   * and the nonzero `row_num_ima` values are 1, 2, ..., M in page order. Every
   * page is inserted unless an image insert threw; then the first pages are.
   */
  lemma PageNumbering(parseId: string -> Option<int>, lines: seq<string>)
    requires HeaderOk(lines)
    ensures var pages := PagesOf(InsertFile(parseId, lines).batches);
      var s := PageStarts(parseId, DataRows(lines));
      && |pages| <= |s|
      && (!InsertFile(parseId, lines).outcome.RejectedThenThrew? ==> |pages| == |s|)
      && (forall i :: 0 <= i < |pages| ==> pages[i].rowNum == i + 1)
      && (forall i :: 0 <= i < |pages| ==> pages[i].pageId == parseId(IdField(s[i])) && pages[i].title == Title(s[i]))
      && (forall i :: 0 <= i < |pages| ==> (pages[i].rowNumIma != 0 <==> HasImage(s[i])))
      && (forall i :: 0 <= i < |pages| && pages[i].rowNumIma != 0 ==> pages[i].rowNumIma == WithImage(s[..i]) + 1)
      && ImaNumbers(pages) == Range(WithImage(s[..|pages|]))
  {
    InsertFileEmits(parseId, lines);
    NumberedPrefix(parseId, PageStarts(parseId, DataRows(lines)), PagesOf(InsertFile(parseId, lines).batches));
  }
}

=== FILE: ingest_theorems.dfy ===
/**
 * What `insertFile` hands to the database, proved against the reference
 * definitions of module Ingest: every page row, image value and link row is
 * emitted exactly once and in input order, whatever the chunking; `row_num`
 * runs 1..N over the pages; `row_num_ima` runs 1..M over the pages whose first
 * row carries an image and is 0 elsewhere; a flush happens every 40 counted
 * lines; and the promise is rejected exactly when some data row has the wrong
 * number of fields. The exactness holds while no image insert throws, which
 * is guaranteed when every counted row has a field past the title; once one
 * throws, what has been inserted is a prefix of the reference.
 */
module IngestTheorems {
  import opened JsBase
  import opened JsStrings
  import AlgoResults
  import HeaderCheck
  import Database
  import opened Gathering
  import opened Ingest

  // ---------------------------------------------------------------------------
  // Extending the reference definitions by one row
  // ---------------------------------------------------------------------------

  lemma PageStartsSnoc(parseId: string -> Option<int>, d: seq<seq<string>>, row: seq<string>)
    ensures PreviousId(parseId, d + [row], |d| + 1) == parseId(IdField(row))
    ensures PageStarts(parseId, d + [row]) ==
      PageStarts(parseId, d) + (if !SameId(parseId(IdField(row)), PreviousId(parseId, d, |d|)) then [row] else [])
  {
    var e := d + [row];
    assert e[..|e| - 1] == d;
    assert e[|e| - 1] == row;
    if |d| > 0 {
      assert e[|d| - 1] == d[|d| - 1];
    }
    assert PreviousId(parseId, e, |d|) == PreviousId(parseId, d, |d|);
  }

  lemma WithImageSnoc(s: seq<seq<string>>, row: seq<string>)
    ensures WithImage(s + [row]) == WithImage(s) + (if HasImage(row) then 1 else 0)
  {
    assert (s + [row])[..|s|] == s;
  }

  lemma NumberPagesSnoc(parseId: string -> Option<int>, s: seq<seq<string>>, row: seq<string>)
    ensures NumberPages(parseId, s + [row]) == NumberPages(parseId, s) + [NextPageRow(parseId, s, row)]
  {
    assert (s + [row])[..|s|] == s;
  }

  lemma ExpectedPageRowsSnoc(parseId: string -> Option<int>, d: seq<seq<string>>, row: seq<string>)
    ensures ExpectedPageRows(parseId, d + [row]) ==
      ExpectedPageRows(parseId, d)
      + (if !SameId(parseId(IdField(row)), PreviousId(parseId, d, |d|))
         then [NextPageRow(parseId, PageStarts(parseId, d), row)]
         else [])
  {
    PageStartsSnoc(parseId, d, row);
    var s := PageStarts(parseId, d);
    var s' := PageStarts(parseId, d + [row]);
    if !SameId(parseId(IdField(row)), PreviousId(parseId, d, |d|)) {
      assert s' == s + [row];
      NumberPagesSnoc(parseId, s, row);
    } else {
      assert s' == s;
    }
  }

  lemma ExpectedImagesSnoc(parseId: string -> Option<int>, d: seq<seq<string>>, row: seq<string>)
    ensures ExpectedImageValues(d + [row]) == ExpectedImageValues(d) + (if HasImage(row) then ImageRowOf(row) else [])
    ensures ExpectedJoinRows(parseId, d + [row]) ==
      ExpectedJoinRows(parseId, d) + (if HasImage(row) then [JoinRowOf(parseId, row)] else [])
  {
    assert (d + [row])[..|d|] == d;
  }

  // ---------------------------------------------------------------------------
  // The invariant of the fold, after a valid header line
  // ---------------------------------------------------------------------------

  /** Some counted row does not have as many fields as the header. */
  predicate SomeRowMalformed(d: seq<seq<string>>) {
    HeaderCheck.SomeRowMalformed(d, |AlgoResults.ExpectedHeaders|)
  }

  predicate NoEmptyLinkBatches(bs: seq<Batch>) {
    forall k :: 0 <= k < |bs| ==> (bs[k].JoinBatch? ==> |bs[k].links| > 0)
  }

  /** The line counter and the number of page inserts so far. */
  predicate CounterInv(d: seq<seq<string>>, st: State) {
    && st.halted.None?
    && st.lineCount == |d| % InsertChunks + 1
    && PageBatchCount(st.batches) == |d| / InsertChunks
    && (st.invalidRow <==> SomeRowMalformed(d))
  }

  /** The page rows emitted or buffered, and the numbering counters. */
  predicate PageInv(parseId: string -> Option<int>, d: seq<seq<string>>, st: State)
  {
    && PagesOf(st.batches) + st.pageRows == ExpectedPageRows(parseId, d)
    && st.pageRowNum == |PageStarts(parseId, d)| + 1
    && st.pageRowNumIma == WithImage(PageStarts(parseId, d)) + 1
    && st.lastPageId == PreviousId(parseId, d, |d|)
  }

  /** The image values and link rows emitted or buffered. */
  predicate ImageInv(parseId: string -> Option<int>, d: seq<seq<string>>, st: State)
  {
    && ImagesOf(st.batches) + st.imageRows == ExpectedImageValues(d)
    && NoEmptyImageBatches(st.batches)
    && NoEmptyLinkBatches(st.batches)
    && (|st.imageRows| > 0 ==> |st.joinRows| > 0)
    && (ImageFieldsPresent(d) ==>
          && JoinsOf(st.batches) + st.joinRows == ExpectedJoinRows(parseId, d)
          && (|st.joinRows| > 0 ==> |st.imageRows| > 0))
  }

  lemma StepHeader(parseId: string -> Option<int>, st: State, line: string)
    requires st.halted.None? && st.lineCount == 0
    requires Split(line, TAB) == AlgoResults.ExpectedHeaders
    ensures Step(parseId, st, line) == st.(lineCount := 1)
  {
    assert AlgoResults.ValidateHeaders(Split(line, TAB), AlgoResults.ExpectedHeaders).Success?;
  }

  lemma RunOne(parseId: string -> Option<int>, lines: seq<string>)
    requires |lines| == 1
    ensures Run(parseId, lines) == Step(parseId, Init, lines[0])
  {
    assert lines[..0] == [];
  }

  lemma EmptyReferences(parseId: string -> Option<int>)
    ensures PageStarts(parseId, []) == [] && ExpectedPageRows(parseId, []) == []
    ensures ExpectedImageValues([]) == [] && ExpectedJoinRows(parseId, []) == []
    ensures PagesOf([]) == [] && ImagesOf([]) == [] && JoinsOf([]) == [] && PageBatchCount([]) == 0
  {
  }

  /** The state right after an accepted header satisfies the invariant with no data rows. */
  lemma InitialInvariant(parseId: string -> Option<int>)
    ensures var st := Init.(lineCount := 1);
      CounterInv([], st) && PageInv(parseId, [], st) && ImageInv(parseId, [], st)
  {
    EmptyReferences(parseId);
  }

  lemma HeaderStep(parseId: string -> Option<int>, lines: seq<string>)
    requires HeaderOk(lines) && |lines| == 1
    ensures Run(parseId, lines) == Init.(lineCount := 1)
    ensures DataRows(lines) == []
  {
    RunOne(parseId, lines);
    StepHeader(parseId, Init, lines[0]);
  }

  /** Numbering a row keeps the row-number counters and the last page id in step with the reference. */
  lemma NumberCounters(parseId: string -> Option<int>, d: seq<seq<string>>, st: State, row: seq<string>)
    requires st.pageRowNum == |PageStarts(parseId, d)| + 1
    requires st.pageRowNumIma == WithImage(PageStarts(parseId, d)) + 1
    requires st.lastPageId == PreviousId(parseId, d, |d|)
    ensures var st' := Number(parseId, st, row); var d' := d + [row];
      && st'.pageRowNum == |PageStarts(parseId, d')| + 1
      && st'.pageRowNumIma == WithImage(PageStarts(parseId, d')) + 1
      && st'.lastPageId == PreviousId(parseId, d', |d'|)
  {
    PageStartsSnoc(parseId, d, row);
    var s := PageStarts(parseId, d);
    if !SameId(parseId(IdField(row)), PreviousId(parseId, d, |d|)) {
      WithImageSnoc(s, row);
      assert PageStarts(parseId, d + [row]) == s + [row];
    } else {
      assert PageStarts(parseId, d + [row]) == s;
    }
  }

  /** Numbering a row buffers exactly the page row the reference adds for it. */
  lemma NumberRows(parseId: string -> Option<int>, d: seq<seq<string>>, st: State, row: seq<string>)
    requires st.pageRowNum == |PageStarts(parseId, d)| + 1
    requires st.pageRowNumIma == WithImage(PageStarts(parseId, d)) + 1
    requires st.lastPageId == PreviousId(parseId, d, |d|)
    requires PagesOf(st.batches) + st.pageRows == ExpectedPageRows(parseId, d)
    ensures var st' := Number(parseId, st, row);
      PagesOf(st'.batches) + st'.pageRows == ExpectedPageRows(parseId, d + [row])
  {
    ExpectedPageRowsSnoc(parseId, d, row);
    var st' := Number(parseId, st, row);
    if !SameId(parseId(IdField(row)), PreviousId(parseId, d, |d|)) {
      var next := NextPageRow(parseId, PageStarts(parseId, d), row);
      assert st'.pageRows == st.pageRows + [next] && st'.batches == st.batches;
      AppendToBuffer(PagesOf(st.batches), st.pageRows, [next], ExpectedPageRows(parseId, d));
    } else {
      assert st'.pageRows == st.pageRows && st'.batches == st.batches;
    }
  }

  /** Numbering a row keeps the page part of the invariant and touches nothing else. */
  lemma NumberStep(parseId: string -> Option<int>, d: seq<seq<string>>, st: State, row: seq<string>)
    requires PageInv(parseId, d, st)
    ensures var st' := Number(parseId, st, row);
      && PageInv(parseId, d + [row], st')
      && st'.batches == st.batches && st'.imageRows == st.imageRows && st'.joinRows == st.joinRows
      && st'.lineCount == st.lineCount && st'.invalidRow == st.invalidRow && st'.halted == st.halted
  {
    NumberCounters(parseId, d, st, row);
    NumberRows(parseId, d, st, row);
  }

  /** The image fields are present in `d + [row]` exactly when they are in `d` and in `row`. */
  lemma FieldsPresentSnoc(d: seq<seq<string>>, row: seq<string>)
    ensures ImageFieldsPresent(d + [row]) <==> ImageFieldsPresent(d) && (HasImage(row) ==> |row| >= 3)
  {
    var d' := d + [row];
    assert d'[|d|] == row;
    if ImageFieldsPresent(d') {
      forall k | 0 <= k < |d| ensures HasImage(d[k]) ==> |d[k]| >= 3 {
        assert d'[k] == d[k];
      }
    }
    if ImageFieldsPresent(d) && (HasImage(row) ==> |row| >= 3) {
      forall k | 0 <= k < |d'| ensures HasImage(d'[k]) ==> |d'[k]| >= 3 {
        if k < |d| {
          assert d'[k] == d[k];
        }
      }
    }
  }

  /** Buffering keeps the image values in step with the reference. */
  lemma BufferImages(parseId: string -> Option<int>, d: seq<seq<string>>, st: State, row: seq<string>)
    requires ImagesOf(st.batches) + st.imageRows == ExpectedImageValues(d)
    ensures var st' := Buffer(parseId, st, row);
      ImagesOf(st'.batches) + st'.imageRows == ExpectedImageValues(d + [row])
  {
    ExpectedImagesSnoc(parseId, d, row);
    var st' := Buffer(parseId, st, row);
    var extra := if HasImage(row) then ImageRowOf(row) else [];
    assert st'.batches == st.batches;
    assert st'.imageRows == st.imageRows + extra;
    AppendToBuffer(ImagesOf(st.batches), st.imageRows, extra, ExpectedImageValues(d));
  }

  /** Emitted plus buffered stays equal to the reference when both grow by the same suffix. */
  lemma AppendToBuffer<T>(emitted: seq<T>, buffered: seq<T>, extra: seq<T>, expected: seq<T>)
    requires emitted + buffered == expected
    ensures emitted + (buffered + extra) == expected + extra
  {
  }

  /** Buffering keeps the link rows in step with the reference while the image fields are present. */
  lemma BufferJoins(parseId: string -> Option<int>, d: seq<seq<string>>, st: State, row: seq<string>)
    requires ImageFieldsPresent(d) ==>
      && JoinsOf(st.batches) + st.joinRows == ExpectedJoinRows(parseId, d)
      && (|st.joinRows| > 0 ==> |st.imageRows| > 0)
    ensures var st' := Buffer(parseId, st, row);
      ImageFieldsPresent(d + [row]) ==>
        && JoinsOf(st'.batches) + st'.joinRows == ExpectedJoinRows(parseId, d + [row])
        && (|st'.joinRows| > 0 ==> |st'.imageRows| > 0)
  {
    ExpectedImagesSnoc(parseId, d, row);
    FieldsPresentSnoc(d, row);
    if HasImage(row) && |row| >= 3 {
      assert |ImageRowOf(row)| > 0;
    }
  }

  /** Buffering a row keeps the image values and link rows in step with the reference. */
  lemma BufferStep(parseId: string -> Option<int>, d: seq<seq<string>>, st: State, row: seq<string>)
    requires ImageInv(parseId, d, st) && (st.invalidRow <==> SomeRowMalformed(d))
    ensures var st' := Buffer(parseId, st, row);
      && ImageInv(parseId, d + [row], st')
      && (st'.invalidRow <==> SomeRowMalformed(d + [row]))
      && st'.batches == st.batches && st'.pageRows == st.pageRows && st'.lineCount == st.lineCount
      && st'.pageRowNum == st.pageRowNum && st'.pageRowNumIma == st.pageRowNumIma
      && st'.lastPageId == st.lastPageId && st'.halted == st.halted
  {
    HeaderCheck.SomeRowMalformedSnoc(d, row, |AlgoResults.ExpectedHeaders|);
    BufferImages(parseId, d, st, row);
    BufferJoins(parseId, d, st, row);
    if HasImage(row) {
      assert |Buffer(parseId, st, row).joinRows| > 0;
    }
  }

  /** The buffered contents of a state, as the reference describes them for rows `d`. */
  predicate Contents(parseId: string -> Option<int>, d: seq<seq<string>>, st: State) {
    && PagesOf(st.batches) + st.pageRows == ExpectedPageRows(parseId, d)
    && ImageInv(parseId, d, st)
  }

  lemma BatchesNonEmptyAfterFlush(st: State)
    requires NoEmptyImageBatches(st.batches) && NoEmptyLinkBatches(st.batches)
    requires |st.imageRows| > 0 ==> |st.joinRows| > 0
    ensures NoEmptyImageBatches(Flush(st).batches) && NoEmptyLinkBatches(Flush(st).batches)
  {
  }

  /** A flush that does not throw moves the buffers into batches without changing what has been emitted or buffered. */
  lemma FlushKeepsContents(parseId: string -> Option<int>, d: seq<seq<string>>, st: State)
    requires Contents(parseId, d, st) && !ImageInsertThrows(st)
    ensures Contents(parseId, d, Flush(st))
    ensures PageBatchCount(Flush(st).batches) == PageBatchCount(st.batches) + 1
  {
    FlushContents(st);
    BatchesNonEmptyAfterFlush(st);
  }

  /**
   * Counting the line flushes every 40 lines and keeps the line counter at
   * |d| mod 40 + 1, provided the flush it makes, if any, does not throw.
   */
  lemma TickStep(parseId: string -> Option<int>, d: seq<seq<string>>, st: State)
    requires |d| >= 1 && Contents(parseId, d, st)
    requires st.lineCount == (|d| - 1) % InsertChunks + 1
    requires PageBatchCount(st.batches) == (|d| - 1) / InsertChunks
    requires st.lineCount == InsertChunks ==> !ImageInsertThrows(st)
    ensures var st' := Tick(st);
      && Contents(parseId, d, st')
      && st'.lineCount == |d| % InsertChunks + 1
      && PageBatchCount(st'.batches) == |d| / InsertChunks
      && st'.pageRowNum == st.pageRowNum && st'.pageRowNumIma == st.pageRowNumIma
      && st'.lastPageId == st.lastPageId && st'.invalidRow == st.invalidRow && st'.halted == st.halted
      && st'.imageWidth == st.imageWidth && (st'.imageRows == st.imageRows || st'.imageRows == [])
  {
    var n := |d| - 1;
    if st.lineCount == InsertChunks {
      FlushKeepsContents(parseId, d, st);
      FlushContents(st);
      assert n % InsertChunks == 39;
      assert |d| % InsertChunks == 0 && |d| / InsertChunks == n / InsertChunks + 1;
    } else {
      assert n % InsertChunks < 39;
      assert |d| % InsertChunks == n % InsertChunks + 1 && |d| / InsertChunks == n / InsertChunks;
    }
  }

  /** A data row whose image row is empty has at most two fields: it carries an image it lacks, and it is malformed. */
  lemma EmptyImageRow(d: seq<seq<string>>, row: seq<string>)
    requires |ImageRowOf(row)| == 0
    ensures !ImageFieldsPresent(d + [row]) && SomeRowMalformed(d + [row])
  {
    assert |row| < 3;
    assert HasImage(row) by { assert Field(row, 2) == Undefined; }
    FieldsPresentSnoc(d, row);
    HeaderCheck.SomeRowMalformedSnoc(d, row, |AlgoResults.ExpectedHeaders|);
  }

  /** A buffered image insert can throw only after a row without a field past the title. */
  predicate WidthInv(d: seq<seq<string>>, st: State) {
    |st.imageRows| > 0 && st.imageWidth == 0 ==> !ImageFieldsPresent(d) && SomeRowMalformed(d)
  }

  /**
   * The state after an image insert threw: the fold has stopped with the
   * RangeError, `reject` had been called already, and what was inserted is a
   * prefix of the reference page rows and image values.
   */
  predicate Stopped(parseId: string -> Option<int>, d: seq<seq<string>>, st: State) {
    && st.halted == Some(Database.RangeErrorMessage)
    && st.invalidRow
    && !ImageFieldsPresent(d)
    && SomeRowMalformed(d)
    && PagesOf(st.batches) <= ExpectedPageRows(parseId, d)
    && ImagesOf(st.batches) <= ExpectedImageValues(d)
    && NoEmptyImageBatches(st.batches)
    && NoEmptyLinkBatches(st.batches)
  }

  /** A chunk flush whose image insert throws stops the fold after inserting the buffered page rows. */
  lemma TickThrows(parseId: string -> Option<int>, d: seq<seq<string>>, st: State)
    requires Contents(parseId, d, st) && WidthInv(d, st) && (st.invalidRow <==> SomeRowMalformed(d))
    requires st.lineCount == InsertChunks && ImageInsertThrows(st)
    ensures Stopped(parseId, d, Tick(st))
  {
    ThrowsWhenWidthZero(st);
    FlushContents(st);
    var e := ImagesOf(st.batches);
    assert e <= e + st.imageRows;
  }

  /** Buffering and numbering a counted row brings every part of the invariant but the line counter up to `d + [row]`. */
  lemma BufferNumberStep(parseId: string -> Option<int>, d: seq<seq<string>>, st: State, row: seq<string>)
    requires Inv(parseId, d, st)
    ensures Counting(parseId, d + [row], Number(parseId, Buffer(parseId, st, row), row))
  {
    var buffered := Buffer(parseId, st, row);
    BufferStep(parseId, d, st, row);
    assert PageInv(parseId, d, buffered);
    NumberStep(parseId, d, buffered, row);
    if |ImageRowOf(row)| == 0 {
      EmptyImageRow(d, row);
    }
  }

  /** The invariant after the last row of `d` has been buffered and numbered, before its line is counted. */
  predicate Counting(parseId: string -> Option<int>, d: seq<seq<string>>, st: State) {
    && |d| >= 1
    && PageInv(parseId, d, st) && ImageInv(parseId, d, st) && WidthInv(d, st)
    && (st.invalidRow <==> SomeRowMalformed(d))
    && st.halted.None?
    && st.lineCount == (|d| - 1) % InsertChunks + 1
    && PageBatchCount(st.batches) == (|d| - 1) / InsertChunks
  }

  /** Counting a line without a throwing flush restores the invariant. */
  lemma TickLive(parseId: string -> Option<int>, d: seq<seq<string>>, st: State)
    requires Counting(parseId, d, st)
    requires st.lineCount == InsertChunks ==> !ImageInsertThrows(st)
    ensures Inv(parseId, d, Tick(st))
  {
    TickStep(parseId, d, st);
  }

  /** Counting a line restores the invariant or stops the fold. */
  lemma TickCases(parseId: string -> Option<int>, d: seq<seq<string>>, st: State)
    requires Counting(parseId, d, st)
    ensures Reachable(parseId, d, Tick(st))
  {
    if st.lineCount == InsertChunks && ImageInsertThrows(st) {
      TickThrows(parseId, d, st);
    } else {
      TickLive(parseId, d, st);
    }
  }

  /** One counted data line keeps the invariant, or stops the fold on a throwing flush. */
  lemma DataLineStep(parseId: string -> Option<int>, d: seq<seq<string>>, st: State, row: seq<string>)
    requires Inv(parseId, d, st)
    ensures Reachable(parseId, d + [row], DataStep(parseId, st, row))
  {
    BufferNumberStep(parseId, d, st, row);
    TickCases(parseId, d + [row], Number(parseId, Buffer(parseId, st, row), row));
  }

  /** Past the header, a line is skipped or handed to the data step. */
  lemma StepData(parseId: string -> Option<int>, st: State, line: string)
    requires st.halted.None? && st.lineCount != 0
    ensures var row := Split(line, TAB);
      Step(parseId, st, line) == if row[0] == "" then st else DataStep(parseId, st, row)
  {
  }

  /** The invariant while no insert has thrown, for the counted rows `d` so far. */
  predicate Inv(parseId: string -> Option<int>, d: seq<seq<string>>, st: State) {
    CounterInv(d, st) && PageInv(parseId, d, st) && ImageInv(parseId, d, st) && WidthInv(d, st)
  }

  /** What holds of the fold's state after a good header: running, or stopped by a throwing insert. */
  predicate Reachable(parseId: string -> Option<int>, d: seq<seq<string>>, st: State) {
    Inv(parseId, d, st) || Stopped(parseId, d, st)
  }

  /** A line past the header keeps the invariant, counting its row when its first field is not empty. */
  lemma LineStep(parseId: string -> Option<int>, d: seq<seq<string>>, st: State, line: string)
    requires Inv(parseId, d, st)
    ensures Reachable(parseId, CountLine(d, line), Step(parseId, st, line))
  {
    var row := Split(line, TAB);
    StepData(parseId, st, line);
    if row[0] != "" {
      assert CountLine(d, line) == d + [row];
      DataLineStep(parseId, d, st, row);
    } else {
      assert CountLine(d, line) == d;
    }
  }

  lemma PrefixTrans<T>(a: seq<T>, b: seq<T>, c: seq<T>)
    requires a <= b && b <= c
    ensures a <= c
  {
    assert c[..|b|][..|a|] == c[..|a|];
  }

  /** Once stopped, later lines change nothing, and what was inserted stays a prefix of the growing reference. */
  lemma StoppedStep(parseId: string -> Option<int>, d: seq<seq<string>>, st: State, line: string)
    requires Stopped(parseId, d, st)
    ensures Step(parseId, st, line) == st
    ensures Stopped(parseId, CountLine(d, line), st)
  {
    var row := Split(line, TAB);
    if row[0] != "" {
      assert CountLine(d, line) == d + [row];
      ExpectedPageRowsSnoc(parseId, d, row);
      ExpectedImagesSnoc(parseId, d, row);
      FieldsPresentSnoc(d, row);
      HeaderCheck.SomeRowMalformedSnoc(d, row, |AlgoResults.ExpectedHeaders|);
      PrefixTrans(PagesOf(st.batches), ExpectedPageRows(parseId, d), ExpectedPageRows(parseId, d + [row]));
      PrefixTrans(ImagesOf(st.batches), ExpectedImageValues(d), ExpectedImageValues(d + [row]));
    } else {
      assert CountLine(d, line) == d;
    }
  }

  /** A line past the header keeps the fold's state reachable. */
  lemma NextLine(parseId: string -> Option<int>, d: seq<seq<string>>, st: State, line: string)
    requires Reachable(parseId, d, st)
    ensures Reachable(parseId, CountLine(d, line), Step(parseId, st, line))
  {
    if st.halted.Some? {
      StoppedStep(parseId, d, st, line);
    } else {
      LineStep(parseId, d, st, line);
    }
  }

  lemma HeaderOkPrefix(lines: seq<string>)
    requires HeaderOk(lines) && |lines| >= 2
    ensures HeaderOk(lines[..|lines| - 1])
  {
    assert lines[..|lines| - 1][0] == lines[0];
  }

  /** Running one more line past the header keeps the fold's state reachable for the counted rows. */
  lemma RunLine(parseId: string -> Option<int>, lines: seq<string>)
    requires |lines| >= 2
    requires Reachable(parseId, DataRows(lines[..|lines| - 1]), Run(parseId, lines[..|lines| - 1]))
    ensures Reachable(parseId, DataRows(lines), Run(parseId, lines))
  {
    var prefix := lines[..|lines| - 1];
    var line := lines[|lines| - 1];
    LastLine(parseId, lines);
    NextLine(parseId, DataRows(prefix), Run(parseId, prefix), line);
  }

  /** The fold and the counted rows of `lines`, in terms of those of all lines but the last. */
  lemma LastLine(parseId: string -> Option<int>, lines: seq<string>)
    requires |lines| >= 2
    ensures Run(parseId, lines) == Step(parseId, Run(parseId, lines[..|lines| - 1]), lines[|lines| - 1])
    ensures DataRows(lines) == CountLine(DataRows(lines[..|lines| - 1]), lines[|lines| - 1])
  {
  }

  /** The header line alone leaves the invariant holding with no counted rows. */
  lemma RunHeader(parseId: string -> Option<int>, lines: seq<string>)
    requires HeaderOk(lines) && |lines| == 1
    ensures Inv(parseId, DataRows(lines), Run(parseId, lines))
  {
    HeaderStep(parseId, lines);
    InitialInvariant(parseId);
  }

  /**
   * After a good header, the fold's state satisfies the invariant for the
   * counted rows, or has stopped on a throwing image insert; it cannot have
   * stopped while every counted row has a field past the title.
   */
  lemma {:induction false} RunInvariant(parseId: string -> Option<int>, lines: seq<string>)
    requires HeaderOk(lines)
    ensures Reachable(parseId, DataRows(lines), Run(parseId, lines))
    decreases |lines|
  {
    if |lines| == 1 {
      RunHeader(parseId, lines);
    } else {
      HeaderOkPrefix(lines);
      RunInvariant(parseId, lines[..|lines| - 1]);
      RunLine(parseId, lines);
    }
  }
}

=== FILE: js_base.dfy ===
/**
 * Values of the JavaScript runtime that the suggestion service handles:
 * the optional/failure wrappers used in place of `undefined`, `false` and
 * thrown exceptions, and the handful of dynamic values (numbers, NaN,
 * strings, null, undefined) that flow into database insert calls.
 */
module JsBase {

  /** `None` stands for JavaScript's `undefined`/`false`/`NaN` where a value may be missing. */
  datatype Option<+T> = None | Some(value: T) {
    function GetOr(default: T): T {
      match this
      case Some(v) => v
      case None => default
    }
  }

  /** A returned value, or the error that the JavaScript code throws or rejects with. */
  datatype Result<+T, +E> = Success(value: T) | Failure(error: E) {
    predicate IsFailure() {
      Failure?
    }

    function PropagateFailure<U>(): Result<U, E>
      requires Failure?
    {
      Failure(error)
    }

    function Extract(): T
      requires Success?
    {
      value
    }
  }

  /** The dynamic values that appear in rows handed to the database layer. */
  datatype Value = Num(n: int) | NaN | Str(s: string) | Null | Undefined

  /** `row[i]` on a JavaScript array of strings: the field, or `undefined` past the end. */
  function Field(row: seq<string>, i: nat): (v: Value)
    ensures i < |row| <==> v.Str?
    ensures i < |row| ==> v == Str(row[i])
    ensures i >= |row| ==> v == Undefined
  {
    if i < |row| then Str(row[i]) else Undefined
  }

  /** A number produced by `parseInt`, as it is stored: a number or NaN. */
  function NumberValue(n: Option<int>): Value {
    match n
    case Some(k) => Num(k)
    case None => NaN
  }

  /** An HTTP error as built by the service (`status`, `type`, `title`, `detail`). */
  datatype HttpError = HttpError(status: int, kind: string, title: string, detail: Detail)

  /** The `detail` of an HTTP error: a message, or the error it wraps. */
  datatype Detail = Message(text: string) | Wrapped(cause: HttpError) | Opaque
}

=== FILE: js_strings.dfy ===
/**
 * The string operations of the JavaScript standard library that the service
 * relies on: `split` and `join` with a one-character separator, `repeat`,
 * `trim`, `substring` and the decimal rendering of integers.
 */
module JsStrings {

  const TAB: char := '\t'
  const NEWLINE: char := '\n'

  /** `s.split(sep)`: the pieces of `s` between occurrences of `sep`. */
  function Split(s: string, sep: char): (parts: seq<string>)
    ensures |parts| >= 1
    ensures forall i :: 0 <= i < |parts| ==> sep !in parts[i]
    ensures |parts| == 1 + Count(s, sep)
    ensures Join(parts, [sep]) == s
    decreases |s|
  {
    if |s| == 0 then [""]
    else
      var rest := Split(s[1..], sep);
      assert s == [s[0]] + s[1..];
      if s[0] == sep then
        assert Join([""] + rest, [sep]) == [sep] + Join(rest, [sep]) by {
          JoinCons("", rest, [sep]);
        }
        [""] + rest
      else
        var parts := [[s[0]] + rest[0]] + rest[1..];
        assert parts[0] == [s[0]] + rest[0];
        assert Join(parts, [sep]) == [s[0]] + Join(rest, [sep]) by {
          if |rest| > 1 {
            JoinCons(parts[0], rest[1..], [sep]);
            JoinCons(rest[0], rest[1..], [sep]);
            assert rest == [rest[0]] + rest[1..];
          }
        }
        parts
  }

  /** `parts.join(sep)`. */
  function Join(parts: seq<string>, sep: string): string
    decreases |parts|
  {
    if |parts| == 0 then ""
    else if |parts| == 1 then parts[0]
    else parts[0] + sep + Join(parts[1..], sep)
  }

  lemma JoinCons(head: string, tail: seq<string>, sep: string)
    requires |tail| >= 1
    ensures Join([head] + tail, sep) == head + sep + Join(tail, sep)
  {
    assert ([head] + tail)[1..] == tail;
  }

  /** Number of occurrences of character `c` in `s`. */
  function Count(s: string, c: char): nat
    decreases |s|
  {
    if |s| == 0 then 0 else (if s[0] == c then 1 else 0) + Count(s[1..], c)
  }

  lemma CountAppend(a: string, b: string, c: char)
    ensures Count(a + b, c) == Count(a, c) + Count(b, c)
    decreases |a|
  {
    if |a| > 0 {
      assert (a + b)[0] == a[0];
      assert (a + b)[1..] == a[1..] + b;
      CountAppend(a[1..], b, c);
    } else {
      assert a + b == b;
    }
  }

  /** Splitting the join of separator-free pieces gives the pieces back. */
  lemma {:induction false} SplitJoin(parts: seq<string>, sep: char)
    requires |parts| >= 1
    requires forall i :: 0 <= i < |parts| ==> sep !in parts[i]
    ensures Split(Join(parts, [sep]), sep) == parts
    decreases |parts|
  {
    var p := Split(Join(parts, [sep]), sep);
    assert Join(p, [sep]) == Join(parts, [sep]);
    JoinInjective(p, parts, sep);
  }

  /** Two lists of separator-free pieces with the same join are equal. */
  lemma {:induction false} JoinInjective(a: seq<string>, b: seq<string>, sep: char)
    requires |a| >= 1 && |b| >= 1
    requires forall i :: 0 <= i < |a| ==> sep !in a[i]
    requires forall i :: 0 <= i < |b| ==> sep !in b[i]
    requires Join(a, [sep]) == Join(b, [sep])
    ensures a == b
    decreases |a| + |b|
  {
    if |a| == 1 || |b| == 1 {
    } else {
      var j := Join(a, [sep]);
      assert j == a[0] + [sep] + Join(a[1..], [sep]);
      assert j == b[0] + [sep] + Join(b[1..], [sep]);
      HeadBeforeSeparator(a[0], b[0], Join(a[1..], [sep]), Join(b[1..], [sep]), sep);
      assert Join(a[1..], [sep]) == Join(b[1..], [sep]) by {
        var n := |a[0]| + 1;
        assert j[n..] == Join(a[1..], [sep]);
        assert j[n..] == Join(b[1..], [sep]);
      }
      JoinInjective(a[1..], b[1..], sep);
      assert a == [a[0]] + a[1..];
      assert b == [b[0]] + b[1..];
    }
  }

  lemma HeadBeforeSeparator(x: string, y: string, u: string, v: string, sep: char)
    requires sep !in x && sep !in y
    requires x + [sep] + u == y + [sep] + v
    ensures x == y
  {
    var j := x + [sep] + u;
    if |x| < |y| {
      SeparatorAt(x, u, sep);
      assert false;
    } else if |y| < |x| {
      SeparatorAt(y, v, sep);
      assert false;
    } else {
      assert x == j[..|x|];
      assert y == (y + [sep] + v)[..|y|];
    }
  }

  lemma SeparatorAt(x: string, u: string, sep: char)
    ensures (x + [sep] + u)[|x|] == sep
  {
  }

  /** `Array(n).fill(x)` as a sequence. */
  function Replicate<T>(n: nat, x: T): (r: seq<T>)
    ensures |r| == n
    ensures forall i :: 0 <= i < n ==> r[i] == x
  {
    seq(n, _ => x)
  }

  /** `s.repeat(n)`. */
  function Repeat(s: string, n: nat): string
    decreases n
  {
    if n == 0 then "" else s + Repeat(s, n - 1)
  }

  /** `s.substring(0, s.length - 1)`: drops the last character; a negative end clamps to 0. */
  function DropLast(s: string): string {
    if |s| == 0 then "" else s[..|s| - 1]
  }

  /** The characters `String.prototype.trim` removes (white space and line terminators). */
  predicate IsJsWhitespace(c: char) {
    c == ' ' || c == '\t' || c == '\n' || c == '\r' || c == '\U{000B}' || c == '\U{000C}'
    || c == '\U{00A0}' || c == '\U{1680}' || ('\U{2000}' <= c <= '\U{200A}')
    || c == '\U{2028}' || c == '\U{2029}' || c == '\U{202F}' || c == '\U{205F}'
    || c == '\U{3000}' || c == '\U{FEFF}'
  }

  function TrimStart(s: string): string
    decreases |s|
  {
    if |s| > 0 && IsJsWhitespace(s[0]) then TrimStart(s[1..]) else s
  }

  function TrimEnd(s: string): string
    decreases |s|
  {
    if |s| > 0 && IsJsWhitespace(s[|s| - 1]) then TrimEnd(s[..|s| - 1]) else s
  }

  /** `s.trim()`. */
  function Trim(s: string): string {
    TrimEnd(TrimStart(s))
  }

  /** A line is blank when every character is white space. */
  predicate IsBlank(s: string) {
    forall i :: 0 <= i < |s| ==> IsJsWhitespace(s[i])
  }

  /** `s.trim().length > 0` exactly when some character of `s` is not white space. */
  lemma {:induction false} TrimEmptyIffBlank(s: string)
    ensures |Trim(s)| > 0 <==> !IsBlank(s)
  {
    TrimStartEmptyIffBlank(s);
    var t := TrimStart(s);
    TrimEndEmptyIffBlank(t);
    if |t| > 0 {
      assert !IsJsWhitespace(t[0]);
    }
  }

  lemma {:induction false} TrimStartEmptyIffBlank(s: string)
    ensures |TrimStart(s)| == 0 <==> IsBlank(s)
    ensures |TrimStart(s)| > 0 ==> !IsJsWhitespace(TrimStart(s)[0])
    decreases |s|
  {
    if |s| > 0 && IsJsWhitespace(s[0]) {
      TrimStartEmptyIffBlank(s[1..]);
      if IsBlank(s[1..]) {
        forall i | 0 <= i < |s| ensures IsJsWhitespace(s[i]) {
          if i > 0 { assert s[i] == s[1..][i - 1]; }
        }
      }
      if IsBlank(s) {
        forall i | 0 <= i < |s[1..]| ensures IsJsWhitespace(s[1..][i]) {
          assert s[1..][i] == s[i + 1];
        }
      }
    }
  }

  lemma {:induction false} TrimEndEmptyIffBlank(s: string)
    ensures |TrimEnd(s)| == 0 <==> IsBlank(s)
    ensures |TrimEnd(s)| > 0 && |s| > 0 ==> TrimEnd(s)[0] == s[0]
    decreases |s|
  {
    if |s| > 0 && IsJsWhitespace(s[|s| - 1]) {
      var p := s[..|s| - 1];
      TrimEndEmptyIffBlank(p);
      if IsBlank(p) {
        forall i | 0 <= i < |s| ensures IsJsWhitespace(s[i]) {
          if i < |s| - 1 { assert s[i] == p[i]; }
        }
      }
      if IsBlank(s) {
        forall i | 0 <= i < |p| ensures IsJsWhitespace(p[i]) {
          assert p[i] == s[i];
        }
      }
    }
  }

  /** The decimal digit for `d`. */
  function Digit(d: nat): char
    requires d < 10
  {
    "0123456789"[d]
  }

  /** `String(n)` for a natural number. */
  function NatToString(n: nat): string
    decreases n
  {
    if n < 10 then [Digit(n)] else NatToString(n / 10) + [Digit(n % 10)]
  }

  /** `String(i)` for an integer. */
  function IntToString(i: int): string {
    if i < 0 then "-" + NatToString(-i) else NatToString(i)
  }

  /** `s.split('.').shift()`: the text before the first `.`. */
  function FirstSegment(s: string): string {
    Split(s, '.')[0]
  }

  /** `s.split('.').pop()`: the text after the last `.`. */
  function LastSegment(s: string): string {
    var parts := Split(s, '.');
    parts[|parts| - 1]
  }
}

=== FILE: legacy_algo_results.dfy ===
/**
 * The pure parts of lib/algoResults.js, the earlier store of image-matching
 * results: its eight-column header check (with its own wording), its null test
 * for image ids and the LIMIT/OFFSET defaults of its page query. Its per-line
 * ingestion fold is in module LegacyIngest.
 */
module LegacyAlgoResults {
  import opened JsBase
  import HeaderCheck
  import AlgoResults

  /** The columns of an earlier results file: no `found_on`. */
  const ExpectedHeaders: seq<string> := [
    "page_id", "page_title", "image_id", "confidence_rating", "source",
    "dataset_id", "insertion_ts", "wiki"
  ]

  /** The length-mismatch message, verbatim (including its "to not"). */
  const LengthMessage: string := "TSV headers to not match expected headers"

  function PositionMessage(header: string, expected: string): string {
    "Expected " + header + " to equal " + expected
  }

  /**
   * `validateHeaders`: succeeds iff `headers` equals `expected` element-wise.
   * It agrees with the current reader's check on every input of the right
   * length and differs from it only in the wording of the length message.
   */
  function ValidateHeaders(headers: seq<string>, expected: seq<string>): (r: Result<(), string>)
    ensures r.Success? <==> headers == expected
    ensures |headers| != |expected| ==> r == Failure(LengthMessage)
    ensures |headers| == |expected| && headers != expected ==>
      exists i :: 0 <= i < |headers| && headers[..i] == expected[..i] && headers[i] != expected[i]
        && r == Failure(PositionMessage(headers[i], expected[i]))
    ensures |headers| == |expected| ==> r == AlgoResults.ValidateHeaders(headers, expected)
    ensures |headers| != |expected| ==> r != AlgoResults.ValidateHeaders(headers, expected)
  {
    HeaderCheck.Validate(headers, expected, LengthMessage, PositionMessage)
  }

  /** `isNullValue`: only the literal `NULL` and `null`; the empty string is a value here. */
  predicate IsNullValue(v: Value) {
    v == Str("NULL") || v == Null
  }

  /** `defaultLimit`. */
  const DefaultLimit: int := 10

  /** The bound parameters of `queryDBForPages`; `None` is `NaN`. */
  datatype PageWindow = PageWindow(limit: Option<int>, offset: Option<int>)

  /**
   * `queryDBForPages`'s parameters: a missing `limit` is 10 and a missing
   * `offset` is 0; a present one goes through `parseInt`.
   */
  function QueryDBForPages(parseInt: string -> Option<int>, limit: Option<string>, offset: Option<string>): (w: PageWindow)
    ensures limit.None? ==> w.limit == Some(DefaultLimit)
    ensures offset.None? ==> w.offset == Some(0)
    ensures limit.Some? ==> w.limit == parseInt(limit.value)
    ensures offset.Some? ==> w.offset == parseInt(offset.value)
  {
    PageWindow(
      match limit { case None => Some(DefaultLimit) case Some(l) => parseInt(l) },
      match offset { case None => Some(0) case Some(o) => parseInt(o) })
  }
}

=== FILE: legacy_database.dfy ===
/**
 * The statement text of `insert` in lib/database/database.js, the earlier
 * database layer: always `INSERT OR IGNORE`, with one row placeholder per
 * element of `values` rather than per row of `numCol` values.
 */
module LegacyDatabase {
  import opened JsBase
  import opened JsStrings
  import Database

  function InsertOrIgnoreSQL(table: string, placeholders: string): string {
    "INSERT OR IGNORE INTO " + table + " VALUES " + placeholders
  }

  /** The placeholders as written: `values.map(() => rowPlaceholders).join(',')`. */
  function Placeholders<T>(numCol: nat, values: seq<T>): (p: string)
    ensures |values| == 0 ==> p == ""
  {
    Join(seq(|values|, _ => Database.Group(numCol)), ",")
  }

  /** `insert` as written: the statement and the values it binds. */
  function Insert(table: string, numCol: nat, values: seq<Value>): (r: Database.Run)
    ensures r.values == values
    ensures r.sql == "INSERT OR IGNORE INTO " + table + " VALUES " + Placeholders(numCol, values)
  {
    Database.Run(InsertOrIgnoreSQL(table, Placeholders(numCol, values)), values)
  }

  /**
   * As written, the statement holds one row placeholder per value, hence
   * `numCol` times as many question marks as there are values to bind.
   */
  lemma PlaceholdersPerValue<T>(numCol: nat, values: seq<T>)
    ensures Count(Placeholders(numCol, values), '(') == |values|
    ensures Count(Placeholders(numCol, values), '?') == |values| * numCol
  {
    assert seq(|values|, _ => Database.Group(numCol)) == Replicate(|values|, Database.Group(numCol));
    Database.JoinMarks(numCol, |values|);
  }

  /**
   * One two-column page row `[pageID, title]`: two values, but two row
   * placeholders and four question marks.
   */
  lemma OnePageRowMismatch()
    ensures var values := [Num(1), Str("A")];
      && Count(Placeholders(2, values), '?') == 4
      && Count(Placeholders(2, values), '?') != |values|
  {
    PlaceholdersPerValue(2, [Num(1), Str("A")]);
  }

  /** `insert` with one placeholder group per row of `numCol` values, as the later layer builds it. */
  function CorrectedInsert(table: string, numCol: nat, values: seq<Value>): (r: Result<Database.Run, string>)
    ensures r.Failure? <==> numCol == 0 && |values| > 0
    ensures r.Success? ==> r.value.values == values
    ensures r.Success? ==>
      r.value.sql == "INSERT OR IGNORE INTO " + table + " VALUES " + Database.GeneratePlaceholders(numCol, values).value
  {
    var placeholders :- Database.GeneratePlaceholders(numCol, values);
    Success(Database.Run(InsertOrIgnoreSQL(table, placeholders), values))
  }

  /**
   * With the correction, a batch of whole rows binds every value to exactly one
   * question mark.
   */
  lemma CorrectedBindsEveryValue(table: string, numCol: nat, values: seq<Value>)
    requires numCol > 0 && |values| % numCol == 0
    ensures var r := CorrectedInsert(table, numCol, values);
      r.Success? && r.value.sql == InsertOrIgnoreSQL(table, Database.GeneratePlaceholders(numCol, values).value)
      && Count(Database.GeneratePlaceholders(numCol, values).value, '?') == |values|
  {
    Database.PlaceholderMarks(numCol, values);
  }
}

=== FILE: legacy_ingest.dfy ===
/**
 * The per-line fold of `populateDatabase` in lib/algoResults.js, for one file.
 *
 * Every data line adds a page row `[pageID, title]`, without de-duplicating
 * repeated page ids and without skipping empty lines. A line whose image id is
 * `NULL` returns straight after adding its page row: it adds no image row and
 * is not counted. A counted line that finds the counter at 20 hands both
 * buffers to the database; when the input closes, whichever buffer is
 * non-empty is handed over once more.
 *
 * `parseId` stands for JavaScript's `parseInt` on the page-id field: `None` is `NaN`.
 */
module LegacyIngest {
  import opened JsBase
  import opened JsStrings
  import opened Gathering
  import HeaderCheck
  import LegacyAlgoResults

  /** Number of counted lines between two flushes (`insertChunks`). */
  const InsertChunks: nat := 20

  /** A page row `[pageID, title]`; a one-field line has no title. */
  datatype PageRow = PageRow(pageId: Option<int>, title: Option<string>)

  /** An image row: `pageID` followed by the fields from `image_id` on. */
  datatype ImageRow = ImageRow(pageId: Option<int>, fields: seq<string>) {
    function Width(): nat {
      1 + |fields|
    }
  }

  /** One insert call: flattened page rows or flattened image rows. */
  datatype Batch =
    | PageBatch(numCol: nat, pages: seq<PageRow>)
    | ImageBatch(numCol: nat, images: seq<ImageRow>)

  /** The closure variables of the line handler, and the batches handed over so far. */
  datatype State = State(
    lineCount: int,
    pageRows: seq<PageRow>,
    imageRows: seq<ImageRow>,
    pageWidth: nat,
    imageWidth: nat,
    batches: seq<Batch>,
    invalidRow: bool,
    halted: Option<string>)

  const Init: State := State(0, [], [], 0, 0, [], false, None)

  /** The page-id field of a row (a split line always has one). */
  function IdField(row: seq<string>): string {
    if |row| >= 1 then row[0] else ""
  }

  function PageRowOf(parseId: string -> Option<int>, row: seq<string>): PageRow {
    PageRow(parseId(IdField(row)), if |row| >= 2 then Some(row[1]) else None)
  }

  function ImageRowOf(parseId: string -> Option<int>, row: seq<string>): ImageRow {
    ImageRow(parseId(IdField(row)), if |row| >= 2 then row[2..] else [])
  }

  /** `imageRow[1]`, the image id, is `NULL` or null. */
  predicate NullImage(row: seq<string>) {
    LegacyAlgoResults.IsNullValue(Field(row, 2))
  }

  function Flush(st: State): State {
    st.(batches := st.batches + [PageBatch(st.pageWidth, st.pageRows), ImageBatch(st.imageWidth, st.imageRows)],
        pageRows := [], imageRows := [])
  }

  /** The handler for one data line. */
  function DataStep(parseId: string -> Option<int>, st: State, row: seq<string>): State {
    var pageRow := PageRowOf(parseId, row);
    var imageRow := ImageRowOf(parseId, row);
    var buffered := st.(
      invalidRow := st.invalidRow || |row| != |LegacyAlgoResults.ExpectedHeaders|,
      pageRows := st.pageRows + [pageRow],
      pageWidth := if pageRow.title.Some? then 2 else 1,
      imageWidth := imageRow.Width());
    if NullImage(row) then buffered
    else
      var withImage := buffered.(imageRows := buffered.imageRows + [imageRow]);
      var flushed := if withImage.lineCount == InsertChunks then Flush(withImage).(lineCount := 0) else withImage;
      flushed.(lineCount := flushed.lineCount + 1)
  }

  /** The `line` handler. */
  function Step(parseId: string -> Option<int>, st: State, line: string): State {
    if st.halted.Some? then st
    else if st.lineCount == 0 then
      match LegacyAlgoResults.ValidateHeaders(Split(line, TAB), LegacyAlgoResults.ExpectedHeaders)
      case Failure(msg) => st.(halted := Some(msg))
      case Success(_) => st.(lineCount := 1)
    else DataStep(parseId, st, Split(line, TAB))
  }

  function Run(parseId: string -> Option<int>, lines: seq<string>): State
    decreases |lines|
  {
    if |lines| == 0 then Init
    else Step(parseId, Run(parseId, lines[..|lines| - 1]), lines[|lines| - 1])
  }

  /** The `close` handler. */
  function Finish(st: State): seq<Batch> {
    st.batches
    + (if |st.pageRows| > 0 then [PageBatch(st.pageWidth, st.pageRows)] else [])
    + (if |st.imageRows| > 0 then [ImageBatch(st.imageWidth, st.imageRows)] else [])
  }

  /**
   * How one file's share ends. `Settled` is the `close` handler's completion and
   * `Rejected` a `reject` call for a malformed line. `Aborted` is not a
   * settlement: the header check throws inside the `line` handler, nothing calls
   * `reject`, the exception escapes uncaught and the promise stays pending; the
   * value records the thrown message.
   */
  datatype Outcome = Settled | Rejected(reason: string) | Aborted(message: string)

  datatype Ingestion = Ingestion(batches: seq<Batch>, outcome: Outcome)

  /** One file's share of `populateDatabase`. */
  function InsertFile(parseId: string -> Option<int>, lines: seq<string>): Ingestion {
    var st := Run(parseId, lines);
    if st.halted.Some? then Ingestion(st.batches, Aborted(st.halted.value))
    else Ingestion(Finish(st), if st.invalidRow then Rejected("Invalid row to insert") else Settled)
  }

  // ---------------------------------------------------------------------------
  // Reference definitions
  // ---------------------------------------------------------------------------

  predicate HeaderOk(lines: seq<string>) {
    |lines| >= 1 && Split(lines[0], TAB) == LegacyAlgoResults.ExpectedHeaders
  }

  /** Every line after the first, split into fields. */
  function DataRows(lines: seq<string>): seq<seq<string>>
    decreases |lines|
  {
    if |lines| <= 1 then [] else DataRows(lines[..|lines| - 1]) + [Split(lines[|lines| - 1], TAB)]
  }

  /** One page row per data row, in order. */
  function ExpectedPageRows(parseId: string -> Option<int>, d: seq<seq<string>>): seq<PageRow>
    decreases |d|
  {
    if |d| == 0 then [] else ExpectedPageRows(parseId, d[..|d| - 1]) + [PageRowOf(parseId, d[|d| - 1])]
  }

  /** One image row per data row whose image id is not null, in order. */
  function ExpectedImageRows(parseId: string -> Option<int>, d: seq<seq<string>>): seq<ImageRow>
    decreases |d|
  {
    if |d| == 0 then []
    else ExpectedImageRows(parseId, d[..|d| - 1])
         + (if NullImage(d[|d| - 1]) then [] else [ImageRowOf(parseId, d[|d| - 1])])
  }

  /** The number of data rows whose image id is not null: the lines the counter sees. */
  function Counted(d: seq<seq<string>>): nat
    decreases |d|
  {
    if |d| == 0 then 0 else Counted(d[..|d| - 1]) + (if NullImage(d[|d| - 1]) then 0 else 1)
  }

  function PagePart(b: Batch): seq<PageRow> { if b.PageBatch? then b.pages else [] }
  function ImagePart(b: Batch): seq<ImageRow> { if b.ImageBatch? then b.images else [] }
  function PageBatchPart(b: Batch): seq<Batch> { if b.PageBatch? then [b] else [] }

  function PagesOf(bs: seq<Batch>): seq<PageRow> { Gather(bs, PagePart) }
  function ImagesOf(bs: seq<Batch>): seq<ImageRow> { Gather(bs, ImagePart) }
  function PageBatchCount(bs: seq<Batch>): nat { |Gather(bs, PageBatchPart)| }

  /** No insert of either kind is empty. */
  predicate NoEmptyBatches(bs: seq<Batch>) {
    forall k :: 0 <= k < |bs| ==> (bs[k].PageBatch? ==> |bs[k].pages| > 0) && (bs[k].ImageBatch? ==> |bs[k].images| > 0)
  }
}

=== FILE: legacy_ingest_theorems.dfy ===
/**
 * What one file's share of the earlier `populateDatabase` hands to the database:
 * one page row for every data line and one image row for every line with a
 * non-null image id, each exactly once and in input order; a page insert and an
 * image insert every 20 counted lines; no empty insert; rejection exactly when
 * some data line does not have eight fields.
 */
module LegacyIngestTheorems {
  import opened JsBase
  import opened JsStrings
  import opened Gathering
  import HeaderCheck
  import LegacyAlgoResults
  import opened LegacyIngest

  lemma DataRowsSnoc(lines: seq<string>, line: string)
    requires |lines| >= 1
    ensures DataRows(lines + [line]) == DataRows(lines) + [Split(line, TAB)]
  {
    assert (lines + [line])[..|lines|] == lines;
  }

  lemma RunSnoc(parseId: string -> Option<int>, lines: seq<string>, line: string)
    ensures Run(parseId, lines + [line]) == Step(parseId, Run(parseId, lines), line)
  {
    assert (lines + [line])[..|lines|] == lines;
  }

  lemma ReferencesSnoc(parseId: string -> Option<int>, d: seq<seq<string>>, row: seq<string>)
    ensures ExpectedPageRows(parseId, d + [row]) == ExpectedPageRows(parseId, d) + [PageRowOf(parseId, row)]
    ensures ExpectedImageRows(parseId, d + [row]) ==
      ExpectedImageRows(parseId, d) + (if NullImage(row) then [] else [ImageRowOf(parseId, row)])
    ensures Counted(d + [row]) == Counted(d) + (if NullImage(row) then 0 else 1)
  {
    assert (d + [row])[..|d|] == d;
  }

  lemma BatchesAppend(a: seq<Batch>, b: seq<Batch>)
    ensures PagesOf(a + b) == PagesOf(a) + PagesOf(b)
    ensures ImagesOf(a + b) == ImagesOf(a) + ImagesOf(b)
    ensures PageBatchCount(a + b) == PageBatchCount(a) + PageBatchCount(b)
  {
    GatherAppend(a, b, PagePart);
    GatherAppend(a, b, ImagePart);
    GatherAppend(a, b, PageBatchPart);
  }

  lemma FlushContents(st: State)
    ensures PagesOf(Flush(st).batches) == PagesOf(st.batches) + st.pageRows
    ensures ImagesOf(Flush(st).batches) == ImagesOf(st.batches) + st.imageRows
    ensures PageBatchCount(Flush(st).batches) == PageBatchCount(st.batches) + 1
  {
    var page := PageBatch(st.pageWidth, st.pageRows);
    var image := ImageBatch(st.imageWidth, st.imageRows);
    BatchesAppend(st.batches, [page, image]);
    GatherTwo(page, image, PagePart);
    GatherTwo(page, image, ImagePart);
    GatherTwo(page, image, PageBatchPart);
  }

  lemma FinishContents(st: State)
    ensures PagesOf(Finish(st)) == PagesOf(st.batches) + st.pageRows
    ensures ImagesOf(Finish(st)) == ImagesOf(st.batches) + st.imageRows
  {
    var page := PageBatch(st.pageWidth, st.pageRows);
    var image := ImageBatch(st.imageWidth, st.imageRows);
    var mid := st.batches + (if |st.pageRows| > 0 then [page] else []);
    assert PagesOf(mid) == PagesOf(st.batches) + st.pageRows && ImagesOf(mid) == ImagesOf(st.batches) by {
      if |st.pageRows| > 0 {
        BatchesAppend(st.batches, [page]);
        GatherOne(page, PagePart);
        GatherOne(page, ImagePart);
      } else {
        assert mid == st.batches;
      }
    }
    if |st.imageRows| > 0 {
      assert Finish(st) == mid + [image];
      BatchesAppend(mid, [image]);
      GatherOne(image, PagePart);
      GatherOne(image, ImagePart);
    } else {
      assert Finish(st) == mid;
    }
  }

  lemma AppendNonEmpty(bs: seq<Batch>, more: seq<Batch>)
    requires NoEmptyBatches(bs) && NoEmptyBatches(more)
    ensures NoEmptyBatches(bs + more)
  {
    var all := bs + more;
    forall k | 0 <= k < |all|
      ensures (all[k].PageBatch? ==> |all[k].pages| > 0) && (all[k].ImageBatch? ==> |all[k].images| > 0)
    {
      if k < |bs| {
        assert all[k] == bs[k];
      } else {
        assert all[k] == more[k - |bs|];
      }
    }
  }

  // ---------------------------------------------------------------------------
  // The invariant of the fold after a valid header
  // ---------------------------------------------------------------------------

  /** Some data row does not have as many fields as the header. */
  predicate SomeRowMalformed(d: seq<seq<string>>) {
    HeaderCheck.SomeRowMalformed(d, |LegacyAlgoResults.ExpectedHeaders|)
  }

  predicate CounterInv(d: seq<seq<string>>, st: State) {
    && st.halted.None?
    && st.lineCount == Counted(d) % InsertChunks + 1
    && PageBatchCount(st.batches) == Counted(d) / InsertChunks
    && (st.invalidRow <==> SomeRowMalformed(d))
  }

  predicate ContentInv(parseId: string -> Option<int>, d: seq<seq<string>>, st: State) {
    && PagesOf(st.batches) + st.pageRows == ExpectedPageRows(parseId, d)
    && ImagesOf(st.batches) + st.imageRows == ExpectedImageRows(parseId, d)
    && NoEmptyBatches(st.batches)
  }

  lemma StepHeader(parseId: string -> Option<int>, st: State, line: string)
    requires st.halted.None? && st.lineCount == 0
    requires Split(line, TAB) == LegacyAlgoResults.ExpectedHeaders
    ensures Step(parseId, st, line) == st.(lineCount := 1)
  {
    assert LegacyAlgoResults.ValidateHeaders(Split(line, TAB), LegacyAlgoResults.ExpectedHeaders).Success?;
  }

  lemma RunOne(parseId: string -> Option<int>, lines: seq<string>)
    requires |lines| == 1
    ensures Run(parseId, lines) == Step(parseId, Init, lines[0])
  {
    assert lines[..0] == [];
  }

  lemma InitialInvariant(parseId: string -> Option<int>)
    ensures CounterInv([], Init.(lineCount := 1)) && ContentInv(parseId, [], Init.(lineCount := 1))
  {
    assert PagesOf([]) == [] && ImagesOf([]) == [] && PageBatchCount([]) == 0;
  }

  lemma HeaderStep(parseId: string -> Option<int>, lines: seq<string>)
    requires HeaderOk(lines) && |lines| == 1
    ensures Run(parseId, lines) == Init.(lineCount := 1)
    ensures DataRows(lines) == []
  {
    RunOne(parseId, lines);
    StepHeader(parseId, Init, lines[0]);
  }

  /** A line with a null image id buffers its page row and nothing else. */
  lemma NullLineStep(parseId: string -> Option<int>, d: seq<seq<string>>, st: State, row: seq<string>)
    requires NullImage(row)
    requires CounterInv(d, st) && ContentInv(parseId, d, st)
    ensures var st' := DataStep(parseId, st, row);
      CounterInv(d + [row], st') && ContentInv(parseId, d + [row], st')
  {
    ReferencesSnoc(parseId, d, row);
    HeaderCheck.SomeRowMalformedSnoc(d, row, |LegacyAlgoResults.ExpectedHeaders|);
  }

  /** The counter arithmetic of one counted line. */
  lemma CounterStep(n: nat)
    ensures n % InsertChunks == InsertChunks - 1 ==> (n + 1) % InsertChunks == 0 && (n + 1) / InsertChunks == n / InsertChunks + 1
    ensures n % InsertChunks < InsertChunks - 1 ==> (n + 1) % InsertChunks == n % InsertChunks + 1 && (n + 1) / InsertChunks == n / InsertChunks
  {
  }

  /** A counted line's state before the counter is looked at: both rows buffered. */
  function Buffered(parseId: string -> Option<int>, st: State, row: seq<string>): State {
    st.(
      invalidRow := st.invalidRow || |row| != |LegacyAlgoResults.ExpectedHeaders|,
      pageRows := st.pageRows + [PageRowOf(parseId, row)],
      pageWidth := if |row| >= 2 then 2 else 1,
      imageWidth := ImageRowOf(parseId, row).Width(),
      imageRows := st.imageRows + [ImageRowOf(parseId, row)])
  }

  /** Flushing after buffering a counted row emits exactly the reference's rows for `d + [row]`. */
  lemma FlushedContents(parseId: string -> Option<int>, d: seq<seq<string>>, st: State, row: seq<string>)
    requires !NullImage(row) && ContentInv(parseId, d, st)
    ensures ContentInv(parseId, d + [row], Flush(Buffered(parseId, st, row)))
    ensures PageBatchCount(Flush(Buffered(parseId, st, row)).batches) == PageBatchCount(st.batches) + 1
  {
    ReferencesSnoc(parseId, d, row);
    var withImage := Buffered(parseId, st, row);
    var flushed := Flush(withImage);
    FlushContents(withImage);
    assert withImage.batches == st.batches;
    assert PagesOf(flushed.batches) + flushed.pageRows == ExpectedPageRows(parseId, d + [row]) by {
      assert withImage.pageRows == st.pageRows + [PageRowOf(parseId, row)];
      AppendToBuffer(PagesOf(st.batches), st.pageRows, [PageRowOf(parseId, row)], ExpectedPageRows(parseId, d));
    }
    assert ImagesOf(flushed.batches) + flushed.imageRows == ExpectedImageRows(parseId, d + [row]) by {
      assert withImage.imageRows == st.imageRows + [ImageRowOf(parseId, row)];
      AppendToBuffer(ImagesOf(st.batches), st.imageRows, [ImageRowOf(parseId, row)], ExpectedImageRows(parseId, d));
    }
    var added := [PageBatch(withImage.pageWidth, withImage.pageRows), ImageBatch(withImage.imageWidth, withImage.imageRows)];
    AppendNonEmpty(st.batches, added);
  }

  /** Emitted plus buffered stays equal to the reference when both grow by the same suffix. */
  lemma AppendToBuffer<T>(emitted: seq<T>, buffered: seq<T>, extra: seq<T>, expected: seq<T>)
    requires emitted + buffered == expected
    ensures emitted + (buffered + extra) + [] == expected + extra
  {
  }

  /** A counted line that finds the counter at 20 flushes both buffers. */
  lemma CountedFlushStep(parseId: string -> Option<int>, d: seq<seq<string>>, st: State, row: seq<string>)
    requires !NullImage(row) && st.lineCount == InsertChunks
    requires CounterInv(d, st) && ContentInv(parseId, d, st)
    ensures var st' := DataStep(parseId, st, row);
      CounterInv(d + [row], st') && ContentInv(parseId, d + [row], st')
  {
    ReferencesSnoc(parseId, d, row);
    HeaderCheck.SomeRowMalformedSnoc(d, row, |LegacyAlgoResults.ExpectedHeaders|);
    var flushed := Flush(Buffered(parseId, st, row));
    assert DataStep(parseId, st, row) == flushed.(lineCount := 1);
    FlushedContents(parseId, d, st, row);
    CounterStep(Counted(d));
  }

  /** A counted line that finds the counter below 20 only buffers and counts. */
  lemma CountedBufferStep(parseId: string -> Option<int>, d: seq<seq<string>>, st: State, row: seq<string>)
    requires !NullImage(row) && st.lineCount != InsertChunks
    requires CounterInv(d, st) && ContentInv(parseId, d, st)
    ensures var st' := DataStep(parseId, st, row);
      CounterInv(d + [row], st') && ContentInv(parseId, d + [row], st')
  {
    ReferencesSnoc(parseId, d, row);
    HeaderCheck.SomeRowMalformedSnoc(d, row, |LegacyAlgoResults.ExpectedHeaders|);
    assert DataStep(parseId, st, row) == Buffered(parseId, st, row).(lineCount := st.lineCount + 1);
    CounterStep(Counted(d));
  }

  predicate Inv(parseId: string -> Option<int>, d: seq<seq<string>>, st: State) {
    CounterInv(d, st) && ContentInv(parseId, d, st)
  }

  /** A data line keeps the invariant, with its row counted. */
  lemma LineStep(parseId: string -> Option<int>, d: seq<seq<string>>, st: State, line: string)
    requires Inv(parseId, d, st)
    ensures Inv(parseId, d + [Split(line, TAB)], Step(parseId, st, line))
  {
    var row := Split(line, TAB);
    assert Step(parseId, st, line) == DataStep(parseId, st, row);
    if NullImage(row) {
      NullLineStep(parseId, d, st, row);
    } else if st.lineCount == InsertChunks {
      CountedFlushStep(parseId, d, st, row);
    } else {
      CountedBufferStep(parseId, d, st, row);
    }
  }

  lemma RunHeader(parseId: string -> Option<int>, lines: seq<string>)
    requires HeaderOk(lines) && |lines| == 1
    ensures Inv(parseId, DataRows(lines), Run(parseId, lines))
  {
    HeaderStep(parseId, lines);
    InitialInvariant(parseId);
  }

  lemma {:induction false} RunInvariant(parseId: string -> Option<int>, lines: seq<string>)
    requires HeaderOk(lines)
    ensures Inv(parseId, DataRows(lines), Run(parseId, lines))
    decreases |lines|
  {
    if |lines| == 1 {
      RunHeader(parseId, lines);
    } else {
      var prefix := lines[..|lines| - 1];
      assert HeaderOk(prefix) by { assert prefix[0] == lines[0]; }
      var line := lines[|lines| - 1];
      assert prefix + [line] == lines;
      RunInvariant(parseId, prefix);
      RunSnoc(parseId, prefix, line);
      DataRowsSnoc(prefix, line);
      LineStep(parseId, DataRows(prefix), Run(parseId, prefix), line);
    }
  }

  // ---------------------------------------------------------------------------
  // End to end
  // ---------------------------------------------------------------------------

  /**
   * After a good header: the page inserts carry one page row per data line, the
   * image inserts one image row per line with a non-null image id, in order;
   * no insert is empty; one page insert happened per 20 counted lines before the
   * input closed; the promise is rejected exactly when some line is malformed.
   */
  lemma InsertFileEmits(parseId: string -> Option<int>, lines: seq<string>)
    requires HeaderOk(lines)
    ensures var r := InsertFile(parseId, lines); var d := DataRows(lines);
      && PagesOf(r.batches) == ExpectedPageRows(parseId, d)
      && ImagesOf(r.batches) == ExpectedImageRows(parseId, d)
      && NoEmptyBatches(r.batches)
      && PageBatchCount(Run(parseId, lines).batches) == Counted(d) / InsertChunks
      && r.outcome == (if SomeRowMalformed(d) then Rejected("Invalid row to insert") else Settled)
  {
    RunInvariant(parseId, lines);
    var st := Run(parseId, lines);
    FinishContents(st);
    FinishNonEmpty(st);
  }

  lemma FinishNonEmpty(st: State)
    requires NoEmptyBatches(st.batches)
    ensures NoEmptyBatches(Finish(st))
  {
    var tail := (if |st.pageRows| > 0 then [PageBatch(st.pageWidth, st.pageRows)] else [])
      + (if |st.imageRows| > 0 then [ImageBatch(st.imageWidth, st.imageRows)] else []);
    assert NoEmptyBatches(tail) by {
      forall k | 0 <= k < |tail|
        ensures (tail[k].PageBatch? ==> |tail[k].pages| > 0) && (tail[k].ImageBatch? ==> |tail[k].images| > 0)
      {
      }
    }
    assert Finish(st) == st.batches + tail;
    AppendNonEmpty(st.batches, tail);
  }

  /** The message the header check throws for the first line. */
  function HeaderError(lines: seq<string>): string
    requires |lines| >= 1 && !HeaderOk(lines)
  {
    LegacyAlgoResults.ValidateHeaders(Split(lines[0], TAB), LegacyAlgoResults.ExpectedHeaders).error
  }

  lemma {:induction false} RunAfterBadHeader(parseId: string -> Option<int>, lines: seq<string>)
    requires |lines| >= 1 && !HeaderOk(lines)
    ensures Run(parseId, lines) == Init.(halted := Some(HeaderError(lines)))
    decreases |lines|
  {
    if |lines| == 1 {
      RunOne(parseId, lines);
    } else {
      var prefix := lines[..|lines| - 1];
      assert prefix[0] == lines[0];
      RunAfterBadHeader(parseId, prefix);
    }
  }

  /** A file with a bad header inserts nothing and ends with the header check's error. */
  lemma InsertFileBadHeader(parseId: string -> Option<int>, lines: seq<string>)
    requires |lines| >= 1 && !HeaderOk(lines)
    ensures InsertFile(parseId, lines) == Ingestion([], Aborted(HeaderError(lines)))
  {
    RunAfterBadHeader(parseId, lines);
  }
}

=== FILE: legacy_media_search.dfy ===
/**
 * lib/mediaSearchResults.js, the MediaSearch client that lib/imageSuggestions.js
 * uses: it keeps the API's page order and the full `File:` title, and labels
 * every suggestion as a low-confidence `ms` suggestion. An API failure is
 * rethrown unchanged.
 */
module LegacyMediaSearch {
  import opened JsBase
  import opened MwApi
  import MediaSearch

  /** A suggestion as the response lists it: `filename`, `source`, `confidence_rating`. */
  datatype Suggestion = Suggestion(filename: string, source: string, confidenceRating: string)

  function ToSuggestion(p: ApiPage): Suggestion {
    Suggestion(p.title, "ms", "low")
  }

  /** `doGetFromMediaSearch`: the suggestions of a response, or the call's own error. */
  function DoGetFromMediaSearch(apiResult: Result<ApiResponse, Detail>): (r: Result<seq<Suggestion>, Detail>)
    ensures apiResult.Failure? ==> r == Failure(apiResult.error)
    ensures apiResult.Success? ==> r.Success?
    ensures apiResult.Success? && Hits(apiResult.value).None? ==> r.value == []
    ensures apiResult.Success? && Hits(apiResult.value).Some? ==>
      var pages := Hits(apiResult.value).value;
      && |r.value| == |pages|
      && forall k :: 0 <= k < |pages| ==>
           r.value[k].filename == pages[k].title && r.value[k].source == "ms" && r.value[k].confidenceRating == "low"
  {
    match apiResult
    case Failure(e) => Failure(e)
    case Success(resp) =>
      match Hits(resp)
      case None => Success([])
      case Some(pages) => Success(seq(|pages|, k requires 0 <= k < |pages| => ToSuggestion(pages[k])))
  }

  /** `getResults` for a page: the same search query as the later client builds. */
  function GetResultsQuery(pageTitle: string, limit: int): (q: ApiQuery)
    ensures q == MediaSearch.GetResultsQuery(pageTitle, limit)
    ensures q.gsrsearch == SearchPrefix + pageTitle && q.gsrlimit == limit && q.gsroffset == 0
  {
    SearchQuery(pageTitle, limit)
  }

  /**
   * For a response already in index order with distinct indexes, the later
   * client returns the same suggestions, one for one, except that each
   * filename has lost its `File:` prefix and the source carries details.
   */
  lemma LaterClientStripsPrefix(resp: ApiResponse)
    requires Hits(resp).Some?
    requires MediaSearch.SortedByIndex(Hits(resp).value) && MediaSearch.DistinctIndexes(Hits(resp).value)
    ensures var old_ := DoGetFromMediaSearch(Success(resp)).value;
      var new_ := MediaSearch.DoGetFromMediaSearch(Success(resp)).value;
      && |new_| == |old_|
      && forall k :: 0 <= k < |old_| ==>
           && new_[k].filename == MediaSearch.StripFilePrefix(old_[k].filename)
           && new_[k].confidenceRating == old_[k].confidenceRating
           && new_[k].source.name == old_[k].source
  {
    var pages := Hits(resp).value;
    MediaSearch.SuggestionsInIndexOrder(resp, pages);
  }
}

=== FILE: media_search.dfy ===
/**
 * lib/MediaSearchResults.js: turning a MediaSearch response into suggestions.
 * The returned pages are put in ascending order of their `index` (the order
 * Special:MediaSearch shows), the `File:` namespace prefix is dropped from each
 * title, and every suggestion is a low-confidence `ms` suggestion.
 */
module MediaSearch {
  import opened JsBase
  import opened MwApi

  /** `source`: the source name and its (always empty) details. */
  datatype SourceInfo = SourceInfo(name: string, details: map<string, string>)

  datatype Suggestion = Suggestion(filename: string, confidenceRating: string, source: SourceInfo)

  const Prefix: string := "File:"

  /** `title.replace(/^File:/, '')`: one leading `File:` removed, if there is one. */
  function StripFilePrefix(title: string): (r: string)
    ensures |title| >= |Prefix| && title[..|Prefix|] == Prefix ==> title == Prefix + r
    ensures !(|title| >= |Prefix| && title[..|Prefix|] == Prefix) ==> r == title
  {
    if |title| >= |Prefix| && title[..|Prefix|] == Prefix then title[|Prefix|..] else title
  }

  /** Removing the prefix undoes adding it, and only one `File:` is removed. */
  lemma StripAddedPrefix(name: string)
    ensures StripFilePrefix(Prefix + name) == name
  {
    assert (Prefix + name)[..|Prefix|] == Prefix;
  }

  // ---------------------------------------------------------------------------
  // Ordering by index
  // ---------------------------------------------------------------------------

  predicate SortedByIndex(s: seq<ApiPage>) {
    forall i, j :: 0 <= i < j < |s| ==> s[i].index <= s[j].index
  }

  predicate DistinctIndexes(s: seq<ApiPage>) {
    forall i, j :: 0 <= i < j < |s| ==> s[i].index != s[j].index
  }

  /** Places `p` after every element of a sorted list whose index is not larger. */
  function InsertByIndex(p: ApiPage, sorted: seq<ApiPage>): (r: seq<ApiPage>)
    requires SortedByIndex(sorted)
    ensures SortedByIndex(r)
    ensures multiset(r) == multiset(sorted) + multiset{p}
    ensures |r| == |sorted| + 1
    decreases |sorted|
  {
    if |sorted| == 0 then [p]
    else
      var n := |sorted| - 1;
      var last := sorted[n];
      if last.index <= p.index then sorted + [p]
      else
        var front := InsertByIndex(p, sorted[..n]);
        assert sorted == sorted[..n] + [last];
        BelowLast(p, sorted, front);
        AppendLargest(front, last);
        front + [last]
  }

  /** Every page of `front` (the earlier pages and `p`) has an index no larger than the last page's. */
  lemma BelowLast(p: ApiPage, sorted: seq<ApiPage>, front: seq<ApiPage>)
    requires SortedByIndex(sorted) && |sorted| > 0 && p.index < sorted[|sorted| - 1].index
    requires multiset(front) == multiset(sorted[..|sorted| - 1]) + multiset{p}
    ensures forall k :: 0 <= k < |front| ==> front[k].index <= sorted[|sorted| - 1].index
  {
    var n := |sorted| - 1;
    forall k | 0 <= k < |front| ensures front[k].index <= sorted[n].index {
      assert front[k] in multiset(front);
      if front[k] != p {
        assert front[k] in multiset(sorted[..n]);
        var j :| 0 <= j < n && sorted[..n][j] == front[k];
        assert sorted[j] == front[k];
      }
    }
  }

  /** Appending a page whose index bounds all others keeps a list sorted. */
  lemma AppendLargest(front: seq<ApiPage>, last: ApiPage)
    requires SortedByIndex(front)
    requires forall k :: 0 <= k < |front| ==> front[k].index <= last.index
    ensures SortedByIndex(front + [last])
  {
    var r := front + [last];
    forall i, j | 0 <= i < j < |r| ensures r[i].index <= r[j].index {
      if j == |front| {
        assert r[i] == front[i];
      } else {
        assert r[i] == front[i] && r[j] == front[j];
      }
    }
  }

  /**
   * The comparator sort of `body.query.pages`. Pages with equal indexes keep
   * their relative order here; MediaSearch returns distinct indexes, and then
   * the order is forced (see `SortedUnique`).
   */
  function SortByIndex(s: seq<ApiPage>): (r: seq<ApiPage>)
    ensures SortedByIndex(r)
    ensures multiset(r) == multiset(s)
    ensures |r| == |s|
    decreases |s|
  {
    if |s| == 0 then []
    else
      var n := |s| - 1;
      assert s == s[..n] + [s[n]];
      InsertByIndex(s[n], SortByIndex(s[..n]))
  }

  /** With distinct indexes there is only one sorted order of a multiset of pages. */
  lemma {:induction false} SortedUnique(a: seq<ApiPage>, b: seq<ApiPage>)
    requires SortedByIndex(a) && SortedByIndex(b) && DistinctIndexes(a)
    requires multiset(a) == multiset(b)
    ensures a == b
    decreases |a|
  {
    assert |a| == |multiset(a)| == |multiset(b)| == |b|;
    if |a| > 0 {
      SameHead(a, b);
      TailMultiset(a);
      TailMultiset(b);
      SortedUnique(a[1..], b[1..]);
      assert a == [a[0]] + a[1..];
      assert b == [b[0]] + b[1..];
    }
  }

  /** Two sorted lists with the same pages start with the same page, when indexes are distinct. */
  lemma SameHead(a: seq<ApiPage>, b: seq<ApiPage>)
    requires SortedByIndex(a) && SortedByIndex(b) && DistinctIndexes(a)
    requires multiset(a) == multiset(b) && |a| > 0 && |b| > 0
    ensures a[0] == b[0]
  {
    assert a[0] in multiset(b);
    var j :| 0 <= j < |b| && b[j] == a[0];
    assert b[0] in multiset(a);
    var i :| 0 <= i < |a| && a[i] == b[0];
    assert a[0].index <= a[i].index;
    assert b[0].index <= b[j].index;
    assert a[i].index == a[0].index;
    assert i == 0;
  }

  lemma TailMultiset(a: seq<ApiPage>)
    requires |a| > 0
    ensures multiset(a[1..]) == multiset(a) - multiset{a[0]}
  {
    assert a == [a[0]] + a[1..];
  }

  /** Any order a comparator sort may produce is the one `SortByIndex` gives, when indexes are distinct. */
  lemma AnySortAgrees(s: seq<ApiPage>, other: seq<ApiPage>)
    requires DistinctIndexes(s)
    requires SortedByIndex(other) && multiset(other) == multiset(s)
    ensures other == SortByIndex(s)
  {
    var r := SortByIndex(s);
    assert DistinctIndexes(r) by {
      forall i, j | 0 <= i < j < |r| ensures r[i].index != r[j].index {
        assert r[i] in multiset(s) && r[j] in multiset(s);
        var i' :| 0 <= i' < |s| && s[i'] == r[i];
        var j' :| 0 <= j' < |s| && s[j'] == r[j];
        MultisetDuplicate(r, i, j);
        SingleOccurrence(s, i');
        assert r[i] != r[j];
        assert i' != j';
      }
    }
    SortedUnique(r, other);
  }

  /** Two positions holding the same element count twice in the multiset. */
  lemma MultisetDuplicate(r: seq<ApiPage>, i: int, j: int)
    requires 0 <= i < j < |r|
    ensures r[i] == r[j] ==> multiset(r)[r[i]] >= 2
  {
    var x := r[i];
    var y := r[j];
    assert r == r[..i] + [x] + r[i + 1..j] + [y] + r[j + 1..];
    assert multiset(r) == multiset(r[..i]) + multiset{x} + multiset(r[i + 1..j]) + multiset{y} + multiset(r[j + 1..]);
  }

  /** With distinct indexes, every page occurs once. */
  lemma SingleOccurrence(s: seq<ApiPage>, k: int)
    requires DistinctIndexes(s) && 0 <= k < |s|
    ensures multiset(s)[s[k]] == 1
  {
    var x := s[k];
    assert s == s[..k] + [x] + s[k + 1..];
    forall m | 0 <= m < k ensures s[..k][m] != x {
      assert s[m].index != s[k].index;
    }
    forall m | k < m < |s| ensures s[m] != x {
      assert s[m].index != s[k].index;
    }
    assert x !in multiset(s[..k]);
    assert x !in multiset(s[k + 1..]) by {
      var t := s[k + 1..];
      forall m | 0 <= m < |t| ensures t[m] != x {
        assert t[m] == s[k + 1 + m];
      }
    }
    assert multiset(s) == multiset(s[..k]) + multiset{x} + multiset(s[k + 1..]);
  }

  // ---------------------------------------------------------------------------
  // Response to suggestions
  // ---------------------------------------------------------------------------

  function ToSuggestion(p: ApiPage): Suggestion {
    Suggestion(StripFilePrefix(p.title), "low", SourceInfo("ms", map[]))
  }

  /** The error `doGetFromMediaSearch` throws when the API call itself fails. */
  const RetrievalError: HttpError :=
    HttpError(500, "error", "Error", Message("Unable to retrieve mediasearch results"))

  /**
   * `doGetFromMediaSearch`: a failed call is a 500 error; a response without
   * hits gives no suggestions; otherwise one suggestion per page, in index order.
   */
  function DoGetFromMediaSearch(apiResult: Result<ApiResponse, Detail>): (r: Result<seq<Suggestion>, HttpError>)
    ensures apiResult.Failure? <==> r.Failure?
    ensures r.Failure? ==> r.error == RetrievalError
    ensures apiResult.Success? && Hits(apiResult.value).None? ==> r == Success([])
    ensures apiResult.Success? && Hits(apiResult.value).Some? ==>
      var pages := Hits(apiResult.value).value;
      && |r.value| == |pages|
      && (forall k :: 0 <= k < |r.value| ==> r.value[k].confidenceRating == "low" && r.value[k].source == SourceInfo("ms", map[]))
      && (forall k :: 0 <= k < |pages| ==> exists m :: 0 <= m < |r.value| && r.value[m].filename == StripFilePrefix(pages[k].title))
  {
    match apiResult
    case Failure(_) => Failure(RetrievalError)
    case Success(resp) =>
      match Hits(resp)
      case None => Success([])
      case Some(pages) =>
        var sorted := SortByIndex(pages);
        var out := seq(|sorted|, k requires 0 <= k < |sorted| => ToSuggestion(sorted[k]));
        assert forall k :: 0 <= k < |pages| ==> exists m :: 0 <= m < |out| && out[m].filename == StripFilePrefix(pages[k].title) by {
          forall k | 0 <= k < |pages| ensures exists m :: 0 <= m < |out| && out[m].filename == StripFilePrefix(pages[k].title) {
            assert pages[k] in multiset(sorted);
            var m :| 0 <= m < |sorted| && sorted[m] == pages[k];
            assert out[m].filename == StripFilePrefix(pages[k].title);
          }
        }
        Success(out)
  }

  /**
   * With distinct indexes, the suggestions are those of the pages in ascending
   * index order, whatever sorting algorithm produced that order.
   */
  lemma SuggestionsInIndexOrder(resp: ApiResponse, order: seq<ApiPage>)
    requires Hits(resp).Some? && DistinctIndexes(Hits(resp).value)
    requires SortedByIndex(order) && multiset(order) == multiset(Hits(resp).value)
    ensures DoGetFromMediaSearch(Success(resp)) == Success(seq(|order|, k requires 0 <= k < |order| => ToSuggestion(order[k])))
  {
    AnySortAgrees(Hits(resp).value, order);
  }

  /** `getResults` for a page: the query it sends for the page title and limit. */
  function GetResultsQuery(pageTitle: string, limit: int): (q: ApiQuery)
    ensures q.gsrlimit == limit && q.gsroffset == 0 && q.gsrnamespace == FileNamespace
    ensures q.gsrsearch == SearchPrefix + pageTitle
  {
    SearchQuery(pageTitle, limit)
  }
}

=== FILE: merge_theorems.dfy ===
/**
 * What the MediaSearch requests of `getPages` are, and how the two merges
 * pair their results with pages: the corrected merge gives every requested
 * page the result of its own request and respects the per-page quota; the
 * merge as written agrees with it exactly when every page was requested, and
 * otherwise hands results to the wrong pages.
 */
module MergeTheorems {
  import opened JsBase
  import opened LegacyMediaSearch
  import opened ImageSuggestions

  lemma RequestsSnoc(pages: seq<Page>, p: Page)
    ensures Requests(pages + [p]) == Requests(pages) + (if Quota(p) > 0 then [MsRequest(p.page, Quota(p))] else [])
  {
    assert (pages + [p])[..|pages|] == pages;
  }

  /** The requests for a prefix of the pages are a prefix of all requests. */
  lemma {:induction false} RequestsPrefix(pages: seq<Page>, m: nat)
    requires m <= |pages|
    ensures |Requests(pages[..m])| <= |Requests(pages)|
    ensures Requests(pages)[..|Requests(pages[..m])|] == Requests(pages[..m])
    decreases |pages|
  {
    if m < |pages| {
      var front := pages[..|pages| - 1];
      assert front[..m] == pages[..m];
      RequestsPrefix(front, m);
      assert pages == front + [pages[|pages| - 1]];
      RequestsSnoc(front, pages[|pages| - 1]);
    } else {
      assert pages[..m] == pages;
    }
  }

  /** The request count grows by one exactly at each page with a positive quota. */
  lemma RequestIndexStep(pages: seq<Page>, i: nat)
    requires i < |pages|
    ensures RequestIndex(pages, i + 1) == RequestIndex(pages, i) + (if Quota(pages[i]) > 0 then 1 else 0)
    ensures Requests(pages[..i + 1]) == Requests(pages[..i]) + (if Quota(pages[i]) > 0 then [MsRequest(pages[i].page, Quota(pages[i]))] else [])
  {
    assert pages[..i + 1] == pages[..i] + [pages[i]];
    RequestsSnoc(pages[..i], pages[i]);
  }

  /** A page with a positive quota is the subject of request number `RequestIndex(pages, i)`. */
  lemma OwnRequest(pages: seq<Page>, i: nat)
    requires i < |pages| && Quota(pages[i]) > 0
    ensures RequestIndex(pages, i) < |Requests(pages)|
    ensures Requests(pages)[RequestIndex(pages, i)] == MsRequest(pages[i].page, Quota(pages[i]))
  {
    RequestIndexStep(pages, i);
    RequestsPrefix(pages, i + 1);
    var c := RequestIndex(pages, i);
    assert Requests(pages[..i + 1])[c] == MsRequest(pages[i].page, Quota(pages[i]));
  }

  /** Later pages have later requests: no two requested pages share a request. */
  lemma {:induction false} RequestIndexMonotone(pages: seq<Page>, i: nat, j: nat)
    requires i < j <= |pages| && Quota(pages[i]) > 0
    ensures RequestIndex(pages, i) < RequestIndex(pages, j)
    decreases j - i
  {
    RequestIndexStep(pages, i);
    if j > i + 1 {
      RequestIndexAtLeast(pages, i + 1, j);
    }
  }

  lemma {:induction false} RequestIndexAtLeast(pages: seq<Page>, i: nat, j: nat)
    requires i <= j <= |pages|
    ensures RequestIndex(pages, i) <= RequestIndex(pages, j)
    decreases j - i
  {
    if i < j {
      RequestIndexStep(pages, i);
      RequestIndexAtLeast(pages, i + 1, j);
    }
  }

  /** Every request is the request of some page with a positive quota. */
  lemma {:induction false} EveryRequestHasPage(pages: seq<Page>, c: nat)
    requires c < |Requests(pages)|
    ensures exists i :: 0 <= i < |pages| && Quota(pages[i]) > 0 && RequestIndex(pages, i) == c
    decreases |pages|
  {
    var n := |pages| - 1;
    var front := pages[..n];
    assert pages == front + [pages[n]];
    RequestsSnoc(front, pages[n]);
    if c < |Requests(front)| {
      EveryRequestHasPage(front, c);
      var i :| 0 <= i < |front| && Quota(front[i]) > 0 && RequestIndex(front, i) == c;
      assert front[..i] == pages[..i];
      assert RequestIndex(pages, i) == c;
    } else {
      assert pages[..n] == front;
      assert RequestIndex(pages, n) == c;
    }
  }

  /**
   * The corrected merge: every requested page receives, after its own
   * suggestions, the result of the request made for it; other pages are
   * unchanged; project, title and order are kept. When each result keeps to
   * its request's limit, no requested page ends with more than ten suggestions.
   */
  lemma CorrectedMergePairs(pages: seq<Page>, results: seq<seq<Suggestion>>)
    requires |results| == |Requests(pages)|
    ensures var merged := MergeCorrected(pages, results);
      forall i :: 0 <= i < |pages| ==>
        && merged[i].project == pages[i].project && merged[i].page == pages[i].page
        && (Quota(pages[i]) <= 0 ==> merged[i] == pages[i])
        && (Quota(pages[i]) > 0 ==>
              var c := RequestIndex(pages, i);
              && c < |Requests(pages)|
              && Requests(pages)[c] == MsRequest(pages[i].page, Quota(pages[i]))
              && merged[i].suggestions == pages[i].suggestions + Entries(results[c]))
  {
    forall i | 0 <= i < |pages| && Quota(pages[i]) > 0
      ensures RequestIndex(pages, i) < |Requests(pages)|
      ensures Requests(pages)[RequestIndex(pages, i)] == MsRequest(pages[i].page, Quota(pages[i]))
    {
      OwnRequest(pages, i);
    }
  }

  /** Without requests no page has a positive quota, so the corrected merge changes nothing. */
  lemma NoRequestsNoChange(pages: seq<Page>, results: seq<seq<Suggestion>>)
    requires |Requests(pages)| == 0
    ensures MergeCorrected(pages, results) == pages
  {
    forall i | 0 <= i < |pages| ensures Quota(pages[i]) <= 0 {
      if Quota(pages[i]) > 0 {
        OwnRequest(pages, i);
        assert false;
      }
    }
  }

  /**
   * The corrected endpoint: for a valid request whose source is unset or `ms`,
   * whose image-matching lookup succeeds and whose MediaSearch lookup gives one
   * result per request, the response keeps the pages in order; every page with
   * a positive quota ends with its image-matching suggestions followed by the
   * result of its own request, and every other page is returned unchanged.
   */
  lemma CorrectedGetPagesPairs(parseInt: string -> Option<int>, lang: string, wiki: string, query: Query,
                               algo: Result<seq<AlgoResult>, Detail>, ms: Result<seq<seq<Suggestion>>, Detail>)
    requires CorrectedValidateParams(parseInt, lang, wiki, query).Success?
    requires !SourceGiven(query) || query.source.value == "ms"
    requires algo.Success? && ms.Success?
    requires |ms.value| == |Requests(PagesOf(algo.value, IncludeIma(query)))|
    ensures var pages := PagesOf(algo.value, IncludeIma(query));
      var r := CorrectedGetPages(parseInt, lang, wiki, query, algo, ms);
      && r.Success? && |r.value| == |pages|
      && forall i :: 0 <= i < |pages| ==>
        && r.value[i].project == algo.value[i].project && r.value[i].page == algo.value[i].page
        && (Quota(pages[i]) <= 0 ==> r.value[i] == pages[i])
        && (Quota(pages[i]) > 0 ==>
              var c := RequestIndex(pages, i);
              && c < |ms.value|
              && Requests(pages)[c] == MsRequest(algo.value[i].page, Quota(pages[i]))
              && r.value[i].suggestions == pages[i].suggestions + Entries(ms.value[c]))
  {
    var pages := PagesOf(algo.value, IncludeIma(query));
    if |Requests(pages)| == 0 {
      NoRequestsNoChange(pages, ms.value);
    }
    assert CorrectedGetPages(parseInt, lang, wiki, query, algo, ms) == Success(MergeCorrected(pages, ms.value));
    CorrectedMergePairs(pages, ms.value);
  }

  lemma CorrectedMergeQuota(pages: seq<Page>, results: seq<seq<Suggestion>>)
    requires |results| == |Requests(pages)|
    requires forall c :: 0 <= c < |results| ==> |results[c]| <= Requests(pages)[c].limit
    ensures var merged := MergeCorrected(pages, results);
      forall i :: 0 <= i < |pages| && Quota(pages[i]) > 0 ==> |merged[i].suggestions| <= MaxSuggestionsPerPage
  {
    CorrectedMergePairs(pages, results);
  }

  /** When every page has a positive quota, page i made request i. */
  lemma {:induction false} AllRequestedIndex(pages: seq<Page>, i: nat)
    requires i <= |pages|
    requires forall k :: 0 <= k < |pages| ==> Quota(pages[k]) > 0
    ensures RequestIndex(pages, i) == i
    decreases i
  {
    if i > 0 {
      AllRequestedIndex(pages, i - 1);
      RequestIndexStep(pages, i - 1);
    } else {
      assert pages[..0] == [];
    }
  }

  /** When every page was requested, pairing by page position is pairing by request: the two merges agree. */
  lemma AllRequestedAgree(pages: seq<Page>, results: seq<seq<Suggestion>>)
    requires forall k :: 0 <= k < |pages| ==> Quota(pages[k]) > 0
    requires |results| == |Requests(pages)|
    ensures |results| == |pages|
    ensures MergeAsWritten(pages, results) == MergeCorrected(pages, results)
  {
    AllRequestedIndex(pages, |pages|);
    assert pages[..|pages|] == pages;
    forall i | 0 <= i < |pages| ensures MergeAsWritten(pages, results)[i] == MergeCorrected(pages, results)[i] {
      AllRequestedIndex(pages, i);
    }
  }

  /**
   * With `source=ms` no page carries image-matching suggestions, every page is
   * requested, and the response as written is the corrected one.
   */
  lemma MediaSearchOnlyAgrees(v: Validated, algo: Result<seq<AlgoResult>, Detail>, ms: Result<seq<seq<Suggestion>>, Detail>)
    requires v.query.source == Some("ms")
    requires algo.Success? && ms.Success? ==> |ms.value| == |algo.value|
    ensures Respond(Success(v), algo, ms, MergeAsWritten) == Respond(Success(v), algo, ms, MergeCorrected)
  {
    if algo.Success? && ms.Success? {
      var pages := PagesOf(algo.value, IncludeIma(v.query));
      assert forall k :: 0 <= k < |pages| ==> Quota(pages[k]) > 0;
      AllRequestedIndex(pages, |pages|);
      assert pages[..|pages|] == pages;
      AllRequestedAgree(pages, ms.value);
    }
  }

  /**
   * Two pages: the first already has ten image-matching suggestions and is not
   * requested, the second has none and is. As written, the second page's
   * MediaSearch result goes to the first page and the second receives
   * `undefined`; the correction gives the result to the second page.
   */
  lemma MisalignedMerge(x: Suggestion)
    ensures var full := Page("arwiki", "A", seq(10, k => Listed(Suggestion("f", "ima", "medium"))));
      var empty := Page("arwiki", "B", []);
      var pages := [full, empty];
      && Requests(pages) == [MsRequest("B", 10)]
      && MergeAsWritten(pages, [[x]]) == [full.(suggestions := full.suggestions + [Listed(x)]), empty.(suggestions := [UndefinedEntry])]
      && MergeCorrected(pages, [[x]]) == [full, empty.(suggestions := [Listed(x)])]
  {
    var full := Page("arwiki", "A", seq(10, k => Listed(Suggestion("f", "ima", "medium"))));
    var empty := Page("arwiki", "B", []);
    var pages := [full, empty];
    assert Quota(full) == 0 && Quota(empty) == 10;
    assert [full, empty][..1] == [full];
    RequestsSnoc([full], empty);
    RequestsSnoc([], full);
    assert [] + [full] == [full];
    assert Requests(pages) == [MsRequest("B", 10)];
    assert RequestIndex(pages, 1) == 0 by {
      assert pages[..1] == [full];
    }
    assert Entries([x]) == [Listed(x)];
    var asWritten := MergeAsWritten(pages, [[x]]);
    assert asWritten[0] == full.(suggestions := full.suggestions + [Listed(x)]);
    assert asWritten[1] == empty.(suggestions := [UndefinedEntry]);
    var corrected := MergeCorrected(pages, [[x]]);
    assert corrected[0] == full;
    assert corrected[1] == empty.(suggestions := [Listed(x)]);
  }
}

=== FILE: mw_api.dfy ===
/**
 * The MediaWiki Action API search that both MediaSearch clients issue
 * (lib/MediaSearchResults.js and lib/mediaSearchResults.js): the query they
 * build for a page title, and the shape of the response they read. The
 * network call itself is not modelled; its response is an input.
 */
module MwApi {
  import opened JsBase

  /** The query object passed to `mwApiGet`, and the domain set on the request. */
  datatype ApiQuery = ApiQuery(
    domain: string,
    action: string,
    generator: string,
    gsrsearch: string,
    gsrlimit: int,
    gsroffset: int,
    gsrnamespace: int,
    gsrinfo: string,
    uselang: string)

  /** The search-term prefix: bitmaps and drawings only. */
  const SearchPrefix: string := "filetype:bitmap|drawing "

  /** The File namespace. */
  const FileNamespace: int := 6

  /** `getFromMediaSearch`'s query for a page title and a result limit. */
  function SearchQuery(pageTitle: string, limit: int): (q: ApiQuery)
    ensures |q.gsrsearch| >= |SearchPrefix| && q.gsrsearch[..|SearchPrefix|] == SearchPrefix
    ensures |q.gsrsearch| >= |SearchPrefix| && q.gsrsearch[|SearchPrefix|..] == pageTitle
    ensures q.gsrlimit == limit && q.gsroffset == 0 && q.gsrnamespace == FileNamespace
    ensures q.domain == "commons.wikimedia.org"
  {
    ApiQuery("commons.wikimedia.org", "query", "search", SearchPrefix + pageTitle, limit, 0,
             FileNamespace, "totalhits|suggestion", "en")
  }

  /** One entry of `body.query.pages`. */
  datatype ApiPage = ApiPage(title: string, index: int)

  /** `body.query`: the hit count and the returned pages. */
  datatype QueryBody = QueryBody(totalhits: int, pages: seq<ApiPage>)

  /** What `mwApiGet` resolves with: something that is not an object, or a body with or without `query`. */
  datatype ApiResponse = NotAnObject | Response(query: Option<QueryBody>)

  /** The pages a response offers: present only for an object with `query` and a positive hit count. */
  function Hits(resp: ApiResponse): (r: Option<seq<ApiPage>>)
    ensures r.Some? <==> resp.Response? && resp.query.Some? && resp.query.value.totalhits > 0
    ensures r.Some? ==> r.value == resp.query.value.pages
  {
    match resp
    case NotAnObject => None
    case Response(None) => None
    case Response(Some(body)) => if body.totalhits > 0 then Some(body.pages) else None
  }
}

=== FILE: tsv_to_json.dfy ===
/**
 * lib/tsvToJson.js: turning a TSV text into one JavaScript object per
 * non-blank line, keyed by the header row, and choosing which `.tsv` files of
 * a directory need their `.json` counterpart regenerated.
 *
 * The file system is not modelled: whether the directory exists is a flag,
 * its listing is a sequence of names, and the freshness test `checkForNewTsv`
 * (which compares modification times) is a function parameter.
 */
module TsvToJson {
  import opened JsBase
  import opened JsStrings
  import HeaderCheck

  // ---------------------------------------------------------------------------
  // Header check
  // ---------------------------------------------------------------------------

  const LengthMessage: string := "Number of input headers does not match number of expected headers"

  function PositionMessage(header: string, expected: string): string {
    "Expected " + header + " to be " + expected
  }

  /** `validateTSVHeaders`: succeeds iff `headers` equals `expected` element-wise. */
  function ValidateTSVHeaders(headers: seq<string>, expected: seq<string>): (r: Result<(), string>)
    ensures r.Success? <==> headers == expected
    ensures |headers| != |expected| ==> r == Failure(LengthMessage)
    ensures |headers| == |expected| && headers != expected ==>
      exists i :: 0 <= i < |headers| && headers[..i] == expected[..i] && headers[i] != expected[i]
        && r == Failure(PositionMessage(headers[i], expected[i]))
  {
    HeaderCheck.Validate(headers, expected, LengthMessage, PositionMessage)
  }

  // ---------------------------------------------------------------------------
  // One record per line
  // ---------------------------------------------------------------------------

  /** A converted line: header name to field (`undefined` when the line is short). */
  type Record = map<string, Value>

  /**
   * The `reduce` over the headers: `obj[headers[i]] = data[i]` in header order,
   * so a repeated header keeps its last field.
   */
  function ToRecord(headers: seq<string>, data: seq<string>): (r: Record)
    ensures forall k :: k in r <==> k in headers
    decreases |headers|
  {
    if |headers| == 0 then map[]
    else
      var n := |headers| - 1;
      var prefix := ToRecord(headers[..n], data);
      assert headers == headers[..n] + [headers[n]];
      prefix[headers[n] := Field(data, n)]
  }

  /** The field under a header is the data field at that header's last position. */
  lemma {:induction false} RecordField(headers: seq<string>, data: seq<string>, i: nat)
    requires i < |headers|
    requires forall j :: i < j < |headers| ==> headers[j] != headers[i]
    ensures ToRecord(headers, data)[headers[i]] == Field(data, i)
    decreases |headers|
  {
    var n := |headers| - 1;
    if i < n {
      RecordField(headers[..n], data, i);
    }
  }

  /** With distinct headers, every field lands under its own header. */
  lemma RecordFields(headers: seq<string>, data: seq<string>)
    requires forall i, j :: 0 <= i < j < |headers| ==> headers[i] != headers[j]
    ensures forall i :: 0 <= i < |headers| ==> ToRecord(headers, data)[headers[i]] == Field(data, i)
  {
    forall i | 0 <= i < |headers| ensures ToRecord(headers, data)[headers[i]] == Field(data, i) {
      RecordField(headers, data, i);
    }
  }

  /** The optional callback: it receives the output so far and the new record, and yields the new output. */
  type Callback = (seq<Record>, Record) -> seq<Record>

  /** What one non-blank line does to the output. */
  function Emit(callback: Option<Callback>, json: seq<Record>, rec: Record): seq<Record> {
    match callback
    case None => json + [rec]
    case Some(f) => f(json, rec)
  }

  /** The `forEach` over the lines after the header. */
  function Convert(headers: seq<string>, lines: seq<string>, callback: Option<Callback>): seq<Record>
    decreases |lines|
  {
    if |lines| == 0 then []
    else
      var json := Convert(headers, lines[..|lines| - 1], callback);
      var line := lines[|lines| - 1];
      if |Trim(line)| > 0 then Emit(callback, json, ToRecord(headers, Split(line, TAB))) else json
  }

  /** The header fields of a TSV text: its first line split on tabs. */
  function Headers(tsv: string): seq<string> {
    Split(Split(tsv, NEWLINE)[0], TAB)
  }

  /** The lines of a TSV text after the header line. */
  function Body(tsv: string): seq<string> {
    Split(tsv, NEWLINE)[1..]
  }

  /**
   * `tsvToJson`: the header check runs only when expected headers are given,
   * and its error is thrown; otherwise the converted lines.
   */
  function TsvToJson(tsv: string, expectedHeaders: Option<seq<string>>, callback: Option<Callback>): (r: Result<seq<Record>, string>)
    ensures expectedHeaders.None? ==> r.Success?
    ensures expectedHeaders.Some? ==> (r.Failure? <==> Headers(tsv) != expectedHeaders.value)
    ensures expectedHeaders.Some? && |Headers(tsv)| != |expectedHeaders.value| ==> r == Failure(LengthMessage)
    ensures expectedHeaders.Some? && |Headers(tsv)| == |expectedHeaders.value| && Headers(tsv) != expectedHeaders.value ==>
      var h, e := Headers(tsv), expectedHeaders.value;
      exists i :: 0 <= i < |h| && h[..i] == e[..i] && h[i] != e[i] && r == Failure(PositionMessage(h[i], e[i]))
  {
    var headers := Headers(tsv);
    if expectedHeaders.Some? && ValidateTSVHeaders(headers, expectedHeaders.value).Failure? then
      Failure(ValidateTSVHeaders(headers, expectedHeaders.value).error)
    else Success(Convert(headers, Body(tsv), callback))
  }

  // ---------------------------------------------------------------------------
  // Reference definitions and their connection to the fold
  // ---------------------------------------------------------------------------

  /** The lines that are not entirely JavaScript whitespace, in order. */
  function DataLines(lines: seq<string>): seq<string>
    decreases |lines|
  {
    if |lines| == 0 then []
    else DataLines(lines[..|lines| - 1]) + (if IsBlank(lines[|lines| - 1]) then [] else [lines[|lines| - 1]])
  }

  /** One record per line. */
  function Records(headers: seq<string>, lines: seq<string>): (r: seq<Record>)
    ensures |r| == |lines|
  {
    seq(|lines|, k requires 0 <= k < |lines| => ToRecord(headers, Split(lines[k], TAB)))
  }

  /** The callback applied to each record in turn, starting from an empty output. */
  function FoldCallback(f: Callback, recs: seq<Record>): seq<Record>
    decreases |recs|
  {
    if |recs| == 0 then [] else f(FoldCallback(f, recs[..|recs| - 1]), recs[|recs| - 1])
  }

  lemma RecordsSnoc(headers: seq<string>, lines: seq<string>, line: string)
    ensures Records(headers, lines + [line]) == Records(headers, lines) + [ToRecord(headers, Split(line, TAB))]
  {
  }

  lemma FoldCallbackSnoc(f: Callback, recs: seq<Record>, rec: Record)
    ensures FoldCallback(f, recs + [rec]) == f(FoldCallback(f, recs), rec)
  {
    assert (recs + [rec])[..|recs|] == recs;
  }

  /** Without a callback, the output is one record per non-blank line, in order. */
  lemma {:induction false} ConvertWithoutCallback(headers: seq<string>, lines: seq<string>)
    ensures Convert(headers, lines, None) == Records(headers, DataLines(lines))
    decreases |lines|
  {
    if |lines| > 0 {
      var p := lines[..|lines| - 1];
      var line := lines[|lines| - 1];
      ConvertWithoutCallback(headers, p);
      TrimEmptyIffBlank(line);
      if !IsBlank(line) {
        RecordsSnoc(headers, DataLines(p), line);
      }
    }
  }

  /** With a callback, the output is the callback folded over those records, in order. */
  lemma {:induction false} ConvertWithCallback(headers: seq<string>, lines: seq<string>, f: Callback)
    ensures Convert(headers, lines, Some(f)) == FoldCallback(f, Records(headers, DataLines(lines)))
    decreases |lines|
  {
    if |lines| > 0 {
      var p := lines[..|lines| - 1];
      var line := lines[|lines| - 1];
      ConvertWithCallback(headers, p, f);
      TrimEmptyIffBlank(line);
      if !IsBlank(line) {
        var rec := ToRecord(headers, Split(line, TAB));
        assert DataLines(lines) == DataLines(p) + [line];
        RecordsSnoc(headers, DataLines(p), line);
        FoldCallbackSnoc(f, Records(headers, DataLines(p)), rec);
        assert Convert(headers, lines, Some(f)) == f(Convert(headers, p, Some(f)), rec);
      } else {
        assert DataLines(lines) == DataLines(p);
      }
    }
  }

  /** A callback that only pushes the record is the same as passing none. */
  lemma {:induction false} PushingCallback(f: Callback, recs: seq<Record>)
    requires forall json, rec :: f(json, rec) == json + [rec]
    ensures FoldCallback(f, recs) == recs
    decreases |recs|
  {
    if |recs| > 0 {
      PushingCallback(f, recs[..|recs| - 1]);
      assert recs == recs[..|recs| - 1] + [recs[|recs| - 1]];
    }
  }

  /**
   * End to end, without a callback: when the header check passes or is not
   * asked for, the output holds one record per non-blank body line, in order;
   * each record's keys are exactly the header names, and with distinct headers
   * field i of the line is under header i (`undefined` past the line's end).
   */
  lemma TsvToJsonRecords(tsv: string, expectedHeaders: Option<seq<string>>)
    requires expectedHeaders.Some? ==> Headers(tsv) == expectedHeaders.value
    ensures var r := TsvToJson(tsv, expectedHeaders, None);
      var h := Headers(tsv);
      var body := DataLines(Body(tsv));
      && r.Success?
      && |r.value| == |body|
      && (forall k :: 0 <= k < |body| ==> forall key :: key in r.value[k] <==> key in h)
      && ((forall i, j :: 0 <= i < j < |h| ==> h[i] != h[j]) ==>
            forall k, i :: 0 <= k < |body| && 0 <= i < |h| ==> r.value[k][h[i]] == Field(Split(body[k], TAB), i))
  {
    var h := Headers(tsv);
    var body := DataLines(Body(tsv));
    ConvertWithoutCallback(h, Body(tsv));
    if forall i, j :: 0 <= i < j < |h| ==> h[i] != h[j] {
      forall k, i | 0 <= k < |body| && 0 <= i < |h|
        ensures Records(h, body)[k][h[i]] == Field(Split(body[k], TAB), i)
      {
        RecordFields(h, Split(body[k], TAB));
      }
    }
  }

  /** A callback that only pushes the record gives the same output as no callback. */
  lemma PushingCallbackSameOutput(tsv: string, expectedHeaders: Option<seq<string>>, f: Callback)
    requires forall json, rec :: f(json, rec) == json + [rec]
    ensures TsvToJson(tsv, expectedHeaders, Some(f)) == TsvToJson(tsv, expectedHeaders, None)
  {
    var h := Headers(tsv);
    ConvertWithCallback(h, Body(tsv), f);
    ConvertWithoutCallback(h, Body(tsv));
    PushingCallback(f, Records(h, DataLines(Body(tsv))));
  }

  // ---------------------------------------------------------------------------
  // Which files to regenerate
  // ---------------------------------------------------------------------------

  /** A `.tsv` file and the `.json` file it is converted to. */
  datatype TsvPair = TsvPair(tsvFile: string, jsonFile: string)

  /** The filter of the directory listing: the text after the last `.` is `tsv`. */
  predicate IsTsvName(name: string) {
    LastSegment(name) == "tsv"
  }

  /** The `.json` name: the text before the first `.`, then `.json`. */
  function JsonName(tsvFile: string): string {
    FirstSegment(tsvFile) + ".json"
  }

  /**
   * The pairs, in listing order, for the `.tsv` names whose `.json` file
   * `isNew` reports as missing or older.
   */
  function NewTsvPairs(names: seq<string>, isNew: (string, string) -> bool): (r: seq<TsvPair>)
    ensures forall k :: 0 <= k < |r| ==>
      && r[k].tsvFile in names
      && IsTsvName(r[k].tsvFile)
      && r[k].jsonFile == JsonName(r[k].tsvFile)
      && isNew(r[k].tsvFile, r[k].jsonFile)
    ensures forall name :: name in names && IsTsvName(name) && isNew(name, JsonName(name)) ==>
      TsvPair(name, JsonName(name)) in r
    ensures |r| <= |names|
    decreases |names|
  {
    if |names| == 0 then []
    else
      var p := names[..|names| - 1];
      var name := names[|names| - 1];
      assert names == p + [name];
      NewTsvPairs(p, isNew) + (if IsTsvName(name) && isNew(name, JsonName(name)) then [TsvPair(name, JsonName(name))] else [])
  }

  /**
   * `getNewTsvFilesSync`: the error when the directory does not exist,
   * otherwise the pairs to regenerate.
   */
  function GetNewTsvFiles(dataPath: string, pathExists: bool, names: seq<string>,
                          isNew: (string, string) -> bool): (r: Result<seq<TsvPair>, string>)
    ensures !pathExists <==> r.Failure?
    ensures r.Failure? ==> r.error == "static data path " + dataPath + " does not exist"
    ensures r.Success? ==> forall k :: 0 <= k < |r.value| ==> IsTsvName(r.value[k].tsvFile)
  {
    if !pathExists then Failure("static data path " + dataPath + " does not exist")
    else Success(NewTsvPairs(names, isNew))
  }

  /**
   * The `.json` name has the `.tsv` name's base before its only `.`, and
   * `json` after it; so it never passes the `.tsv` filter itself.
   */
  lemma JsonNameShape(tsvFile: string)
    ensures FirstSegment(JsonName(tsvFile)) == FirstSegment(tsvFile)
    ensures LastSegment(JsonName(tsvFile)) == "json"
    ensures !IsTsvName(JsonName(tsvFile))
  {
    var base := FirstSegment(tsvFile);
    var parts := [base, "json"];
    assert '.' !in "json";
    assert Join(parts, ".") == base + "." + "json" by {
      JoinCons(base, ["json"], ".");
    }
    assert JsonName(tsvFile) == base + "." + "json";
    SplitJoin(parts, '.');
  }
}

=== FILE: wiki_id.dfy ===
/**
 * lib/wikiId.js: the wiki database name (`enwiki`, `arwiki`, ...) for a
 * project and a language. Only Wikipedia and 22 languages are known; the
 * project is looked up among the map's own keys, so names inherited by
 * every JavaScript object (`constructor`, `toString`, ...) are unknown too,
 * which a Dafny map gives for free.
 */
module WikiId {
  import opened JsBase

  /** `propertyMap`: project name to database-name suffix. */
  const PropertyMap: map<string, string> := map["wikipedia" := "wiki"]

  /** `recognizedLanguages`. */
  const RecognizedLanguages: seq<string> := [
    "ar", "ceb", "en", "hy", "pt", "sv", "arz", "eu", "he", "ru", "tr",
    "bn", "de", "fa", "hu", "pl", "srw", "uk", "cs", "fr", "vi", "ko"
  ]

  /** `getWikiId(wiki, lang)`: the language followed by the project's suffix, or `false` (`None`). */
  function GetWikiId(wiki: string, lang: string): (r: Option<string>)
    ensures r.Some? <==> wiki == "wikipedia" && lang in RecognizedLanguages
    ensures r.Some? ==> r.value == lang + "wiki"
  {
    if wiki in PropertyMap && lang in RecognizedLanguages then Some(lang + PropertyMap[wiki]) else None
  }

  /**
   * The unit test calls `getWikiId('ar', 'wikipedia')` and expects `arwiki`,
   * the (language, project) order of its caller in lib/imageSuggestions.js.
   * Against the declared `(wiki, lang)` order that call is `false`; only the
   * reversed call gives `arwiki`.
   */
  lemma UnitTestCallOrder()
    ensures GetWikiId("ar", "wikipedia").None?
    ensures GetWikiId("wikipedia", "ar") == Some("arwiki")
  {
    assert "ar" !in PropertyMap;
    assert RecognizedLanguages[0] == "ar";
    assert PropertyMap["wikipedia"] == "wiki";
    assert "ar" + "wiki" == "arwiki";
  }

  /** A wiki id starts with its language and ends with `wiki`, so it determines the language. */
  lemma WikiIdDeterminesLanguage(lang1: string, lang2: string)
    requires GetWikiId("wikipedia", lang1).Some? && GetWikiId("wikipedia", lang2).Some?
    requires GetWikiId("wikipedia", lang1) == GetWikiId("wikipedia", lang2)
    ensures lang1 == lang2
  {
    var id := lang1 + "wiki";
    assert id == lang2 + "wiki";
    assert |lang1| == |lang2|;
    assert lang1 == id[..|lang1|];
    assert lang2 == id[..|lang2|];
  }
}
